=== FILE: README.md ===
# IdeaFlow — a Dafny model of the idea board

IdeaFlow is an idea-management web application. Signed-in users submit ideas. Administrators approve or reject them. Approved ideas appear on a public dashboard, where users vote them up or down. An AI service scores ideas, and an evaluator page gives canned business advice.

This project models the logic of both halves in Dafny:

- **Server.** The Express routes, the storage layer, the shared schema and its validators, the token service and the AI score clamp.
- **Client.** The React pages' decisions: route guards, the fetch wrapper, the auth store, the navigation bar, and the submit and review forms. Also the my-ideas, dashboard, idea-card, evaluator and user-management pages.

Everything is an immutable datatype plus pure functions. A handler takes the store and the request and returns the reply and the new store.

## How the model is organised

One module per source file, plus four helpers:

- `Wrappers`: `Option` and `Result`.
- `Strings`: find, split, join, trim, ASCII lower-casing and decimal printing, with the JavaScript meanings.
- `Lists`: first match, filter, count and map.
- `Sorting`: a stable descending insertion sort.

Each module's correspondence to the source:

- **Schema** (`shared/schema.ts`): the four enumerations, the three tables as records, and the insert schemas as validators on a JSON body.
- **Storage** (`server/storage.ts`): the database as three sequences of rows.
  - The vote table is kept as rows, not as a map keyed by (idea, user). The schema has no uniqueness constraint on the pair, so "at most one vote per pair" is proved as an invariant of the vote handler.
  - The per-pair view `VoteOf` is the abstract map.
- **Auth** (`server/services/auth.ts`): the bearer-header parser and the token payload.
  - Hashing, signing and verifying are cryptographic calls. They enter as function parameters.
- **AiEvaluator** (`server/services/ai-evaluator.ts`): the clamp and the fallback. The outcome of the model call is a parameter.
- **Routes** (`server/routes.ts`): the middleware and every route handler.
  - Input validation of the vote route is a separate step in front of `ResolveVote`, the three-state machine of one (idea, user) pair.
- **App, Navigation, UseAuth**: the fetch wrapper and the request record the pages send, the route guards and router, the menu, and the zustand auth store. The token in local storage is folded into the session as an optional string.
- **SubmitIdea, Admin**: the five-question description writer and its reader on the review page, the reject prompt and the badge colours.
- **IdeaDisplay**: code shared by the my-ideas page and the idea card. This is `formatTimeAgo` (identical in `client/src/pages/my-ideas.tsx:67-80` and `client/src/components/ui/idea-card.tsx:54-67`), the card palette and the capitalised captions.
- **MyIdeas, Dashboard, IdeaCard, EvaluatorPage, UserManagement**: the remaining pages.

Three facts about the vote table and the vote route, as the code has them:

- **Vote type.** The `vote_type` column is free text (`shared/schema.ts:42`), and the insert schema picks it as any string (`shared/schema.ts:77-80`). So any vote type string is stored. `Storage.OtherTypesUncounted` shows that such a vote is counted in neither total.
- **Vote body.** The idea card sends only `{ voteType }` (`client/src/components/ui/idea-card.tsx:35`). The handler parses the body with a schema that also requires `ideaId` (`server/routes.ts:260`); see Findings.
- **One vote per pair.** The vote table has no uniqueness constraint on (idea, user) (`shared/schema.ts:38-44`). The handler looks for an existing vote before it writes (`server/routes.ts:272-292`). `Routes.ResolveVote` keeps "at most one vote per pair" when it held before.

## Model

| member | source | states |
|---|---|---|
| Schema.RoleName | shared/schema.ts:6 | every role is spelled as one of the two database names |
| Schema.StatusName | shared/schema.ts:7 | every status is spelled as one of the three database names |
| Schema.CategoryName | shared/schema.ts:8 | every category is spelled as one of the six database names |
| Schema.TimelineName | shared/schema.ts:9 | every timeline is spelled as one of the four database names |
| Schema.ParseRole | shared/schema.ts:6 | a role string is accepted iff it is one of the enumeration's names, and it parses to the role spelled that way |
| Schema.ParseStatus | shared/schema.ts:7 | a status string is accepted iff it is a listed name, and it parses back to that spelling |
| Schema.ParseCategory | shared/schema.ts:8 | a category string is accepted iff it is one of the six names, and it parses back to that spelling |
| Schema.ParseTimeline | shared/schema.ts:9 | a timeline string is accepted iff it is one of the four names, and it parses back to that spelling |
| Schema.EnumNamesRoundTrip | shared/schema.ts:6-9 | every enumeration value parses back to itself; there are exactly 2 roles, 3 statuses, 6 categories and 4 timelines |
| Schema.NullableText | shared/schema.ts:26-32 | a nullable text field accepts absent, null or a string; absent and null both mean null |
| Schema.NullableTimeline | shared/schema.ts:27 | the optional timeline accepts absent, null or one of the four names, and nothing else |
| Schema.ParseInsertUser | shared/schema.ts:61-66 | a signup body validates iff its four picked text fields are strings; the email and username are taken as sent |
| Schema.SignupIgnoresRole | shared/schema.ts:61-66 | a `role` key in a signup body changes nothing: the input cannot choose a role |
| Schema.ParseInsertIdea | shared/schema.ts:68-75 | an idea body validates iff title and description are strings, the category is one of the six names and the optional fields are well-typed |
| Schema.IdeaIgnoresUnpicked | shared/schema.ts:68-75 | status, author, AI fields and rejection reason in a body are ignored, by both the create and the edit validators, so no one can self-approve |
| Schema.OptionalText | shared/schema.ts:68-75 | in a partial body an absent field leaves the column alone and a string sets it |
| Schema.PatchNullableText | shared/schema.ts:68-75 | in a partial body an absent nullable field is untouched, while null clears it |
| Schema.ParseIdeaPatch | shared/schema.ts:68-75 | an edit body is valid iff each idea field it carries has that field's type (text, category name, null or timeline name); a valid edit sets exactly the fields the body carries, each to the sent value, and never status or rejection reason |
| Schema.ParseInsertVote | shared/schema.ts:77-80 | a vote body validates iff it has a numeric `ideaId` and a string `voteType`; any vote-type string is accepted |
| Schema.ParseLogin | shared/schema.ts:82-85 | a login body validates iff the email passes the address check and the password is non-empty |
| Auth.ExtractTokenFromHeader | server/services/auth.ts:36-42 | a token comes back iff the header is present and starts with the exact `Bearer ` prefix; then the header is prefix + token (so its length is the token's + 7) |
| Auth.ExtractRoundTrip | server/services/auth.ts:41 | parsing `"Bearer " + t` gives back t for every t, the empty one included |
| Auth.MakePayload | server/services/auth.ts:22-28 | the signed claims are the user's id, email and the name of the user's own role, which parses back to that role |
| AiEvaluator.Clamp | server/services/ai-evaluator.ts:77-81 | the result lies in [0, 10]; in-range values are kept, below 0 becomes 0 and above 10 becomes 10 |
| AiEvaluator.ClampEvaluation | server/services/ai-evaluator.ts:74-83 | all five scores end in range; the feedback is untouched; an in-range evaluation is unchanged |
| AiEvaluator.ClampIdempotent | server/services/ai-evaluator.ts:77-81 | clamping twice equals clamping once |
| AiEvaluator.Evaluate | server/services/ai-evaluator.ts:71-98 | the result is always in range; a parsed reply is clamped, a failed call or empty text gives the fallback |
| AiEvaluator.FallbackInRange | server/services/ai-evaluator.ts:90-98 | the fallback is valid and all five of its scores are 5 |
| Storage.LookupsFindTheRow | server/storage.ts:41-54 | with unique ids, usernames and emails, each lookup finds exactly the row that carries the key |
| Storage.GetAllUsers | server/storage.ts:64-66 | every user exactly once, in ascending creation time |
| Storage.CreateUser | server/storage.ts:56-62 | the insert fails iff the username or email is taken; otherwise one row is appended and uniqueness is kept |
| Storage.UpdateUserRole | server/storage.ts:68-75 | only the rows with that id change, and only in their role; a missing id returns nothing |
| Storage.UpdateUserRoleReadBack | server/storage.ts:68-75 | reading the user back after a role update gives the row the update returned |
| Storage.GetIdeaWithAuthor | server/storage.ts:97-125 | found iff the idea exists; the result carries the idea's columns except the author id, and for the author only id, username, full name and email of the left-joined user, absent iff no user has the author id |
| Storage.DetailAuthor | server/storage.ts:113-121 | with unique user ids, the joined author is the four picked columns of exactly the user whose id the idea carries |
| Storage.GetIdeas | server/storage.ts:82-95 | exactly the ideas matching every truthy filter, newest first; an out-of-enumeration status or category is an error |
| Storage.GetIdeasMatch | server/storage.ts:82-95 | every idea listed is a stored idea that passes each applied filter |
| Storage.CreateIdea | server/storage.ts:127-133 | the new row is pending, has no rejection reason, has the given author and AI fields, and is appended with a fresh id |
| Storage.ApplyPatch | server/storage.ts:135-142 | each column the patch names takes the patch's value; every other column is kept; `updatedAt` is refreshed |
| Storage.EmptyPatchOnlyTouches | server/storage.ts:138 | an empty patch changes only `updatedAt` |
| Storage.UpdateIdea | server/storage.ts:135-142 | only the row with that id is patched; users and votes are untouched |
| Storage.UpdateIdeaReadBack | server/storage.ts:135-142 | reading the idea back after an update gives the row the update returned |
| Storage.DeleteIdea | server/storage.ts:144-146 | deleting fails iff a vote still references the idea (foreign key without cascade); otherwise the ideas left are, as a multiset, all ideas less those with that id, and every other store field is unchanged |
| Storage.FindVote | server/storage.ts:148-154 | the first row matching both idea and user, or none iff no row matches both |
| Storage.RetypeVotes | server/storage.ts:164-171 | rows of the pair get the new type, and nothing else about any row changes |
| Storage.RemoveVotes | server/storage.ts:173-175 | exactly the rows of other pairs remain |
| Storage.CreateVote | server/storage.ts:156-162 | appends one row with the next id; no uniqueness check |
| Storage.UpdateVote | server/storage.ts:164-171 | the pair's rows are retyped and the first of them is returned; users and ideas untouched |
| Storage.DeleteVote | server/storage.ts:173-175 | the pair's rows are removed; users and ideas untouched |
| Storage.CountVotesAppend | server/storage.ts:177-192 | counting distributes over concatenation of the vote table |
| Storage.CountVotesNewRow | server/storage.ts:177-186 | a new row adds one to its own idea's count of its own type and nothing elsewhere |
| Storage.OtherTypesUncounted | server/storage.ts:177-192 | a vote whose type is neither `upvote` nor `downvote` changes neither count |
| Storage.NoRowsZeroCount | server/storage.ts:188-191 | an idea without rows counts zero of any type |
| Storage.CountsDefaultZero | server/storage.ts:188-191 | the counts of an idea without votes are (0, 0) |
| Storage.VoteOfAppend | server/storage.ts:156-162 | appending a row gives its pair that vote when the pair had none; every other pair keeps its vote |
| Storage.AppendKeepsOneVote | server/storage.ts:156-162 | appending a row for a pair with no vote keeps one vote per pair |
| Storage.VoteOfRetype | server/storage.ts:164-171 | retyping changes only the pair's vote, to the new type |
| Storage.RetypeKeepsOneVote | server/storage.ts:164-171 | retyping keeps one vote per pair |
| Storage.VoteOfRemove | server/storage.ts:173-175 | removing leaves the pair with no vote, and every other pair as it was |
| Storage.RemoveKeepsOneVote | server/storage.ts:173-175 | removing keeps one vote per pair |
| Storage.CountAfterRemove | server/storage.ts:173-186 | removing the pair's vote lowers its idea's count of that vote's type by one, other types unchanged |
| Storage.NoPairSameRemove | server/storage.ts:173-186 | removing a pair with no rows changes no count |
| Storage.CountAfterRetype | server/storage.ts:164-186 | retyping the pair's vote moves one count from the old type to the new |
| Storage.NoPairSameRetype | server/storage.ts:164-186 | retyping a pair with no rows changes no count |
| Storage.CountOtherIdeaRetype | server/storage.ts:164-186 | retyping never changes another idea's counts |
| Storage.CountOtherIdeaRemove | server/storage.ts:173-186 | removing never changes another idea's counts |
| Storage.SummarizeAll | server/storage.ts:194-219 | each idea becomes one listing entry with its own counts, in order |
| Storage.ApprovedSummaries | server/storage.ts:194-219 | an entry is listed iff it summarizes an approved idea |
| Storage.GetApprovedIdeasWithVotes | server/storage.ts:194-219 | exactly the approved ideas, each with its up and down counts, newest first |
| Storage.GetIdeasForAdmin | server/storage.ts:221-243 | every idea exactly once, newest first |
| Storage.StatusPartition | server/storage.ts:245-259 | every idea has exactly one of the three statuses |
| Storage.GetStatistics | server/storage.ts:245-275 | pending and approved each equal the length of the status-filtered idea listing, and with the rejected ideas they add up to all ideas; total votes is the row count; active users is the number of distinct ids |
| Storage.StatusListingCount | server/storage.ts:250-258 | the listing filtered on one status exists and holds exactly as many ideas as the table has with that status |
| Routes.Authenticate | server/routes.ts:10-30 | a missing, non-bearer or empty token gives 401 "Access token required"; a refused token or unknown user gives 401 "Invalid token"; otherwise the stored user |
| Routes.AuthenticateSignedToken | server/routes.ts:10-30 | a token signed for a stored user, sent as a bearer header, authenticates as exactly that user |
| Routes.RequireAdmin | server/routes.ts:33-38 | passes iff the role is admin; otherwise 403 "Admin access required" |
| Routes.AuthenticateAdmin | server/routes.ts:33-38 | passes iff authentication passes and the user is an admin |
| Routes.Signup | server/routes.ts:42-78 | succeeds iff the body validates and email and username are free; the new user has the default role and the hashed password; a taken email is reported as such; failure leaves the store alone |
| Routes.Login | server/routes.ts:80-113 | malformed input is 400; an unknown email or wrong password is the same 401; success answers with the signed token and the public fields of the account with that email |
| Routes.LoginTokenAuthenticates | server/routes.ts:95-107 | the token a login returns, sent back as a bearer header, authenticates as the account whose email was sent |
| Routes.Me | server/routes.ts:115-125 | the signed-in user's public fields, iff authenticated |
| Routes.ListIdeas | server/routes.ts:128-137 | always 200 with the storage listing of approved ideas: one summary per approved idea, newest first; the query is ignored |
| Routes.GetIdeaRoute | server/routes.ts:139-159 | 200 iff the idea exists, whatever its status, with the idea's columns, the author's id, username, full name and email (absent iff no user has the author id) and the vote counts; otherwise 404 |
| Routes.AiFields | server/routes.ts:166-189 | a score of 0 and an empty feedback are dropped; other values are kept |
| Routes.CreateIdeaRoute | server/routes.ts:161-196 | 200 iff authenticated and the body validates; the new idea is pending and owned by the caller; without the AI flag it has no AI fields; a kept score lies in 1..10 |
| Routes.EditIdea | server/routes.ts:198-220 | 404, then 403 unless owner or admin, then 400 "Invalid input data" when the body fails the partial schema; success stores the update with the parsed patch and never changes status, reason or author; failure leaves the store alone |
| Routes.DeleteIdeaRoute | server/routes.ts:222-242 | 404 "Idea not found", then 403 unless owner or admin; an idea with votes gets 500; success stores the storage delete's result, after which the idea is gone; failure leaves the store alone |
| Routes.MyIdeasRoute | server/routes.ts:245-254 | 200 iff authenticated and any truthy status filter is a valid status; the body is the storage listing for that status and the caller as author, so only the caller's ideas |
| Routes.Toggle | server/routes.ts:272-293 | the next vote is none iff the previous equals the requested type; otherwise the requested type |
| Routes.ToggleTwice | server/routes.ts:275-279 | the same type twice ends where it started if that was this type, and with no vote otherwise |
| Routes.VoteMessage | server/routes.ts:275-293 | "Vote created" iff there was no vote, "Vote removed" iff it had the same type, "Vote updated" iff it had the other type |
| Routes.ResolveVote | server/routes.ts:262-293 | missing idea: 404 and store unchanged; not approved: 400 and store unchanged; otherwise 200, the pair follows Toggle, every other pair is untouched, and one vote per pair is kept |
| Routes.VoteCountsFollowToggle | server/routes.ts:272-293 | a successful vote moves its idea's counts exactly as the pair's state changes, and leaves other ideas' counts alone |
| Routes.VoteTwiceSameType | server/routes.ts:275-279 | voting the same type twice from no vote returns the pair to no vote |
| Routes.ParseVoteAsWritten | server/routes.ts:260 | the handler's body check accepts iff `ideaId` is a number and `voteType` a string |
| Routes.ParseVoteBody | server/routes.ts:260 | the corrected body check accepts iff `voteType` is a string |
| Routes.VoteBodyIgnoresIdeaId | server/routes.ts:260 | an `ideaId` in the body does not change the corrected check |
| Routes.VoteRouteAsWritten | server/routes.ts:257-298 | a signed-in body without a numeric `ideaId` gets 400 "Invalid input data" and no change; otherwise the state machine runs |
| Routes.VoteRoute | server/routes.ts:257-298 | the corrected route: any signed-in body with a string `voteType` reaches the state machine |
| Routes.AdminIdeas | server/routes.ts:301-309 | 200 iff the caller is an admin, with the admin listing: every idea exactly once, newest first |
| Routes.Approve | server/routes.ts:311-326 | 200 iff admin and the idea exists, from any status; the idea becomes approved and nothing else changes |
| Routes.ReasonUpdate | server/routes.ts:331-341 | an absent reason leaves the column alone, null clears it, and a string is stored as sent |
| Routes.Reject | server/routes.ts:328-348 | 200 iff admin and the idea exists, from any status; the reply is the stored idea made rejected, with the given reason and the new update time, and the new store is exactly that update |
| Routes.RejectStored | server/routes.ts:328-348 | after a rejection, reading the idea back gives the reply's idea: rejected, with the reason string the body sent |
| Routes.StatisticsRoute | server/routes.ts:350-358 | 200 iff admin, with the store's statistics: pending and approved are the lengths of the status-filtered listings, total votes the number of vote rows |
| Routes.ListUsers | server/routes.ts:436-446 | 200 iff admin; the entries are the stored users without password hashes, each as often as it is stored, oldest first |
| Routes.ListUsersOnce | server/routes.ts:436-446 | with unique user ids, every stored user appears exactly once in the admin listing |
| Routes.SafeUsers | server/routes.ts:438-441 | the stored users without password hashes, each as often as it is stored, ordered by creation time |
| Routes.ChangeRole | server/routes.ts:448-470 | a role other than user/admin is 400 before the self check; changing one's own role is 400; otherwise the new store is the role update of that user |
| Routes.RoleChangeGovernsAdmin | server/routes.ts:448-470 | after a change the stored user has the new role, and the admin check of that user's later requests passes iff the new role is admin |
| Routes.EntryWindow | server/routes.ts:424 | one of four windows; the longest iff the timeline is none of the first three names |
| Routes.InvestmentBand | server/routes.ts:425 | one of four bands; the lowest iff the category is none of the first three named |
| Routes.EvaluateRoute | server/routes.ts:361-433 | 200 iff authenticated; the clamped or fallback evaluation, six entries per advice list, and a timeline text naming the sent timeline |
| Routes.TimelineEchoed | server/routes.ts:424 | for any body whose timeline is a string, a signed-in request gets 200 and advice that opens with that timeline |
| App.WithAuthorization | client/src/App.tsx:21-42 | without a token the request is unchanged; with one the `Authorization` header is `Bearer <token>` and the rest of the request is kept |
| App.WrapperKeepsHeaders | client/src/App.tsx:27-30 | every other header keeps its value |
| App.WrapperHeaderRoundTrip | client/src/App.tsx:27-30 | the server's header parser recovers the stored token from the header the wrapper adds |
| App.Protected | client/src/App.tsx:44-52 | renders iff authenticated, otherwise redirects to /login |
| App.AdminOnly | client/src/App.tsx:54-66 | signed out goes to /login, a signed-in non-admin to /dashboard, and an admin sees the page |
| App.SignedOutOnly | client/src/App.tsx:68-76 | renders iff signed out, otherwise redirects to /dashboard |
| App.Route | client/src/App.tsx:78-136 | for each page, the page is shown iff the location, lower-cased and without one trailing slash, is that page's path and its guard lets the session in; a signed-out visitor on a guarded path is sent to /login; `/` and a signed-in visitor on login, signup, or (as a non-admin) an admin path are sent to /dashboard; any other location shows NotFound |
| App.RouteIgnoresCaseAndSlash | client/src/App.tsx:78-136 | upper-case letters and one trailing slash do not change what the router shows |
| App.RedirectsSettle | client/src/App.tsx:78-136 | following redirects ends within two hops on the dashboard (signed in) or the login page (signed out) |
| Navigation.NavItems | client/src/components/ui/navigation.tsx:10-18 | the three base items come first; five items for an admin, three otherwise; the admin items are exactly the ones after the base |
| Navigation.AdminBarExtends | client/src/components/ui/navigation.tsx:10-18 | the admin menu is the non-admin menu followed by Admin and User Management |
| Navigation.AtMostOneActive | client/src/components/ui/navigation.tsx:36-40 | at most one item is highlighted for any location |
| Navigation.LinksReachPages | client/src/components/ui/navigation.tsx:10-18 | every menu link shows a real page to the signed-in user it is offered to |
| UseAuth.Initial | client/src/hooks/use-auth.ts:22-23 | no user, not authenticated, consistent |
| UseAuth.SignIn | client/src/hooks/use-auth.ts:25-43 | a failure rethrows and changes nothing; an answer stores the token and the user and authenticates |
| UseAuth.Login | client/src/hooks/use-auth.ts:25-33 | as SignIn; consistency (authenticated iff a user) is kept |
| UseAuth.Signup | client/src/hooks/use-auth.ts:35-43 | as SignIn; consistency is kept |
| UseAuth.Logout | client/src/hooks/use-auth.ts:45-48 | from any state: no token, no user, not authenticated |
| UseAuth.Initialize | client/src/hooks/use-auth.ts:50-62 | without a token nothing changes; with one, success authenticates with the returned user and failure signs out; consistency is kept |
| UseAuth.Persist | client/src/hooks/use-auth.ts:64-67 | only the user and the flag are persisted |
| UseAuth.Restore | client/src/hooks/use-auth.ts:64-67 | a restored session persists back to what was stored |
| UseAuth.PersistRestore | client/src/hooks/use-auth.ts:64-67 | persisting then restoring with the same token gives the same session |
| UseAuth.LogoutSticks | client/src/hooks/use-auth.ts:45-62 | after logout, initialization keeps the user signed out |
| UseAuth.StaleTokenSignsOut | client/src/hooks/use-auth.ts:50-62 | a stored token the server refuses signs the user out completely |
| IdeaDisplay.WholeHours | client/src/pages/my-ideas.tsx:70 | the hour count is the floor of the elapsed milliseconds over 3600000 |
| IdeaDisplay.AgeOf | client/src/pages/my-ideas.tsx:67-80 | under an hour iff elapsed < 1 h (future dates included); each bucket's count brackets the elapsed time at hour, day and week scale |
| IdeaDisplay.AgeMonotone | client/src/pages/my-ideas.tsx:67-80 | a later time never shows a younger age |
| IdeaDisplay.UnitWord | client/src/pages/my-ideas.tsx:73-79 | hours, days and weeks get different unit words; the word ends in "s" iff the count is not one, and without that "s" it is "hour", "day" or "week" |
| IdeaDisplay.FormatTimeAgo | client/src/pages/my-ideas.tsx:67-80 | "Less than an hour ago" iff less than an hour has elapsed; otherwise the bucket's count (whole hours under a day, whole days under a week, else whole weeks, as `AgeOf` bounds it), a space, the unit word and " ago", ending in "s ago" iff the count is not one |
| IdeaDisplay.AgeTextPlural | client/src/pages/my-ideas.tsx:73-79 | a counted text ends in "s ago" exactly when its count is not one |
| IdeaDisplay.AgeTextShape | client/src/pages/my-ideas.tsx:73-79 | other texts are the count, a space and the unit word, and start with a digit |
| IdeaDisplay.AgeTextInjective | client/src/pages/my-ideas.tsx:67-80 | different ages always read differently |
| IdeaDisplay.CategoryColor | client/src/components/ui/idea-card.tsx:69-79 | a listed category gets its colour, and anything else gets the `other` colour |
| IdeaDisplay.CategoryColorsDistinct | client/src/components/ui/idea-card.tsx:69-79 | the six categories get six different colours |
| IdeaDisplay.Caption | client/src/pages/my-ideas.tsx:150 | the caption upper-cases the first letter and keeps the rest |
| IdeaDisplay.CaptionsReadBack | client/src/pages/my-ideas.tsx:150 | lower-casing a capitalized category or status gives the name back |
| MyIdeas.TabsAreStatuses | client/src/pages/my-ideas.tsx:119-124 | the tabs are `all` followed by the three statuses |
| MyIdeas.TabFilter | client/src/pages/my-ideas.tsx:82-85 | `all` keeps every idea; any other tab keeps exactly the ideas with that status |
| MyIdeas.TabFilterConcat | client/src/pages/my-ideas.tsx:82-85 | the filter distributes over concatenation, so it keeps the input order |
| MyIdeas.TabFilterSingleton | client/src/pages/my-ideas.tsx:82-85 | one idea is kept, once, iff the tab is `all` or its status name |
| MyIdeas.KeepAll | client/src/pages/my-ideas.tsx:82-85 | the `all` filter returns the list unchanged |
| MyIdeas.StatusTabsPartition | client/src/pages/my-ideas.tsx:82-85 | the three status tabs together hold every idea once |
| MyIdeas.StatisticsMatchTabs | client/src/pages/my-ideas.tsx:82-85 | over the whole idea table, the admin statistics' pending and approved counts equal the sizes of the pending and approved tabs |
| MyIdeas.StatusColor | client/src/pages/my-ideas.tsx:42-53 | the default badge iff the status is not one of the three |
| MyIdeas.StatusColorsDistinct | client/src/pages/my-ideas.tsx:42-53 | the three statuses get three different badges |
| MyIdeas.ActionsFor | client/src/pages/my-ideas.tsx:192-223 | edit and delete iff pending, view iff approved, retry iff rejected |
| MyIdeas.OneActionGroup | client/src/pages/my-ideas.tsx:192-223 | every idea shows exactly one group of actions |
| SubmitIdea.HandleAnswerChange | client/src/pages/submit-idea.tsx:49-53 | only the answer at the index changes |
| SubmitIdea.Sections | client/src/pages/submit-idea.tsx:88-90 | five sections, the i-th is `### ` + the i-th label, a blank line, and the i-th answer |
| SubmitIdea.FourRules | client/src/pages/submit-idea.tsx:88-90 | when no section contains the separator, the description contains exactly four |
| SubmitIdea.SingleLineSectionSepFree | client/src/pages/submit-idea.tsx:88-90 | single-line headings and answers never form the separator, except the answer `---` |
| SubmitIdea.RuleAnswerNotSepFree | client/src/pages/submit-idea.tsx:88-90 | the answer `---` does form the separator |
| SubmitIdea.HandleSubmit | client/src/pages/submit-idea.tsx:76-99 | the browser blocks the submit iff the title or an answer is empty; with no category nothing is sent; otherwise exactly title, category and description are sent, without an AI flag |
| SubmitIdea.CategoryOptionsMatchSchema | client/src/pages/submit-idea.tsx:134-139 | the options are the schema's six categories |
| SubmitIdea.SubmissionAccepted | client/src/pages/submit-idea.tsx:92-96 | a complete form's payload passes the server's idea validation with the description intact |
| Admin.RemoveMarkers | client/src/pages/admin.tsx:115 | removing markers never lengthens; text without `#` is unchanged |
| Admin.MarkerCut | client/src/pages/admin.tsx:115 | a leading `### N. ` marker is removed |
| Admin.ParseDescription | client/src/pages/admin.tsx:112-118 | one section per separator occurrence plus one, each parsed from its split part |
| Admin.QuestionsPlain | client/src/pages/submit-idea.tsx:15-41 | no question contains `#` or edge white space, so removing markers and trimming keeps it |
| Admin.LabelsNumbered | client/src/pages/submit-idea.tsx:15-41 | the i-th label is `i. ` followed by the i-th question, for i = 1..5 |
| Admin.SectionRoundTrip | client/src/pages/admin.tsx:113-118 | a section built from a numbered heading parses to the bare question and the exact answer, blank lines included |
| Admin.DescriptionRoundTrip | client/src/pages/admin.tsx:112-118 | if no section contains the separator, reading a written description gives the five questions in order, each with its original answer |
| Admin.HandleReject | client/src/pages/admin.tsx:93-105 | a cancelled prompt does nothing; a blank reason sends nothing and warns; otherwise the untrimmed reason is sent |
| Admin.RejectBody | client/src/pages/admin.tsx:46-48 | the server reads back exactly the reason sent |
| Admin.SentReasonShown | client/src/pages/admin.tsx:93-105 | a sent reason is stored as typed; reading the idea back gives the reply's idea, which the author's my-ideas page shows with the reason |
| Admin.StatusColor | client/src/pages/admin.tsx:68-79 | the grey default iff the status is not one of the three |
| Admin.CategoryColor | client/src/pages/admin.tsx:81-91 | a listed category gets its colour, and anything else gets the `other` (grey) colour |
| Admin.DecisionIsFinalOnPage | client/src/pages/admin.tsx:233-252 | after approve or reject the idea no longer offers the decision buttons |
| Dashboard.FilterIdeas | client/src/pages/dashboard.tsx:19-24 | the order-preserving subsequence of exactly the ideas matching both the search and the category |
| Dashboard.FilterIdeasConcat | client/src/pages/dashboard.tsx:19-24 | the filter distributes over concatenation, so it keeps the input order |
| Dashboard.FilterIdeasSingleton | client/src/pages/dashboard.tsx:19-24 | one idea is kept, once, iff it matches both the search and the category |
| Dashboard.NoFilterKeepsAll | client/src/pages/dashboard.tsx:19-24 | the empty search with category `all` keeps the list unchanged |
| Dashboard.SearchIgnoresCase | client/src/pages/dashboard.tsx:20-21 | a search term matches as its lower-cased form does |
| Dashboard.SortKey | client/src/pages/dashboard.tsx:26-35 | most-voted ranks by up minus down, ai-score by the score (missing as 0), anything else by creation time |
| Dashboard.SortIdeas | client/src/pages/dashboard.tsx:26-35 | a permutation of the input, non-increasing in the chosen key, and stable: ideas with equal keys keep their input order, as `Array.prototype.sort` must |
| Sorting.SortStable | client/src/pages/dashboard.tsx:26-35 | for every key, the sorted list holds the elements with that key in their input order |
| Dashboard.Visible | client/src/pages/dashboard.tsx:19-35 | exactly the matching ideas, non-increasing in the chosen key |
| Dashboard.CategoryOptionsMatchSchema | client/src/pages/dashboard.tsx:79-85 | the filter options are `all` followed by the six categories |
| Dashboard.DashboardShowsApproved | client/src/pages/dashboard.tsx:15-35 | with no filter, the dashboard shows exactly the approved ideas the server lists |
| IdeaCard.VoteTypeOf | client/src/components/ui/idea-card.tsx:104-123 | the up button sends `upvote` and the down button `downvote`, nothing else |
| IdeaCard.VoteRequest | client/src/components/ui/idea-card.tsx:33-36 | a POST to `/api/ideas/<id>/vote` whose body holds only the vote type |
| IdeaCard.Click | client/src/components/ui/idea-card.tsx:104-123 | a click sends iff no vote is in flight, and then sends the button's type |
| IdeaCard.CardVoteRefusedAsWritten | client/src/components/ui/idea-card.tsx:33-36 | the card's body fails the handler's check: 400 and nothing stored |
| IdeaCard.CardVoteAccepted | client/src/components/ui/idea-card.tsx:33-36 | with the corrected check the click reaches the state machine with the button's type |
| EvaluatorPage.OptionsMatchSchema | client/src/pages/ai-evaluator.tsx:32-46 | the category and timeline options are the schema's values |
| EvaluatorPage.HandleEvaluate | client/src/pages/ai-evaluator.tsx:83-93 | a request iff title, description and audience are non-blank and a category and timeline are picked; the five fields are sent untrimmed |
| EvaluatorPage.AdviceEchoesTimeline | client/src/pages/ai-evaluator.tsx:58-64 | the server's timeline advice names the timeline the form sent |
| EvaluatorPage.ScoreColor | client/src/pages/ai-evaluator.tsx:95-99 | green iff score ≥ 8, red iff score < 6, yellow otherwise |
| EvaluatorPage.ScoreColorMonotone | client/src/pages/ai-evaluator.tsx:95-99 | a higher score never gets a worse colour |
| EvaluatorPage.FallbackShowsRed | client/src/pages/ai-evaluator.tsx:95-99 | the fallback score shows red |
| EvaluatorPage.ChartIconAsWritten | client/src/pages/ai-evaluator.tsx:101-112 | pie iff the lower-cased entry is exactly `pie chart`, line iff exactly `line chart`, bar otherwise |
| EvaluatorPage.ServerChartsAllBarAsWritten | client/src/pages/ai-evaluator.tsx:324-326 | every chart the server recommends gets the bar icon |
| EvaluatorPage.ChartIcon | client/src/pages/ai-evaluator.tsx:101-112 | the corrected icon: the chart type named by the whole entry or by its parenthesised tail |
| EvaluatorPage.IconDecidedByTail | client/src/pages/ai-evaluator.tsx:101-112 | behind a tail of at least twelve characters, the title does not change the corrected icon |
| EvaluatorPage.TitledChartIcon | client/src/pages/ai-evaluator.tsx:101-112 | with the corrected matching, an entry `<title> (<type>)` gets the icon of the bare type |
| EvaluatorPage.ServerChartIntended | client/src/pages/ai-evaluator.tsx:324-326 | with the corrected matching, every server recommendation `<title> (<type>)` gets its type's own icon |
| EvaluatorPage.SegmentationGetsPie | client/src/pages/ai-evaluator.tsx:324-326 | with the corrected matching, the server's pie recommendation gets the pie icon |
| UserManagement.RoleOptionsMatchSchema | client/src/pages/user-management.tsx:154-155 | the picker offers exactly the two roles, both valid for the server |
| UserManagement.RoleRequest | client/src/pages/user-management.tsx:30-34 | a PUT to `/api/admin/users/<id>/role` whose body holds only the role |
| UserManagement.HandleRoleChange | client/src/pages/user-management.tsx:51-54 | the pick is recorded for that user only, and exactly one request is sent for it |
| UserManagement.DisplayedRole | client/src/pages/user-management.tsx:146 | a non-empty pick wins over the stored role |
| UserManagement.PickShown | client/src/pages/user-management.tsx:51-54 | after a pick that user's picker shows it and every other picker is unchanged |
| UserManagement.OwnRoleRefusedButShown | client/src/pages/user-management.tsx:42-54 | an admin changing their own role gets 400 and the store keeps the old role, yet the picker shows the new one (no rollback) |
| UserManagement.AcceptedChangeAgrees | client/src/pages/user-management.tsx:51-54 | when the server accepts, the role it returns and the role then stored for that user are the role the picker shows |
| UserManagement.RoleColor | client/src/pages/user-management.tsx:56-65 | red iff admin, blue iff user, grey otherwise |
| UserManagement.StoredRolesColoured | client/src/pages/user-management.tsx:56-65 | a stored role never shows grey, and red exactly for admins |

## Left out

- **Database plumbing.** Drizzle, SQL and the connection are not modelled. Tables are sequences of rows.
  - Ids are the store's next serial values.
  - Timestamps are integers passed in by the caller (`now`).
- **Concurrency.** The vote handler's lookup-then-write race is not modelled. Requests run one at a time.
- **Cryptography.** bcrypt and JWT are function parameters:
  - `hash` and `passwordMatches` for passwords;
  - `sign` for tokens;
  - an `Auth.Verifier` for token checks, including expiry.
- **The AI service.** The Gemini call and its prompt text are not modelled. Its outcome is the `AiEvaluator.ModelReply` parameter.
- **Fractional and NaN values.**
  - `AiEvaluator.Clamp`: scores are integers, so fractional scores and NaN from the model are not modelled.
  - `IdeaDisplay.AgeOf`: elapsed time is an integer number of milliseconds, so an unparsable date (NaN) is not modelled.
- **Date display.** `formatDate` on the user-management page is not modelled; it is locale formatting only.
- **JSON objects and arrays.** `Schema.Json` has only null, booleans, integers and strings. A body field holding an object or an array is not modelled. Such a value fails every text, number and enumeration check of the validators, and JavaScript treats it as truthy. The reject reason and the evaluator template print it with `String(...)`, which the model has no case for.
- **Colour lookups.** `Admin.CategoryColor` and `IdeaDisplay.CategoryColor` look up plain names. A category named after an object-prototype key (for example `constructor`) is not modelled.
- **Lower-casing.** `Strings.ToLower` covers ASCII only; Unicode case mapping is not modelled.
- **The `---` answer.** `Admin.DescriptionRoundTrip` requires every section to be free of the separator. `SubmitIdea.RuleAnswerNotSepFree` shows that an answer consisting of `---` breaks this.
- **Answer indexes.** `SubmitIdea.HandleAnswerChange` requires the index to lie within the answers. The page only passes 0..4. An out-of-range index would grow the JavaScript array, and this is not modelled.
- **The my-ideas status filter.** The page's query key is `["/api/my-ideas", tab]` (`client/src/pages/my-ideas.tsx:18`), and the page filters by tab itself (`TabFilter`). The query function that turns the key into a URL is not part of this model, so whether the server ever receives the tab as `?status=` is left open. `Routes.MyIdeasRoute` models the server side for any filter.
- **Authors in the listings.** The dashboard and admin listings (`getApprovedIdeasWithVotes`, `getIdeasForAdmin`) keep only the author id of the joined user; the name columns they add are display data. The single-idea route models its author join in full.
- **Statistics fallback.** `count(...) \|\| 0` in `getStatistics` is always the count itself in the model, because a count is never missing.
- **Presentation.** The score ring (`client/src/components/ui/ai-score-ring.tsx`), loading skeletons, toasts, react-query caching and invalidation, and wouter's internals beyond its path matching are not modelled. `drizzle.config.ts` is configuration.
- **Path ids.** Each `:id` route takes the id as an already parsed integer. A path id that `parseInt` turns into NaN, or one outside the database's 32-bit integer column, makes the query fail; the handler's catch then answers 500 (400 for edit and vote). These replies are not modelled:
- Routes.GetIdeaRoute: the failed lookup's 500 is not modelled (`server/routes.ts:141`).
- Routes.EditIdea: the failed lookup's 400 is not modelled (`server/routes.ts:200`).
- Routes.DeleteIdeaRoute: the failed lookup's 500 is not modelled (`server/routes.ts:224`).
- Routes.VoteRoute: the 400 for a NaN idea id is not modelled (`server/routes.ts:259`).
- Routes.VoteRouteAsWritten: the 400 for a NaN idea id is not modelled (`server/routes.ts:259`).
- Routes.Approve: the failed update's 500 is not modelled (`server/routes.ts:313`).
- Routes.Reject: the failed update's 500 is not modelled (`server/routes.ts:330`).
- Routes.ChangeRole: the failed update's 500 is not modelled (`server/routes.ts:450`).
- **The token store.** `client/src/lib/auth.ts` is folded into `UseAuth.Session.storedToken`. The API calls it wraps enter as `UseAuth.Outcome` values.

## Findings

| source | as written | input that shows it | evidently intended | confidence | as-written member | corrected member |
|---|---|---|---|---|---|---|
| server/routes.ts:260 | the vote handler validates the body with the insert schema, which requires a numeric `ideaId` besides `voteType` | the idea card's body `{"voteType": "upvote"}` gets 400 "Invalid input data" and no vote is stored | the idea comes from the path, so only `voteType` is required | high; not executed | Routes.VoteRouteAsWritten | Routes.VoteRoute |
| client/src/pages/ai-evaluator.tsx:101-112 | the chart icon switches on the whole lower-cased entry being exactly `bar chart`, `pie chart` or `line chart` | every server entry, such as `Customer Segmentation (Pie Chart)`, gets the bar icon | the icon follows the chart type named in the entry's parenthesised tail | medium; not executed | EvaluatorPage.ServerChartsAllBarAsWritten | EvaluatorPage.ServerChartIntended |

The vote route is kept in both forms:

- `Routes.VoteRouteAsWritten`, with `Routes.ParseVoteAsWritten`, is the handler exactly as the code has it. `IdeaCard.CardVoteRefusedAsWritten` proves that every click on the idea card is refused by it.
- `Routes.VoteRoute`, with `Routes.ParseVoteBody`, is the corrected check. `IdeaCard.CardVoteAccepted` proves that the click then reaches `Routes.ResolveVote`. All the state-machine properties are stated about `Routes.ResolveVote`, which both forms share.

For the chart icons:

- `EvaluatorPage.ChartIconAsWritten` is the switch as written.
- `EvaluatorPage.ChartIcon` is the corrected matching.

=== FILE: admin.dfy ===
/** The admin review page: reading a submitted description back into its questions
    and answers, the rejection prompt, the badge colours, and which ideas offer the
    approve and reject buttons. */
module Admin {
  import opened Wrappers
  import opened Schema
  import Strings
  import SubmitIdea
  import Storage
  import Routes
  import MyIdeas
  import Auth

  // ---------------------------------------------------------------- description display

  /** A match of the pattern `###\s\d\.\s`: three hashes, a white-space character,
      an ASCII digit, a dot, a white-space character. */
  predicate IsMarker(m: string)
  {
    && |m| == 7 && m[..3] == "###" && Strings.IsWhitespace(m[3])
    && '0' <= m[4] <= '9' && m[5] == '.' && Strings.IsWhitespace(m[6])
  }

  /** `replace(/###\s\d\.\s/g, '')`: scanning left to right, every match is cut out
      and the scan resumes after it. */
  function RemoveMarkers(s: string): (r: string)
    ensures |r| <= |s|
    ensures (forall j :: 0 <= j < |s| ==> s[j] != '#') ==> r == s
    decreases |s|
  {
    if |s| == 0 then ""
    else if |s| >= 7 && IsMarker(s[..7]) then RemoveMarkers(s[7..])
    else
      var rest := RemoveMarkers(s[1..]);
      assert (forall j :: 0 <= j < |s| ==> s[j] != '#') ==> s == [s[0]] + s[1..];
      [s[0]] + rest
  }

  /** A leading marker is cut out. */
  lemma MarkerCut(m: string, s: string)
    requires IsMarker(m)
    ensures RemoveMarkers(m + s) == RemoveMarkers(s)
  {
    assert (m + s)[..7] == m;
    assert (m + s)[7..] == s;
  }

  /** A question and its answer as the page shows them. */
  datatype QA = QA(question: string, answer: string)

  /** One section: its first paragraph, stripped of markers and trimmed, is the
      question; the paragraphs after it, joined back, are the answer. */
  function ParseSection(part: string): QA
  {
    var lines := Strings.Split(part, SubmitIdea.LineBreak);
    QA(Strings.Trim(RemoveMarkers(lines[0])), Strings.Join(lines[1..], SubmitIdea.LineBreak))
  }

  /** `DescriptionDisplay`: one question and answer per section between rules. */
  function ParseDescription(description: string): (r: seq<QA>)
    ensures |r| == Strings.Occurrences(description, SubmitIdea.SectionSeparator) + 1
    ensures |r| == |Strings.Split(description, SubmitIdea.SectionSeparator)|
    ensures forall i :: 0 <= i < |r| ==> r[i] == ParseSection(Strings.Split(description, SubmitIdea.SectionSeparator)[i])
  {
    var parts := Strings.Split(description, SubmitIdea.SectionSeparator);
    Strings.SplitCount(description, SubmitIdea.SectionSeparator);
    seq(|parts|, i requires 0 <= i < |parts| => ParseSection(parts[i]))
  }

  /** The text of a question: non-empty, not padded with white space, and free of
      `#` and line breaks. */
  predicate PlainQuestion(q: string)
  {
    && |q| > 0 && !Strings.IsWhitespace(q[0]) && !Strings.IsWhitespace(q[|q| - 1])
    && PlainChars(q)
  }

  /** A numbered heading: a digit, a dot, a space, then a plain question. */
  predicate NumberedHeading(heading: string)
  {
    |heading| >= 3 && '0' <= heading[0] <= '9' && heading[1..3] == ". " && PlainQuestion(heading[3..])
  }

  /** The question a heading displays as: the heading without its number. */
  function QuestionOf(heading: string): string
    requires NumberedHeading(heading)
  {
    heading[3..]
  }

  /** The characters of a question: no `#` and no line break. */
  predicate PlainChars(q: string)
  {
    forall j :: 0 <= j < |q| ==> q[j] != '#' && q[j] != '\n'
  }

  lemma PlainConcat(a: string, b: string)
    requires PlainChars(a) && PlainChars(b)
    ensures PlainChars(a + b)
  {
  }

  /** The form's five questions are plain. */
  lemma QuestionsPlain()
    ensures forall i :: 0 <= i < SubmitIdea.QuestionCount ==> PlainQuestion(SubmitIdea.Questions[i])
  {
    ShortQuestionsPlain();
    SecondQuestionPlain();
    ThirdQuestionPlain();
    FifthQuestionPlain();
  }

  lemma ShortQuestionsPlain()
    ensures PlainQuestion(SubmitIdea.Questions[0]) && PlainQuestion(SubmitIdea.Questions[3])
  {
  }

  lemma SecondQuestionPlain()
    ensures PlainQuestion(SubmitIdea.Questions[1])
  {
    PlainConcat("Why is this idea important now, ", "and how will it work?");
  }

  lemma ThirdQuestionPlain()
    ensures PlainQuestion(SubmitIdea.Questions[2])
  {
    PlainConcat("Which strengths and capabilities ", "make your team best-placed ");
    PlainConcat("Which strengths and capabilities " + "make your team best-placed ", "to execute this idea?");
  }

  lemma FifthQuestionPlain()
    ensures PlainQuestion(SubmitIdea.Questions[4])
  {
    PlainConcat("Is the idea practical and ", "ready to move forward?");
  }

  /** The form's five headings are numbered headings whose question is the form's. */
  lemma LabelsNumbered()
    ensures forall i :: 0 <= i < SubmitIdea.QuestionCount ==>
      NumberedHeading(SubmitIdea.Labels[i]) && QuestionOf(SubmitIdea.Labels[i]) == SubmitIdea.Questions[i]
  {
    QuestionsPlain();
    forall i | 0 <= i < SubmitIdea.QuestionCount
      ensures NumberedHeading(SubmitIdea.Labels[i]) && QuestionOf(SubmitIdea.Labels[i]) == SubmitIdea.Questions[i]
    {
      var l := SubmitIdea.Labels[i];
      assert l[3..] == SubmitIdea.Questions[i];
    }
  }

  /** A section read back gives its heading's question and the answer unchanged,
      whatever the answer holds. */
  lemma SectionRoundTrip(heading: string, answer: string)
    requires NumberedHeading(heading)
    ensures ParseSection(SubmitIdea.Section(heading, answer)) == QA(QuestionOf(heading), answer)
  {
    var lb := SubmitIdea.LineBreak;
    var h := "### " + heading;
    var q := heading[3..];
    assert h == h[..7] + q;
    assert IsMarker(h[..7]);
    assert forall j :: 0 <= j < |h| ==> h[j] != lb[0];
    Strings.SepFreeWithoutFirst(h, lb);
    Strings.SplitFront(h, answer, lb);
    assert SubmitIdea.Section(heading, answer) == h + lb + answer;
    var lines := Strings.Split(SubmitIdea.Section(heading, answer), lb);
    assert lines[0] == h && lines[1..] == Strings.Split(answer, lb);
    Strings.JoinSplit(answer, lb);
    MarkerCut(h[..7], q);
    Strings.TrimUnchanged(q);
  }

  /** The review page reads back exactly what the form wrote: each question without
      its number, each answer as typed, provided no section forms a rule of its own. */
  lemma DescriptionRoundTrip(answers: seq<string>)
    requires |answers| == SubmitIdea.QuestionCount
    requires forall i :: 0 <= i < SubmitIdea.QuestionCount ==>
      Strings.SepFree(SubmitIdea.Section(SubmitIdea.Labels[i], answers[i]), SubmitIdea.SectionSeparator)
    ensures var r := ParseDescription(SubmitIdea.BuildDescription(answers));
      && |r| == SubmitIdea.QuestionCount
      && forall i :: 0 <= i < SubmitIdea.QuestionCount ==>
           r[i] == QA(SubmitIdea.Questions[i], answers[i])
  {
    var sections := SubmitIdea.Sections(answers);
    Strings.SplitJoin(sections, SubmitIdea.SectionSeparator);
    LabelsNumbered();
    forall i | 0 <= i < SubmitIdea.QuestionCount
      ensures ParseSection(sections[i]) == QA(SubmitIdea.Questions[i], answers[i])
    {
      SectionRoundTrip(SubmitIdea.Labels[i], answers[i]);
    }
  }

  // ---------------------------------------------------------------- rejection

  /** What the reject button does after the prompt. */
  datatype RejectAction =
    | NoAction                 // the prompt was cancelled
    | ReasonRequired           // an empty or blank reason: a warning, no request
    | SendReject(reason: string)

  /** `handleReject`: a cancelled prompt does nothing; a reason with some
      non-white-space character is sent as typed, untrimmed; anything else warns. */
  function HandleReject(reason: Option<string>): (a: RejectAction)
    ensures a == NoAction <==> reason.None?
    ensures a == ReasonRequired <==> reason.Some? && Strings.IsBlank(reason.value)
    ensures a.SendReject? ==> a.reason == reason.value && Strings.Trim(a.reason) != ""
  {
    match reason
    case None => NoAction
    case Some(text) =>
      Strings.TrimEmptyIffBlank(text);
      if text != "" && Strings.Trim(text) != "" then SendReject(text) else ReasonRequired
  }

  /** The body of the reject request. */
  function RejectBody(reason: string): (b: Body)
    ensures Routes.ReasonUpdate(b) == Some(Some(reason))
  {
    map["reason" := JStr(reason)]
  }

  /** A reason the page sends is stored as typed, and the author's card, reading
      the stored idea back, then shows it. */
  lemma SentReasonShown(s: Storage.Store, header: Option<string>, verify: Auth.Verifier, id: int, reason: Option<string>, now: int)
    requires HandleReject(reason).SendReject?
    requires Routes.AuthenticateAdmin(s, header, verify).Ok? && Storage.GetIdea(s, id).Some?
    ensures var (r, s') := Routes.Reject(s, header, verify, id, RejectBody(HandleReject(reason).reason), now);
      && r.status == Routes.OkStatus
      && r.body.IdeaBody? && r.body.idea.rejectionReason == reason
      && MyIdeas.ShowsRejectionReason(r.body.idea)
      && Storage.GetIdea(s', id) == Some(r.body.idea)
  {
    Routes.RejectStored(s, header, verify, id, RejectBody(HandleReject(reason).reason), now);
  }

  // ---------------------------------------------------------------- cards

  const DefaultBadge: string := "bg-gray-100 text-gray-800 border-gray-200"

  /** `getStatusColor(status)` of the review page: one colour per status, grey
      otherwise. */
  function StatusColor(status: string): (c: string)
    ensures c == DefaultBadge <==> status !in StatusNames
  {
    match status
    case "pending" => "bg-yellow-100 text-yellow-800 border-yellow-200"
    case "approved" => "bg-green-100 text-green-800 border-green-200"
    case "rejected" => "bg-red-100 text-red-800 border-red-200"
    case _ => DefaultBadge
  }

  const CategoryColors: map<string, string> := map[
    "technology" := "bg-blue-100 text-blue-800 border-blue-200",
    "business" := "bg-indigo-100 text-indigo-800 border-indigo-200",
    "healthcare" := "bg-purple-100 text-purple-800 border-purple-200",
    "education" := "bg-orange-100 text-orange-800 border-orange-200",
    "environment" := "bg-green-100 text-green-800 border-green-200",
    "other" := DefaultBadge
  ]

  /** `getCategoryColor(category)` of the review page: the listed colour, or the one
      of `other`. */
  function CategoryColor(category: string): (c: string)
    ensures category in CategoryNames ==> c == CategoryColors[category]
    ensures category !in CategoryNames ==> c == DefaultBadge
  {
    if category in CategoryColors then CategoryColors[category] else CategoryColors["other"]
  }

  /** The approve and reject buttons appear on pending ideas only. */
  predicate OffersDecision(idea: Idea)
  {
    idea.status == Pending
  }

  /** The score ring shows for a non-zero score. */
  predicate ShowsScore(idea: Idea)
  {
    idea.aiScore.Some? && idea.aiScore.value != 0
  }

  /** Deciding an idea from the page removes its buttons: after an approval or a
      rejection the listed idea no longer offers a decision. */
  lemma DecisionIsFinalOnPage(s: Storage.Store, header: Option<string>, verify: Auth.Verifier, id: int, body: Body, now: int)
    requires Routes.AuthenticateAdmin(s, header, verify).Ok? && Storage.GetIdea(s, id).Some?
    ensures !OffersDecision(Routes.Approve(s, header, verify, id, now).0.body.idea)
    ensures !OffersDecision(Routes.Reject(s, header, verify, id, body, now).0.body.idea)
  {
  }
}

=== FILE: ai_evaluator.dfy ===
/** The AI idea evaluator. The model call itself is outside the model: its outcome
    enters as a `ModelReply` (a failed call, an empty text, or the parsed JSON of the
    six fields). What is modelled is what the service does with that outcome: clamp
    the five scores into [0, 10] and fall back to a fixed evaluation on any failure.
    Scores are integers here; the service's numbers may carry fractions. */
module AiEvaluator {

  datatype Evaluation = Evaluation(
    score: int, feedback: string, feasibility: int, marketPotential: int, innovation: int, impact: int)

  /** The outcome of the model call. */
  datatype ModelReply =
    | CallFailed       // the request threw, or the reply was not valid JSON
    | EmptyText        // the reply had no text
    | Parsed(e: Evaluation)

  const LowestScore: int := 0
  const HighestScore: int := 10
  const FallbackScore: int := 5
  const FallbackFeedback: string := "AI evaluation temporarily unavailable. Please try again later."

  /** `Math.max(0, Math.min(10, x))` */
  function Clamp(x: int): (r: int)
    ensures LowestScore <= r <= HighestScore
    ensures LowestScore <= x <= HighestScore ==> r == x
    ensures x < LowestScore ==> r == LowestScore
    ensures x > HighestScore ==> r == HighestScore
  {
    var upper := if HighestScore < x then HighestScore else x;
    if LowestScore > upper then LowestScore else upper
  }

  /** Every score lies in [0, 10]. */
  predicate InRange(e: Evaluation)
  {
    && LowestScore <= e.score <= HighestScore
    && LowestScore <= e.feasibility <= HighestScore
    && LowestScore <= e.marketPotential <= HighestScore
    && LowestScore <= e.innovation <= HighestScore
    && LowestScore <= e.impact <= HighestScore
  }

  /** The five scores clamped; the feedback is kept as it came. */
  function ClampEvaluation(e: Evaluation): (r: Evaluation)
    ensures InRange(r)
    ensures r.feedback == e.feedback
    ensures InRange(e) ==> r == e
  {
    Evaluation(Clamp(e.score), e.feedback, Clamp(e.feasibility), Clamp(e.marketPotential),
               Clamp(e.innovation), Clamp(e.impact))
  }

  /** Clamping twice is clamping once. */
  lemma ClampIdempotent(e: Evaluation)
    ensures ClampEvaluation(ClampEvaluation(e)) == ClampEvaluation(e)
  {
  }

  const Fallback: Evaluation :=
    Evaluation(FallbackScore, FallbackFeedback, FallbackScore, FallbackScore, FallbackScore, FallbackScore)

  /** `evaluateIdea(...)`: never fails; a parsed reply is clamped, anything else gives
      the fallback. */
  function Evaluate(reply: ModelReply): (r: Evaluation)
    ensures InRange(r)
    ensures reply.Parsed? ==> r == ClampEvaluation(reply.e) && r.feedback == reply.e.feedback
    ensures !reply.Parsed? ==> r == Fallback
  {
    match reply
    case Parsed(e) => ClampEvaluation(e)
    case _ => Fallback
  }

  /** The fallback is itself a valid evaluation, and every score of it is 5. */
  lemma FallbackInRange()
    ensures InRange(Fallback)
    ensures Fallback.score == Fallback.feasibility == Fallback.marketPotential == Fallback.innovation == Fallback.impact == 5
  {
  }
}

=== FILE: app.dfy ===
/** The client shell: the `fetch` wrapper that attaches the stored token to every
    request, the three route guards, and the page router. */
module App {
  import opened Wrappers
  import opened UseAuth
  import Auth
  import Strings
  import Schema

  /** A request a page sends through `apiRequest`: method, url and JSON body. */
  datatype Request = Request(verb: string, path: string, body: Schema.Body)

  /** The parts of a request's `init` object the wrapper touches; `verb` is its `method`. */
  datatype Init = Init(verb: Option<string>, headers: map<string, string>, body: Option<string>)

  const AuthorizationHeader: string := "Authorization"

  /** The fetch wrapper: with a non-empty stored token the request carries
      `Authorization: Bearer <token>` on top of its own headers (an absent `init`
      becomes one holding only that header); without one the request goes out
      unchanged. */
  function WithAuthorization(token: Option<string>, init: Option<Init>): (r: Option<Init>)
    ensures token.None? || token.value == "" ==> r == init
    ensures token.Some? && token.value != "" ==>
      && r.Some?
      && AuthorizationHeader in r.value.headers
      && r.value.headers[AuthorizationHeader] == Auth.BearerPrefix + token.value
      && (forall h :: h in r.value.headers <==> h in (if init.Some? then init.value.headers.Keys else {}) + {AuthorizationHeader})
      && (init.Some? ==> r.value.verb == init.value.verb && r.value.body == init.value.body)
      && (init.None? ==> r.value.verb.None? && r.value.body.None?)
  {
    if token.Some? && token.value != "" then
      var header := Auth.BearerPrefix + token.value;
      match init
      case Some(i) => Some(i.(headers := i.headers[AuthorizationHeader := header]))
      case None => Some(Init(None, map[AuthorizationHeader := header], None))
    else init
  }

  /** The wrapper keeps every header of the request other than `Authorization`. */
  lemma WrapperKeepsHeaders(token: Option<string>, i: Init, h: string)
    requires h in i.headers && h != AuthorizationHeader
    ensures WithAuthorization(token, Some(i)).value.headers[h] == i.headers[h]
  {
  }

  /** The server reads back exactly the token the wrapper attached. */
  lemma WrapperHeaderRoundTrip(token: string, init: Option<Init>)
    requires token != ""
    ensures Auth.ExtractTokenFromHeader(Some(WithAuthorization(Some(token), init).value.headers[AuthorizationHeader]))
      == Some(token)
  {
    Auth.ExtractRoundTrip(token);
  }

  /** What a guard renders: its page, or a redirect. */
  datatype Guarded = Render | RedirectTo(path: string)

  /** `ProtectedRoute`: signed-in users only. */
  function Protected(s: Session): (g: Guarded)
    ensures g == Render <==> s.isAuthenticated
    ensures g != Render ==> g == RedirectTo("/login")
  {
    if !s.isAuthenticated then RedirectTo("/login") else Render
  }

  /** `AdminRoute`: signed-in admins only; other signed-in users go to the dashboard. */
  function AdminOnly(s: Session): (g: Guarded)
    ensures g == Render <==> s.isAuthenticated && s.user.Some? && s.user.value.role == "admin"
    ensures !s.isAuthenticated ==> g == RedirectTo("/login")
    ensures s.isAuthenticated && g != Render ==> g == RedirectTo("/dashboard")
  {
    if !s.isAuthenticated then RedirectTo("/login")
    else if s.user.None? || s.user.value.role != "admin" then RedirectTo("/dashboard")
    else Render
  }

  /** `AuthRoute`: signed-out visitors only. */
  function SignedOutOnly(s: Session): (g: Guarded)
    ensures g == Render <==> !s.isAuthenticated
    ensures g != Render ==> g == RedirectTo("/dashboard")
  {
    if s.isAuthenticated then RedirectTo("/dashboard") else Render
  }

  datatype Page =
    | LoginPage | SignupPage | DashboardPage | SubmitPage | MyIdeasPage
    | AdminPage | UsersPage | EvaluatorPage | NotFoundPage

  /** What the router shows for a location. */
  datatype View = Show(page: Page) | Redirect(to: string)

  function Guard(g: Guarded, p: Page): View
  {
    match g
    case Render => Show(p)
    case RedirectTo(to) => Redirect(to)
  }

  /** The paths the switch lists, in order; `/` only redirects. */
  const RoutePaths: seq<string> :=
    ["/login", "/signup", "/dashboard", "/submit", "/my-ideas", "/admin", "/admin/users", "/ai-evaluator", "/"]

  /** A location as the router compares it. Each route's pattern becomes the
      expression `^<pattern>\/?$` with the case-insensitive flag, so ASCII letters are
      lower-cased and one trailing `/` is dropped; the pattern `/` becomes `^\/?$`
      and so normalises to the empty path. */
  function Normalise(path: string): (n: string)
    ensures n == Strings.ToLower(path) || n + "/" == Strings.ToLower(path)
    ensures |n| == 0 || n[|n| - 1] != '/' || n + "/" == Strings.ToLower(path)
  {
    var lower := Strings.ToLower(path);
    if |lower| > 0 && lower[|lower| - 1] == '/' then lower[..|lower| - 1] else lower
  }

  /** The patterns as the router compares them: `RoutePaths` normalised, in the same
      order. */
  const RouteKeys: seq<string> :=
    ["/login", "/signup", "/dashboard", "/submit", "/my-ideas", "/admin", "/admin/users", "/ai-evaluator", ""]

  /** A path without upper-case ASCII letters is its own lower-case form. */
  lemma LowerFixed(p: string)
    requires forall i :: 0 <= i < |p| ==> !('A' <= p[i] <= 'Z')
    ensures Strings.ToLower(p) == p
  {
  }

  /** A lower-case path without a trailing slash is already normal. */
  lemma NormalPath(p: string)
    requires forall i :: 0 <= i < |p| ==> !('A' <= p[i] <= 'Z')
    requires |p| == 0 || p[|p| - 1] != '/'
    ensures Normalise(p) == p
  {
    LowerFixed(p);
  }

  /** Each pattern normalises to its key, and each key but the last is already
      normal. */
  lemma PatternsNormalised()
    ensures |RouteKeys| == |RoutePaths|
    ensures forall i :: 0 <= i < |RoutePaths| ==> Normalise(RoutePaths[i]) == RouteKeys[i]
    ensures forall i :: 0 <= i < |RouteKeys| - 1 ==> Normalise(RouteKeys[i]) == RouteKeys[i]
  {
    forall i | 0 <= i < |RoutePaths|
      ensures Strings.ToLower(RoutePaths[i]) == RoutePaths[i]
    {
      LowerFixed(RoutePaths[i]);
    }
  }

  /** The switch over a normalised location, in the order the routes are listed. */
  function Dispatch(n: string, s: Session): (v: View)
    ensures v == Show(NotFoundPage) <==> n !in RouteKeys
    ensures v.Show? && v.page in {AdminPage, UsersPage} ==>
      s.isAuthenticated && s.user.Some? && s.user.value.role == "admin"
    ensures v.Show? && v.page in {DashboardPage, SubmitPage, MyIdeasPage, EvaluatorPage} ==> s.isAuthenticated
    ensures v.Show? && v.page in {LoginPage, SignupPage} ==> !s.isAuthenticated
    ensures v.Redirect? ==> v.to in {"/login", "/dashboard"}
    ensures n == "" ==> v == Redirect("/dashboard")
    ensures v == Show(LoginPage) <==> n == "/login" && !s.isAuthenticated
    ensures v == Show(SignupPage) <==> n == "/signup" && !s.isAuthenticated
    ensures v == Show(DashboardPage) <==> n == "/dashboard" && s.isAuthenticated
    ensures v == Show(SubmitPage) <==> n == "/submit" && s.isAuthenticated
    ensures v == Show(MyIdeasPage) <==> n == "/my-ideas" && s.isAuthenticated
    ensures v == Show(EvaluatorPage) <==> n == "/ai-evaluator" && s.isAuthenticated
    ensures v == Show(AdminPage) <==> n == "/admin" && s.isAuthenticated && s.user.Some? && s.user.value.role == "admin"
    ensures v == Show(UsersPage) <==>
      n == "/admin/users" && s.isAuthenticated && s.user.Some? && s.user.value.role == "admin"
    ensures v == Redirect("/login") <==>
      !s.isAuthenticated && n in {"/dashboard", "/submit", "/my-ideas", "/admin", "/admin/users", "/ai-evaluator"}
    ensures v == Redirect("/dashboard") <==>
      || n == ""
      || (s.isAuthenticated && n in {"/login", "/signup"})
      || (s.isAuthenticated && (s.user.None? || s.user.value.role != "admin") && n in {"/admin", "/admin/users"})
  {
    if n == "/login" then Guard(SignedOutOnly(s), LoginPage)
    else if n == "/signup" then Guard(SignedOutOnly(s), SignupPage)
    else if n == "/dashboard" then Guard(Protected(s), DashboardPage)
    else if n == "/submit" then Guard(Protected(s), SubmitPage)
    else if n == "/my-ideas" then Guard(Protected(s), MyIdeasPage)
    else if n == "/admin" then Guard(AdminOnly(s), AdminPage)
    else if n == "/admin/users" then Guard(AdminOnly(s), UsersPage)
    else if n == "/ai-evaluator" then Guard(Protected(s), EvaluatorPage)
    else if n == "" then Redirect("/dashboard")
    else Show(NotFoundPage)
  }

  /** The router: the first route whose pattern matches the normalised location
      wins; a location that matches no pattern shows the not-found page. */
  function Route(location: string, s: Session): (v: View)
    ensures v == Show(NotFoundPage) <==> Normalise(location) !in RouteKeys
    ensures v.Show? && v.page in {AdminPage, UsersPage} ==>
      s.isAuthenticated && s.user.Some? && s.user.value.role == "admin"
    ensures v.Show? && v.page in {DashboardPage, SubmitPage, MyIdeasPage, EvaluatorPage} ==> s.isAuthenticated
    ensures v.Show? && v.page in {LoginPage, SignupPage} ==> !s.isAuthenticated
    ensures v.Redirect? ==> v.to in {"/login", "/dashboard"}
    ensures Normalise(location) == "" ==> v == Redirect("/dashboard")
    ensures v == Show(LoginPage) <==> Normalise(location) == "/login" && !s.isAuthenticated
    ensures v == Show(SignupPage) <==> Normalise(location) == "/signup" && !s.isAuthenticated
    ensures v == Show(DashboardPage) <==> Normalise(location) == "/dashboard" && s.isAuthenticated
    ensures v == Show(SubmitPage) <==> Normalise(location) == "/submit" && s.isAuthenticated
    ensures v == Show(MyIdeasPage) <==> Normalise(location) == "/my-ideas" && s.isAuthenticated
    ensures v == Show(EvaluatorPage) <==> Normalise(location) == "/ai-evaluator" && s.isAuthenticated
    ensures v == Show(AdminPage) <==> Normalise(location) == "/admin" && s.isAuthenticated && s.user.Some? && s.user.value.role == "admin"
    ensures v == Show(UsersPage) <==>
      Normalise(location) == "/admin/users" && s.isAuthenticated && s.user.Some? && s.user.value.role == "admin"
    ensures v == Redirect("/login") <==>
      !s.isAuthenticated && Normalise(location) in {"/dashboard", "/submit", "/my-ideas", "/admin", "/admin/users", "/ai-evaluator"}
    ensures v == Redirect("/dashboard") <==>
      || Normalise(location) == ""
      || (s.isAuthenticated && Normalise(location) in {"/login", "/signup"})
      || (s.isAuthenticated && (s.user.None? || s.user.value.role != "admin") && Normalise(location) in {"/admin", "/admin/users"})
  {
    Dispatch(Normalise(location), s)
  }

  /** The router ignores the case of ASCII letters and one trailing slash. */
  lemma RouteIgnoresCaseAndSlash(location: string, s: Session)
    requires |location| == 0 || location[|location| - 1] != '/'
    ensures Route(location + "/", s) == Route(location, s)
    ensures Route(Strings.ToLower(location), s) == Route(location, s)
  {
    Strings.ToLowerConcat(location, "/");
    assert Strings.ToLower("/") == "/";
    assert Normalise(location + "/") == Normalise(location);
    Strings.ToLowerIdempotent(location);
  }

  /** Following the router's redirects from any location reaches a page within two
      hops: a signed-in visitor lands on the dashboard, a signed-out one on the
      login page. */
  lemma RedirectsSettle(location: string, s: Session)
    ensures Route(location, s).Redirect? ==>
      var v1 := Route(Route(location, s).to, s);
      v1.Show? || (v1.Redirect? && Route(v1.to, s).Show?)
    ensures Route(location, s).Redirect? ==>
      var v1 := Route(Route(location, s).to, s);
      var last := if v1.Show? then v1 else Route(v1.to, s);
      last == (if s.isAuthenticated then Show(DashboardPage) else Show(LoginPage))
  {
    NormalPath("/login");
    NormalPath("/dashboard");
  }
}

=== FILE: auth.dfy ===
/** The token service: the bearer-header parser, the payload a token carries, and the
    token check. Hashing, signing and verifying are cryptographic calls whose results
    enter as parameters: a verifier is a function from a token to the payload it
    carries, or to nothing when the signature or the expiry does not check out. */
module Auth {
  import opened Wrappers
  import opened Schema
  import Strings

  const BearerPrefix: string := "Bearer "

  /** `extractTokenFromHeader(header)`: a missing header, or one not starting with
      `Bearer ` (case and spacing exact), gives no token; otherwise everything after
      the seven prefix characters, possibly empty. */
  function ExtractTokenFromHeader(header: Option<string>): (r: Option<string>)
    ensures r.Some? <==> header.Some? && Strings.StartsWith(header.value, BearerPrefix)
    ensures r.Some? ==> header.value == BearerPrefix + r.value
  {
    if header.None? || !Strings.StartsWith(header.value, BearerPrefix) then None
    else
      assert header.value == header.value[..7] + header.value[7..];
      Some(header.value[7..])
  }

  /** Prefixing a token and parsing the header gives the token back, the empty one included. */
  lemma ExtractRoundTrip(token: string)
    ensures ExtractTokenFromHeader(Some(BearerPrefix + token)) == Some(token)
  {
    var h := BearerPrefix + token;
    assert h[..7] == BearerPrefix;
    assert h[7..] == token;
  }

  /** The claims a token carries. The role is the role name as a string. */
  datatype JwtPayload = JwtPayload(userId: int, email: string, role: string)

  /** `generateToken(user)`: the claims signed into a user's token. */
  function MakePayload(u: User): (p: JwtPayload)
    ensures p.userId == u.id && p.email == u.email && p.role == RoleName(u.role)
    ensures ParseRole(p.role) == Some(u.role)
  {
    EnumNamesRoundTrip(u.role, Pending, Technology, Short);
    JwtPayload(u.id, u.email, RoleName(u.role))
  }

  /** A token verifier: the claims of a well-signed unexpired token, `None` otherwise. */
  type Verifier = string -> Option<JwtPayload>

  /** The claims a freshly signed token of `u` carries, under a verifier that accepts it. */
  predicate SignedFor(verify: Verifier, token: string, u: User)
  {
    verify(token) == Some(MakePayload(u))
  }
}

=== FILE: dashboard.dfy ===
/** The dashboard: the approved ideas, narrowed by a case-insensitive search and a
    category, then ordered by the chosen key. */
module Dashboard {
  import opened Wrappers
  import opened Schema
  import Strings
  import Lists
  import Sorting
  import Storage

  /** `matchesSearch`: the lower-cased term occurs in the lower-cased title or
      description. */
  predicate MatchesSearch(x: Storage.IdeaSummary, term: string)
  {
    var t := Strings.ToLower(term);
    Strings.Contains(Strings.ToLower(x.title), t) || Strings.Contains(Strings.ToLower(x.description), t)
  }

  /** `matchesCategory`: `all`, or the idea's category name. */
  predicate MatchesCategory(x: Storage.IdeaSummary, category: string)
  {
    category == "all" || CategoryName(x.category) == category
  }

  predicate Shown(x: Storage.IdeaSummary, term: string, category: string)
  {
    MatchesSearch(x, term) && MatchesCategory(x, category)
  }

  /** `filteredIdeas`: the ideas matching both the search and the category, in order. */
  function FilterIdeas(ideas: seq<Storage.IdeaSummary>, term: string, category: string): (r: seq<Storage.IdeaSummary>)
    ensures |r| <= |ideas|
    ensures forall i :: 0 <= i < |r| ==> r[i] in ideas && MatchesSearch(r[i], term) && MatchesCategory(r[i], category)
    ensures forall i :: 0 <= i < |ideas| && MatchesSearch(ideas[i], term) && MatchesCategory(ideas[i], category) ==> ideas[i] in r
  {
    Lists.Filter(ideas, (x: Storage.IdeaSummary) => Shown(x, term, category))
  }

  /** The dashboard filter works element by element: it keeps the order of the list
      and each shown idea once. */
  lemma FilterIdeasConcat(a: seq<Storage.IdeaSummary>, b: seq<Storage.IdeaSummary>, term: string, category: string)
    ensures FilterIdeas(a + b, term, category) == FilterIdeas(a, term, category) + FilterIdeas(b, term, category)
  {
    Lists.FilterConcat(a, b, (x: Storage.IdeaSummary) => Shown(x, term, category));
  }

  /** One idea is kept, once, exactly when it matches both the search and the category. */
  lemma FilterIdeasSingleton(x: Storage.IdeaSummary, term: string, category: string)
    ensures FilterIdeas([x], term, category) ==
      if MatchesSearch(x, term) && MatchesCategory(x, category) then [x] else []
  {
    Lists.FilterSingleton(x, (y: Storage.IdeaSummary) => Shown(y, term, category));
  }

  /** An empty search under `all` keeps every idea, in order. */
  lemma {:induction false} NoFilterKeepsAll(ideas: seq<Storage.IdeaSummary>)
    ensures FilterIdeas(ideas, "", "all") == ideas
    decreases |ideas|
  {
    if |ideas| > 0 {
      NoFilterKeepsAll(ideas[1..]);
      Strings.ContainsEmpty(Strings.ToLower(ideas[0].title));
      assert Strings.ToLower("") == "";
      assert ideas == [ideas[0]] + ideas[1..];
    }
  }

  /** The search ignores the case of the term. */
  lemma SearchIgnoresCase(x: Storage.IdeaSummary, term: string)
    ensures MatchesSearch(x, term) <==> MatchesSearch(x, Strings.ToLower(term))
  {
    Strings.ToLowerIdempotent(term);
  }

  /** The comparator's key: the vote balance for `most-voted`, the score for
      `ai-score` (a missing score counts as 0), the creation time otherwise. */
  function SortKey(sortBy: string): (key: Storage.IdeaSummary -> int)
    ensures sortBy == "most-voted" ==> forall x :: key(x) == x.upvotes - x.downvotes
    ensures sortBy == "ai-score" ==> forall x :: key(x) == (if x.aiScore.Some? then x.aiScore.value else 0)
    ensures sortBy != "most-voted" && sortBy != "ai-score" ==> forall x :: key(x) == x.createdAt
  {
    match sortBy
    case "most-voted" => (x: Storage.IdeaSummary) => x.upvotes - x.downvotes
    case "ai-score" => (x: Storage.IdeaSummary) => if x.aiScore.Some? then x.aiScore.value else 0
    case _ => (x: Storage.IdeaSummary) => x.createdAt
  }

  /** `sortedIdeas`: the same ideas, largest key first. */
  function SortIdeas(ideas: seq<Storage.IdeaSummary>, sortBy: string): (r: seq<Storage.IdeaSummary>)
    ensures multiset(r) == multiset(ideas)
    ensures Sorting.SortedDesc(r, SortKey(sortBy))
    ensures forall k :: Sorting.KeyRun(r, SortKey(sortBy), k) == Sorting.KeyRun(ideas, SortKey(sortBy), k)
  {
    var r := Sorting.SortDesc(ideas, SortKey(sortBy));
    forall k
      ensures Sorting.KeyRun(r, SortKey(sortBy), k) == Sorting.KeyRun(ideas, SortKey(sortBy), k)
    {
      Sorting.SortStable(ideas, SortKey(sortBy), k);
    }
    r
  }

  /** What the dashboard lists. */
  function Visible(ideas: seq<Storage.IdeaSummary>, term: string, category: string, sortBy: string)
    : (r: seq<Storage.IdeaSummary>)
    ensures forall x :: x in r <==> x in ideas && Shown(x, term, category)
    ensures Sorting.SortedDesc(r, SortKey(sortBy))
  {
    var f := FilterIdeas(ideas, term, category);
    var r := SortIdeas(f, sortBy);
    Sorting.PermutationMembers(r, f);
    r
  }

  /** The category options: `all` and the six category names. */
  const CategoryOptions: seq<string> := ["all", "technology", "business", "healthcare", "education", "environment", "other"]

  lemma CategoryOptionsMatchSchema()
    ensures CategoryOptions == ["all"] + CategoryNames
  {
  }

  /** With no search and `all`, the dashboard lists exactly the approved ideas, each
      with its vote counts; under the default order, newest first. */
  lemma DashboardShowsApproved(s: Storage.Store, x: Storage.IdeaSummary)
    ensures var r := Visible(Storage.GetApprovedIdeasWithVotes(s), "", "all", "latest");
      && (x in r <==> exists m :: 0 <= m < |s.ideas| && s.ideas[m].status == Approved && x == Storage.Summarize(s.votes, s.ideas[m]))
      && Sorting.SortedDesc(r, Storage.SummaryCreatedAt)
  {
    var all := Storage.GetApprovedIdeasWithVotes(s);
    NoFilterKeepsAll(all);
    var r := Visible(all, "", "all", "latest");
    assert forall i, j :: 0 <= i < j < |r| ==> SortKey("latest")(r[i]) >= SortKey("latest")(r[j]);
  }
}

=== FILE: evaluator_page.dfy ===
/** The AI evaluator page: the form check before the request, the score colour,
    and the icon shown next to each recommended chart. */
module EvaluatorPage {
  import opened Wrappers
  import opened Schema
  import Strings
  import Storage
  import Routes
  import AiEvaluator
  import Auth

  /** The category and timeline options of the form. */
  const CategoryOptions: seq<string> := ["technology", "business", "healthcare", "education", "environment", "other"]
  const TimelineOptions: seq<string> := ["immediate", "short", "medium", "long"]

  lemma OptionsMatchSchema()
    ensures CategoryOptions == CategoryNames && TimelineOptions == TimelineNames
  {
  }

  /** `handleEvaluate`: the title, description and audience must hold some
      non-white-space character and a category and a timeline must be picked;
      otherwise a warning and no request. The request carries the five fields as
      typed, untrimmed. */
  function HandleEvaluate(title: string, description: string, category: string, timeline: string, audience: string)
    : (r: Option<Body>)
    ensures r.Some? <==>
      && !Strings.IsBlank(title) && !Strings.IsBlank(description) && !Strings.IsBlank(audience)
      && category != "" && timeline != ""
    ensures r.Some? ==>
      && r.value.Keys == {"title", "description", "category", "timeline", "targetAudience"}
      && r.value["title"] == JStr(title) && r.value["description"] == JStr(description)
      && r.value["category"] == JStr(category) && r.value["timeline"] == JStr(timeline)
      && r.value["targetAudience"] == JStr(audience)
  {
    Strings.TrimEmptyIffBlank(title);
    Strings.TrimEmptyIffBlank(description);
    Strings.TrimEmptyIffBlank(audience);
    if Strings.Trim(title) == "" || Strings.Trim(description) == "" || category == "" || timeline == ""
       || Strings.Trim(audience) == ""
    then None
    else Some(FormBody(title, description, category, timeline, audience))
  }

  /** The five fields as JSON strings, under the keys the server reads. */
  function FormBody(title: string, description: string, category: string, timeline: string, audience: string)
    : (b: Body)
    ensures b.Keys == {"title", "description", "category", "timeline", "targetAudience"}
    ensures b["title"] == JStr(title) && b["description"] == JStr(description)
    ensures b["category"] == JStr(category) && b["timeline"] == JStr(timeline)
    ensures b["targetAudience"] == JStr(audience)
  {
    map["title" := JStr(title), "description" := JStr(description), "category" := JStr(category),
        "timeline" := JStr(timeline), "targetAudience" := JStr(audience)]
  }

  /** The advice the server returns names the timeline the form sent. */
  lemma AdviceEchoesTimeline(s: Storage.Store, header: Option<string>, verify: Auth.Verifier,
                             title: string, description: string, category: string, timeline: string, audience: string,
                             reply: AiEvaluator.ModelReply)
    requires HandleEvaluate(title, description, category, timeline, audience).Some?
    requires Routes.Authenticate(s, header, verify).Ok?
    ensures var r := Routes.EvaluateRoute(s, header, verify, HandleEvaluate(title, description, category, timeline, audience).value, reply);
      && r.status == Routes.OkStatus
      && Strings.StartsWith(r.body.evaluation.timeline, "Based on " + timeline + " timeline: ")
  {
    var body := HandleEvaluate(title, description, category, timeline, audience).value;
    Routes.TimelineEchoed(s, header, verify, body, timeline, reply);
  }

  datatype ScoreColour = Green | Yellow | Red

  /** `getScoreColor(score)`: green from 8, yellow from 6, red below. */
  function ScoreColor(score: int): (c: ScoreColour)
    ensures c == Green <==> score >= 8
    ensures c == Red <==> score < 6
  {
    if score >= 8 then Green else if score >= 6 then Yellow else Red
  }

  function ColourRank(c: ScoreColour): nat
  {
    match c
    case Red => 0
    case Yellow => 1
    case Green => 2
  }

  /** A higher score never gets a worse colour. */
  lemma ScoreColorMonotone(a: int, b: int)
    requires a <= b
    ensures ColourRank(ScoreColor(a)) <= ColourRank(ScoreColor(b))
  {
  }

  /** The fallback evaluation shows red. */
  lemma FallbackShowsRed()
    ensures ScoreColor(AiEvaluator.Fallback.score) == Red
  {
  }

  datatype Icon = BarIcon | PieIcon | LineIcon

  /** `getChartIcon(chart)` as written: the lower-cased entry must be exactly one of
      the three chart names; anything else gets the bar icon. */
  function ChartIconAsWritten(chart: string): (i: Icon)
    ensures i == PieIcon <==> Strings.ToLower(chart) == "pie chart"
    ensures i == LineIcon <==> Strings.ToLower(chart) == "line chart"
  {
    match Strings.ToLower(chart)
    case "bar chart" => BarIcon
    case "pie chart" => PieIcon
    case "line chart" => LineIcon
    case _ => BarIcon
  }

  /** None of the entries the server recommends is a bare chart name, so every one
      of them gets the bar icon, the pie and line charts included. */
  lemma ServerChartsAllBarAsWritten()
    ensures forall i :: 0 <= i < |Routes.RecommendedCharts| ==> ChartIconAsWritten(Routes.RecommendedCharts[i]) == BarIcon
  {
  }

  /** The parenthesised forms of the three chart types. */
  const BarTag: string := "(bar chart)"
  const PieTag: string := "(pie chart)"
  const LineTag: string := "(line chart)"

  /** The lower-cased entry names a chart type: it is the type, or ends with the
      type in parentheses. */
  predicate NamesChart(lower: string, kind: string, tag: string)
  {
    lower == kind || Strings.EndsWith(lower, tag)
  }

  /** `getChartIcon(chart)` as evidently intended: the icon follows the chart type
      the entry names, also when the type is given in parentheses after a title. */
  function ChartIcon(chart: string): (i: Icon)
    ensures Strings.ToLower(chart) == "pie chart" ==> i == PieIcon
    ensures Strings.ToLower(chart) == "line chart" ==> i == LineIcon
    ensures i == PieIcon ==> NamesChart(Strings.ToLower(chart), "pie chart", PieTag)
    ensures i == LineIcon ==> NamesChart(Strings.ToLower(chart), "line chart", LineTag)
  {
    var lower := Strings.ToLower(chart);
    if NamesChart(lower, "bar chart", BarTag) then BarIcon
    else if NamesChart(lower, "pie chart", PieTag) then PieIcon
    else if NamesChart(lower, "line chart", LineTag) then LineIcon
    else BarIcon
  }

  /** Behind a tail of twelve characters or more, the title in front cannot change
      the icon: no whole-entry name is that long, and every parenthesised kind fits in
      the tail. */
  lemma {:induction false} IconDecidedByTail(title: string, tail: string)
    requires |tail| >= 12
    ensures ChartIcon(title + tail) == ChartIcon(tail)
  {
    Strings.ToLowerConcat(title, tail);
    var t := Strings.ToLower(tail);
    assert |Strings.ToLower(title + tail)| >= 12 && |t| >= 12;
    Strings.EndsWithConcat(Strings.ToLower(title), t, BarTag);
    Strings.EndsWithConcat(Strings.ToLower(title), t, PieTag);
    Strings.EndsWithConcat(Strings.ToLower(title), t, LineTag);
  }

  /** The chart types as the server capitalises them. */
  const ChartKinds: set<string> := {"Bar Chart", "Pie Chart", "Line Chart"}

  /** Each chart type, bare or parenthesised, gets its own icon. */
  lemma BarKind()
    ensures ChartIcon(" (Bar Chart)") == BarIcon == ChartIcon("Bar Chart")
  {
    assert Strings.ToLower(" (Bar Chart)") == " (bar chart)";
    assert Strings.ToLower("Bar Chart") == "bar chart";
  }

  lemma PieKind()
    ensures ChartIcon(" (Pie Chart)") == PieIcon == ChartIcon("Pie Chart")
  {
    assert Strings.ToLower(" (Pie Chart)") == " (pie chart)";
    assert Strings.ToLower("Pie Chart") == "pie chart";
    // the chart type starts at the same place, and its first letter differs
    assert " (pie chart)"[1..][1] == 'p' != BarTag[1];
  }

  lemma LineKind()
    ensures ChartIcon(" (Line Chart)") == LineIcon == ChartIcon("Line Chart")
  {
    assert Strings.ToLower(" (Line Chart)") == " (line chart)";
    assert Strings.ToLower("Line Chart") == "line chart";
    assert " (line chart)"[2] == 'l' != BarTag[0];
    assert " (line chart)"[2] == 'l' != PieTag[0];
  }

  /** A parenthesised chart type gets the icon of the bare type. */
  lemma KindTail(kind: string)
    requires kind in ChartKinds
    ensures ChartIcon(" (" + kind + ")") == ChartIcon(kind)
  {
    if kind == "Bar Chart" {
      assert " (" + kind + ")" == " (Bar Chart)";
      BarKind();
    } else if kind == "Pie Chart" {
      assert " (" + kind + ")" == " (Pie Chart)";
      PieKind();
    } else {
      assert " (" + kind + ")" == " (Line Chart)";
      LineKind();
    }
  }

  /** An entry of the form `<title> (<type>)` gets the icon of the bare type: the
      title in front and the parentheses around do not change it. */
  lemma TitledChartIcon(title: string, kind: string)
    requires kind in ChartKinds
    ensures ChartIcon(title + " (" + kind + ")") == ChartIcon(kind)
  {
    var tail := " (" + kind + ")";
    assert title + " (" + kind + ")" == title + tail;
    IconDecidedByTail(title, tail);
    KindTail(kind);
  }

  /** The icon each chart type is meant to get. */
  function KindIcon(kind: string): Icon
  {
    if kind == "Pie Chart" then PieIcon else if kind == "Line Chart" then LineIcon else BarIcon
  }

  /** With the intended matching, every server recommendation of the form
      `<title> (<type>)` gets its type's own icon. */
  lemma ServerChartIntended(k: nat, title: string, kind: string)
    requires k < |Routes.RecommendedCharts| && kind in ChartKinds
    requires Routes.RecommendedCharts[k] == title + " (" + kind + ")"
    ensures ChartIcon(Routes.RecommendedCharts[k]) == KindIcon(kind)
  {
    TitledChartIcon(title, kind);
    if kind == "Bar Chart" {
      BarKind();
    } else if kind == "Pie Chart" {
      PieKind();
    } else {
      LineKind();
    }
  }

  /** In particular the server's pie recommendation gets the pie icon. */
  lemma SegmentationGetsPie()
    ensures ChartIcon(Routes.RecommendedCharts[2]) == PieIcon
  {
    ServerChartIntended(2, "Customer Segmentation", "Pie Chart");
  }
}

=== FILE: idea_card.dfy ===
/** The idea card of the dashboard: the vote buttons and the request they send,
    and the score ring. */
module IdeaCard {
  import opened Wrappers
  import opened Schema
  import Strings
  import Storage
  import Routes
  import Auth
  import App

  datatype Button = UpButton | DownButton

  /** The vote type each button sends. */
  function VoteTypeOf(b: Button): (t: string)
    ensures t in {"upvote", "downvote"}
    ensures t == "upvote" <==> b == UpButton
  {
    match b
    case UpButton => "upvote"
    case DownButton => "downvote"
  }

  /** The vote mutation: `POST /api/ideas/<id>/vote` with only the vote type in the
      body. */
  function VoteRequest(ideaId: int, t: string): (r: App.Request)
    ensures r.verb == "POST"
    ensures r.body.Keys == {"voteType"} && r.body["voteType"] == JStr(t)
    ensures Strings.StartsWith(r.path, "/api/ideas/")
  {
    var path := "/api/ideas/" + Strings.IntToString(ideaId) + "/vote";
    assert path[..11] == "/api/ideas/";
    App.Request("POST", path, map["voteType" := JStr(t)])
  }

  /** A click: while a vote is in flight both buttons are disabled. */
  function Click(ideaId: int, b: Button, pending: bool): (r: Option<App.Request>)
    ensures r.Some? <==> !pending
    ensures r.Some? ==> r.value == VoteRequest(ideaId, VoteTypeOf(b)) && "voteType" in r.value.body && r.value.body["voteType"] == JStr(VoteTypeOf(b))
  {
    if pending then None else Some(VoteRequest(ideaId, VoteTypeOf(b)))
  }

  /** The score ring shows for a non-zero score. */
  predicate ShowsScore(x: Storage.IdeaSummary)
  {
    x.aiScore.Some? && x.aiScore.value != 0
  }

  /** The body the card sends is refused by the vote handler as written: its body
      check requires an `ideaId` the card never sends, so a signed-in voter gets 400
      and nothing is stored. */
  lemma CardVoteRefusedAsWritten(s: Storage.Store, header: Option<string>, verify: Auth.Verifier,
                                 ideaId: int, b: Button, now: int)
    requires Routes.Authenticate(s, header, verify).Ok?
    ensures var req := VoteRequest(ideaId, VoteTypeOf(b));
      && Routes.ParseVoteAsWritten(req.body).None?
      && Routes.VoteRouteAsWritten(s, header, verify, ideaId, req.body, now)
           == (Routes.Fail(Routes.BadRequest, "Invalid input data"), s)
  {
  }

  /** With the corrected body check the same click reaches the vote state machine
      with the button's vote type. */
  lemma CardVoteAccepted(s: Storage.Store, header: Option<string>, verify: Auth.Verifier,
                         ideaId: int, b: Button, now: int)
    requires Routes.Authenticate(s, header, verify).Ok?
    ensures var req := VoteRequest(ideaId, VoteTypeOf(b));
      Routes.VoteRoute(s, header, verify, ideaId, req.body, now)
        == Routes.ResolveVote(s, ideaId, Routes.Authenticate(s, header, verify).value.id, VoteTypeOf(b), now)
  {
  }
}

=== FILE: idea_display.dfy ===
/** Formatting shared by the idea cards of the dashboard and the "My Ideas" page,
    each of which carries its own identical copy: the relative age of an idea and
    the category badge colours. */
module IdeaDisplay {
  import opened Wrappers
  import opened Schema
  import Strings

  /** Milliseconds in an hour (`1000 * 60 * 60`). */
  const HourMs: int := 3600000

  /** The age bucket `formatTimeAgo` picks. */
  datatype Age = UnderAnHour | Hours(n: nat) | Days(n: nat) | Weeks(n: nat)

  /** A bucket `formatTimeAgo` can produce: its count is at least one, and an hour
      or day count stays below the next unit. */
  predicate WellFormed(a: Age)
  {
    match a
    case UnderAnHour => true
    case Hours(n) => 1 <= n < 24
    case Days(n) => 1 <= n < 7
    case Weeks(n) => 1 <= n
  }

  /** Whole hours in `elapsedMs`, rounded down (`Math.floor`); with a positive
      divisor Dafny's division already rounds down, negative ages included. */
  function WholeHours(elapsedMs: int): (h: int)
    ensures HourMs * h <= elapsedMs < HourMs * (h + 1)
  {
    elapsedMs / HourMs
  }

  /** The bucket of an age given in milliseconds: the first of under an hour, under
      a day, under a week, that applies, counting whole units, and otherwise weeks.
      A negative age (a date in the future) is under an hour. */
  function AgeOf(elapsedMs: int): (a: Age)
    ensures WellFormed(a)
    ensures a == UnderAnHour <==> elapsedMs < HourMs
    ensures a.Hours? ==> HourMs * a.n <= elapsedMs < HourMs * (a.n + 1)
    ensures a.Days? ==> 24 * HourMs * a.n <= elapsedMs < 24 * HourMs * (a.n + 1)
    ensures a.Weeks? ==> 168 * HourMs * a.n <= elapsedMs < 168 * HourMs * (a.n + 1)
  {
    var h := WholeHours(elapsedMs);
    if h < 1 then UnderAnHour
    else if h < 24 then Hours(h)
    else
      var d := h / 24;
      if d < 7 then Days(d)
      else Weeks(d / 7)
  }

  /** The hour a bucket starts at. */
  function StartHour(a: Age): nat
  {
    match a
    case UnderAnHour => 0
    case Hours(n) => n
    case Days(n) => 24 * n
    case Weeks(n) => 168 * n
  }

  /** An older idea never shows a younger bucket. */
  lemma AgeMonotone(e1: int, e2: int)
    requires e1 <= e2
    ensures StartHour(AgeOf(e1)) <= StartHour(AgeOf(e2))
  {
    var a1, a2 := AgeOf(e1), AgeOf(e2);
    assert StartHour(a1) * HourMs <= e1 || a1 == UnderAnHour;
    assert e2 < (StartHour(a2) + 1) * HourMs || !a2.Hours?;
  }

  /** The unit word, singular exactly for a count of one. */
  function UnitWord(a: Age): (w: string)
    requires !a.UnderAnHour?
    ensures |w| > 0 && (w[0] == 'h' <==> a.Hours?) && (w[0] == 'd' <==> a.Days?) && (w[0] == 'w' <==> a.Weeks?)
    ensures w[|w| - 1] == 's' <==> a.n != 1
    ensures (if a.n == 1 then w else w[..|w| - 1]) in {"hour", "day", "week"}
  {
    var unit := match a
      case Hours(_) => "hour"
      case Days(_) => "day"
      case Weeks(_) => "week";
    if a.n == 1 then unit else unit + "s"
  }

  const UnderAnHourText: string := "Less than an hour ago"

  /** The text of a bucket, as the card prints it. */
  function AgeText(a: Age): (t: string)
  {
    if a.UnderAnHour? then UnderAnHourText
    else Strings.NatToString(a.n) + " " + UnitWord(a) + " ago"
  }

  /** `formatTimeAgo(createdAt)`, with both instants as milliseconds. */
  function FormatTimeAgo(nowMs: int, createdMs: int): (t: string)
    ensures t == UnderAnHourText <==> nowMs - createdMs < HourMs
    ensures nowMs - createdMs >= HourMs ==>
      (Strings.EndsWith(t, "s ago") <==> AgeOf(nowMs - createdMs).n != 1)
    ensures nowMs - createdMs >= HourMs ==>
      var a := AgeOf(nowMs - createdMs);
      t == Strings.NatToString(a.n) + " " + UnitWord(a) + " ago"
  {
    var a := AgeOf(nowMs - createdMs);
    assert a.UnderAnHour? || AgeText(a)[0] == Strings.NatToString(a.n)[0];
    if a.UnderAnHour? then AgeText(a)
    else
      AgeTextPlural(a);
      AgeText(a)
  }

  /** A counted text ends in "s ago" exactly when its count is not one. */
  lemma AgeTextPlural(a: Age)
    requires !a.UnderAnHour?
    ensures Strings.EndsWith(AgeText(a), "s ago") <==> a.n != 1
  {
    var w := UnitWord(a);
    assert AgeText(a) == (Strings.NatToString(a.n) + " ") + (w + " ago");
    PluralEnding(Strings.NatToString(a.n) + " ", w);
  }

  /** Text followed by a word and " ago" ends in "s ago" exactly when the word ends in 's'. */
  lemma PluralEnding(p: string, w: string)
    requires |w| > 0
    ensures Strings.EndsWith(p + (w + " ago"), "s ago") <==> w[|w| - 1] == 's'
  {
    var t := p + (w + " ago");
    assert t[|t| - 5..] == (w + " ago")[|w| - 1..];
    var tail := [w[|w| - 1]] + " ago";
    assert (w + " ago")[|w| - 1..] == tail;
    assert tail[0] == w[|w| - 1] && "s ago"[0] == 's';
    if w[|w| - 1] == 's' {
      assert tail == "s ago";
    }
  }

  /** In a digit string followed by a space, the first space is the one after the digits. */
  lemma SpaceAfterDigits(x: string, rest: string)
    requires forall i :: 0 <= i < |x| ==> '0' <= x[i] <= '9'
    ensures Strings.Find(x + " " + rest, " ") == Some(|x|)
  {
    var s := x + " " + rest;
    assert s[|x|..|x| + 1] == " ";
    assert Strings.OccursAt(s, |x|, " ");
    forall j | 0 <= j < |x|
      ensures !Strings.OccursAt(s, j, " ")
    {
      assert s[j..j + 1] == [x[j]];
    }
  }

  /** Two digit strings, each followed by a space, start equal strings only when
      they are the same and are followed by the same rest. */
  lemma DigitsBeforeSpace(x: string, y: string, rx: string, ry: string)
    requires forall i :: 0 <= i < |x| ==> '0' <= x[i] <= '9'
    requires forall i :: 0 <= i < |y| ==> '0' <= y[i] <= '9'
    requires x + " " + rx == y + " " + ry
    ensures x == y && rx == ry
  {
    var s := x + " " + rx;
    SpaceAfterDigits(x, rx);
    SpaceAfterDigits(y, ry);
    assert |x| == |y|;
    assert x == s[..|x|];
    assert y == (y + " " + ry)[..|y|];
    assert rx == s[|x| + 1..];
    assert ry == (y + " " + ry)[|y| + 1..];
  }

  /** A counted bucket prints its count, a space, then the rest; only such a text
      starts with a digit. */
  lemma AgeTextShape(a: Age)
    ensures !a.UnderAnHour? ==> AgeText(a) == Strings.NatToString(a.n) + " " + (UnitWord(a) + " ago")
    ensures (|AgeText(a)| > 0 && '0' <= AgeText(a)[0] <= '9') <==> !a.UnderAnHour?
  {
    assert !a.UnderAnHour? ==> AgeText(a)[0] == Strings.NatToString(a.n)[0];
  }

  /** With the count fixed, the unit word determines the bucket. */
  lemma UnitWordInjective(a: Age, b: Age)
    requires !a.UnderAnHour? && !b.UnderAnHour? && a.n == b.n
    requires UnitWord(a) + " ago" == UnitWord(b) + " ago"
    ensures a == b
  {
    assert UnitWord(a) == (UnitWord(a) + " ago")[..|UnitWord(a)|];
    assert UnitWord(b) == (UnitWord(b) + " ago")[..|UnitWord(b)|];
    assert UnitWord(a)[0] == UnitWord(b)[0];
  }

  /** The printed text determines the bucket: no two buckets the function can
      produce print alike. */
  lemma AgeTextInjective(a: Age, b: Age)
    requires WellFormed(a) && WellFormed(b)
    requires AgeText(a) == AgeText(b)
    ensures a == b
  {
    AgeTextShape(a);
    AgeTextShape(b);
    if !a.UnderAnHour? {
      DigitsBeforeSpace(Strings.NatToString(a.n), Strings.NatToString(b.n), UnitWord(a) + " ago", UnitWord(b) + " ago");
      Strings.ParseNatToString(a.n);
      Strings.ParseNatToString(b.n);
      UnitWordInjective(a, b);
    }
  }

  /** The badge colour of each category name. */
  const CategoryColors: map<string, string> := map[
    "technology" := "bg-primary/10 text-primary",
    "business" := "bg-secondary/10 text-secondary",
    "healthcare" := "bg-accent/10 text-accent",
    "education" := "bg-orange-100 text-orange-800",
    "environment" := "bg-green-100 text-green-800",
    "other" := "bg-gray-100 text-gray-800"
  ]

  /** `getCategoryColor(category)`: the colour listed for the category, and the
      colour of `other` for any name not listed. */
  function CategoryColor(category: string): (c: string)
    ensures category in CategoryNames ==> c == CategoryColors[category]
    ensures category !in CategoryNames ==> c == CategoryColors["other"]
  {
    if category in CategoryColors then CategoryColors[category] else CategoryColors["other"]
  }

  /** Distinct categories get distinct colours; only `other` shares its colour with
      the unknown names. */
  lemma CategoryColorsDistinct(a: string, b: string)
    requires a in CategoryNames && b in CategoryNames && a != b
    ensures CategoryColor(a) != CategoryColor(b)
  {
  }

  /** The badge caption of a category or status name. */
  function Caption(name: string): (c: string)
    ensures |c| == |name|
    ensures |name| > 0 ==> c[0] == Strings.UpperChar(name[0]) && c[1..] == name[1..]
  {
    Strings.Capitalize(name)
  }

  /** Every category and status caption reads back to its name when lower-cased. */
  lemma CaptionsReadBack(name: string)
    requires name in CategoryNames || name in StatusNames
    ensures Strings.ToLower(Caption(name)) == name
  {
    assert forall i :: 0 <= i < |name| ==> 'a' <= name[i] <= 'z' || name[i] == 'e';
    Strings.CapitalizeLowerRoundTrip(name);
  }
}

=== FILE: lists.dfy ===
/** First match, order-preserving filter and counting over sequences: the
    `WHERE` clauses and `count(*)` of the store, and the `Array.filter` calls of the
    pages. */
module Lists {
  import opened Wrappers

  /** The first element satisfying `p` (a single-row `SELECT ... WHERE`). */
  function First<T>(s: seq<T>, p: T -> bool): (r: Option<T>)
    ensures r.Some? ==> p(r.value) && r.value in s
    ensures r.Some? ==> exists i :: 0 <= i < |s| && s[i] == r.value && forall j :: 0 <= j < i ==> !p(s[j])
    ensures r.None? <==> forall i :: 0 <= i < |s| ==> !p(s[i])
    decreases |s|
  {
    if |s| == 0 then None
    else if p(s[0]) then Some(s[0])
    else
      var r := First(s[1..], p);
      assert r.Some? ==> exists i :: 1 <= i < |s| && s[i] == r.value && forall j :: 0 <= j < i ==> !p(s[j]) by {
        if r.Some? {
          var i :| 0 <= i < |s[1..]| && s[1..][i] == r.value && forall j :: 0 <= j < i ==> !p(s[1..][j]);
          assert s[i + 1] == r.value;
          assert forall j :: 0 <= j < i + 1 ==> !p(s[j]) by {
            forall j | 0 <= j < i + 1
              ensures !p(s[j])
            {
              if j > 0 {
                assert s[j] == s[1..][j - 1];
              }
            }
          }
        }
      }
      r
  }

  /** The elements satisfying `p`, in their original order. */
  function Filter<T>(s: seq<T>, p: T -> bool): (r: seq<T>)
    ensures |r| <= |s|
    ensures forall i :: 0 <= i < |r| ==> r[i] in s && p(r[i])
    ensures forall i :: 0 <= i < |s| && p(s[i]) ==> s[i] in r
    decreases |s|
  {
    if |s| == 0 then []
    else
      var rest := Filter(s[1..], p);
      assert forall i :: 1 <= i < |s| ==> s[i] == s[1..][i - 1];
      (if p(s[0]) then [s[0]] else []) + rest
  }

  /** Filtering distributes over concatenation, so the result keeps the relative
      order of the input: it is the subsequence of exactly the matching elements. */
  lemma {:induction false} FilterConcat<T>(a: seq<T>, b: seq<T>, p: T -> bool)
    ensures Filter(a + b, p) == Filter(a, p) + Filter(b, p)
    decreases |a|
  {
    if |a| == 0 {
      assert a + b == b;
    } else {
      assert (a + b)[1..] == a[1..] + b;
      FilterConcat(a[1..], b, p);
    }
  }

  /** A predicate and its negation split a list into two filters. */
  lemma {:induction false} FilterSplit<T>(s: seq<T>, p: T -> bool, q: T -> bool)
    requires forall x :: q(x) == !p(x)
    ensures multiset(Filter(s, p)) + multiset(Filter(s, q)) == multiset(s)
    decreases |s|
  {
    if |s| > 0 {
      FilterSplit(s[1..], p, q);
      assert s == [s[0]] + s[1..];
    }
  }

  /** A filter keeps a singleton exactly when its element matches. */
  lemma FilterSingleton<T>(x: T, p: T -> bool)
    ensures Filter([x], p) == if p(x) then [x] else []
  {
  }

  /** Predicates that agree on every element filter alike. */
  lemma {:induction false} FilterAgree<T>(s: seq<T>, p: T -> bool, q: T -> bool)
    requires forall i :: 0 <= i < |s| ==> p(s[i]) == q(s[i])
    ensures Filter(s, p) == Filter(s, q)
    decreases |s|
  {
    if |s| > 0 {
      assert forall i :: 1 <= i < |s| ==> s[i] == s[1..][i - 1];
      FilterAgree(s[1..], p, q);
    }
  }

  /** Number of elements satisfying `p` (a `count(*)` with a `WHERE` clause). */
  function Count<T>(s: seq<T>, p: T -> bool): nat
  {
    |Filter(s, p)|
  }

  /** `Array.map`: `f` applied to every element, in order. */
  function Map<T, U>(s: seq<T>, f: T -> U): (r: seq<U>)
    ensures |r| == |s|
    ensures forall k :: 0 <= k < |s| ==> r[k] == f(s[k])
  {
    seq(|s|, k requires 0 <= k < |s| => f(s[k]))
  }

  lemma MapConcat<T, U>(a: seq<T>, b: seq<T>, f: T -> U)
    ensures Map(a + b, f) == Map(a, f) + Map(b, f)
  {
  }

  /** Mapping two permutations of each other gives permutations of each other. */
  lemma {:induction false} MapPermutation<T, U>(a: seq<T>, b: seq<T>, f: T -> U)
    requires multiset(a) == multiset(b)
    ensures multiset(Map(a, f)) == multiset(Map(b, f))
    decreases |a|
  {
    if |a| == 0 {
      assert |multiset(b)| == 0;
    } else {
      var x := a[0];
      assert x in multiset(b);
      var j :| 0 <= j < |b| && b[j] == x;
      var rest := b[..j] + b[j + 1..];
      assert b == b[..j] + [x] + b[j + 1..];
      assert a == [x] + a[1..];
      assert multiset(b) == multiset(b[..j]) + multiset([x]) + multiset(b[j + 1..]);
      assert multiset(rest) == multiset(b[..j]) + multiset(b[j + 1..]);
      assert multiset(a) == multiset([x]) + multiset(a[1..]);
      assert multiset(a[1..]) == multiset(a) - multiset{x};
      assert multiset(rest) == multiset(b) - multiset{x};
      MapPermutation(a[1..], rest, f);
      MapConcat([x], a[1..], f);
      MapConcat(b[..j] + [x], b[j + 1..], f);
      MapConcat(b[..j], [x], f);
      MapConcat(b[..j], b[j + 1..], f);
    }
  }

  /** An element no other index holds occurs exactly once. */
  lemma OccursOnce<T>(s: seq<T>, m: int)
    requires 0 <= m < |s|
    requires forall k :: 0 <= k < |s| && s[k] == s[m] ==> k == m
    ensures multiset(s)[s[m]] == 1
  {
    assert s == s[..m] + [s[m]] + s[m + 1..];
    assert s[m] !in s[..m];
    assert s[m] !in s[m + 1..];
  }
}

=== FILE: my_ideas.dfy ===
/** The "My Ideas" page: the status tabs over the user's ideas, the badge colours,
    the panels a card shows, and the actions it offers per status. */
module MyIdeas {
  import opened Wrappers
  import opened Schema
  import Lists
  import Storage

  /** The tab identifiers, in display order. */
  const TabIds: seq<string> := ["all", "pending", "approved", "rejected"]

  /** The tabs are `all` followed by the three status names. */
  lemma TabsAreStatuses()
    ensures TabIds == ["all"] + StatusNames
  {
  }

  /** The card filter of a tab. */
  predicate InTab(tab: string, idea: Idea)
  {
    tab == "all" || StatusName(idea.status) == tab
  }

  /** `filteredIdeas`: the `all` tab keeps every idea; any other tab keeps, in order,
      the ideas whose status name equals it. */
  function TabFilter(ideas: seq<Idea>, tab: string): (r: seq<Idea>)
    ensures tab == "all" ==> r == ideas
    ensures forall i :: 0 <= i < |r| ==> r[i] in ideas && (tab == "all" || StatusName(r[i].status) == tab)
    ensures forall i :: 0 <= i < |ideas| && (tab == "all" || StatusName(ideas[i].status) == tab) ==> ideas[i] in r
  {
    var r := Lists.Filter(ideas, (i: Idea) => InTab(tab, i));
    assert tab == "all" ==> r == ideas by {
      if tab == "all" {
        KeepAll(ideas, tab);
      }
    }
    r
  }

  /** The tab filter works element by element: it keeps the order of the list and
      keeps each matching idea once, as the subsequence of exactly the matching ideas. */
  lemma TabFilterConcat(a: seq<Idea>, b: seq<Idea>, tab: string)
    ensures TabFilter(a + b, tab) == TabFilter(a, tab) + TabFilter(b, tab)
  {
    Lists.FilterConcat(a, b, (i: Idea) => InTab(tab, i));
  }

  /** One idea is kept, once, exactly when the tab shows its status. */
  lemma TabFilterSingleton(x: Idea, tab: string)
    ensures TabFilter([x], tab) == if tab == "all" || StatusName(x.status) == tab then [x] else []
  {
    Lists.FilterSingleton(x, (i: Idea) => InTab(tab, i));
  }

  /** The `all` filter keeps the list as it is. */
  lemma {:induction false} KeepAll(ideas: seq<Idea>, tab: string)
    requires tab == "all"
    ensures Lists.Filter(ideas, (i: Idea) => InTab(tab, i)) == ideas
    decreases |ideas|
  {
    if |ideas| > 0 {
      KeepAll(ideas[1..], tab);
      assert ideas == [ideas[0]] + ideas[1..];
    }
  }

  /** The three status tabs split the `all` tab: every idea is on exactly one. */
  lemma StatusTabsPartition(ideas: seq<Idea>)
    ensures |TabFilter(ideas, "pending")| + |TabFilter(ideas, "approved")| + |TabFilter(ideas, "rejected")|
      == |TabFilter(ideas, "all")|
  {
    Storage.StatusPartition(ideas);
    SameFilter(ideas, "pending", Pending);
    SameFilter(ideas, "approved", Approved);
    SameFilter(ideas, "rejected", Rejected);
  }

  /** A status tab shows as many ideas as the statistics count for that status. */
  lemma {:induction false} SameFilter(ideas: seq<Idea>, tab: string, st: Status)
    requires tab == StatusName(st)
    ensures |TabFilter(ideas, tab)| == Storage.CountStatus(ideas, st)
    decreases |ideas|
  {
    if |ideas| > 0 {
      SameFilter(ideas[1..], tab, st);
      assert InTab(tab, ideas[0]) <==> ideas[0].status == st;
    }
  }

  /** Over the whole idea table, the admin statistics count exactly what the
      pending and approved tabs show. */
  lemma StatisticsMatchTabs(s: Storage.Store)
    ensures Storage.GetStatistics(s).pendingIdeas == |TabFilter(s.ideas, "pending")|
    ensures Storage.GetStatistics(s).approvedIdeas == |TabFilter(s.ideas, "approved")|
  {
    SameFilter(s.ideas, "pending", Pending);
    SameFilter(s.ideas, "approved", Approved);
    Storage.StatusListingCount(s, Pending);
    Storage.StatusListingCount(s, Approved);
  }

  const PendingBadge: string := "bg-yellow-100 text-yellow-800"
  const ApprovedBadge: string := "bg-secondary/10 text-secondary"
  const RejectedBadge: string := "bg-red-100 text-red-800"
  const DefaultBadge: string := "bg-gray-100 text-gray-800"

  /** `getStatusColor(status)`: one colour per status, grey for anything else. */
  function StatusColor(status: string): (c: string)
    ensures c == DefaultBadge <==> status !in StatusNames
  {
    match status
    case "pending" => PendingBadge
    case "approved" => ApprovedBadge
    case "rejected" => RejectedBadge
    case _ => DefaultBadge
  }

  /** Each status has its own colour. */
  lemma StatusColorsDistinct(a: Status, b: Status)
    requires a != b
    ensures StatusColor(StatusName(a)) != StatusColor(StatusName(b))
  {
  }

  /** `x && ...` on a nullable text: only a non-empty string shows. */
  predicate TruthyText(t: Option<string>)
  {
    t.Some? && t.value != ""
  }

  /** The AI panel shows when the idea carries a non-empty evaluation text. */
  predicate ShowsEvaluation(idea: Idea)
  {
    TruthyText(idea.aiEvaluation)
  }

  /** The rejection panel shows for a rejected idea with a non-empty reason. */
  predicate ShowsRejectionReason(idea: Idea)
  {
    idea.status == Rejected && TruthyText(idea.rejectionReason)
  }

  /** The buttons of a card. */
  datatype Actions = Actions(edit: bool, delete: bool, view: bool, retry: bool)

  /** A pending idea can be edited or deleted, an approved one viewed, a rejected one
      resubmitted. */
  function ActionsFor(status: Status): (a: Actions)
    ensures a.delete <==> status == Pending
    ensures a.edit <==> status == Pending
    ensures a.view <==> status == Approved
    ensures a.retry <==> status == Rejected
  {
    Actions(status == Pending, status == Pending, status == Approved, status == Rejected)
  }

  /** Every card offers exactly one group of actions. */
  lemma OneActionGroup(status: Status)
    ensures var a := ActionsFor(status);
      (if a.delete then 1 else 0) + (if a.view then 1 else 0) + (if a.retry then 1 else 0) == 1
  {
  }
}

=== FILE: navigation.dfy ===
/** The navigation bar: the links it lists for a user and the one it highlights. */
module Navigation {
  import opened Wrappers
  import opened UseAuth
  import App

  datatype NavItem = NavItem(href: string, text: string)

  const BaseItems: seq<NavItem> :=
    [NavItem("/dashboard", "Dashboard"), NavItem("/submit", "Submit Idea"), NavItem("/my-ideas", "My Ideas")]

  const AdminItems: seq<NavItem> :=
    [NavItem("/admin", "Admin"), NavItem("/admin/users", "User Management")]

  predicate IsAdmin(user: Option<ClientUser>)
  {
    user.Some? && user.value.role == "admin"
  }

  /** `navItems`: the three common links, followed by the two admin links exactly
      when the user's role is `admin`. */
  function NavItems(user: Option<ClientUser>): (r: seq<NavItem>)
    ensures |r| >= |BaseItems| && r[..|BaseItems|] == BaseItems
    ensures |r| == if IsAdmin(user) then 5 else 3
    ensures forall i :: 0 <= i < |r| ==> (r[i] in AdminItems <==> i >= |BaseItems|)
  {
    BaseItems + (if IsAdmin(user) then AdminItems else [])
  }

  /** An admin's bar extends everyone else's. */
  lemma AdminBarExtends(admin: ClientUser, other: Option<ClientUser>)
    requires admin.role == "admin" && !IsAdmin(other)
    ensures NavItems(Some(admin)) == NavItems(other) + AdminItems
  {
  }

  /** A link is highlighted when the location equals its target. */
  predicate IsActive(location: string, item: NavItem)
  {
    location == item.href
  }

  /** The links have distinct targets, so at most one is highlighted. */
  lemma AtMostOneActive(user: Option<ClientUser>, location: string, i: int, j: int)
    requires 0 <= i < |NavItems(user)| && 0 <= j < |NavItems(user)|
    requires IsActive(location, NavItems(user)[i]) && IsActive(location, NavItems(user)[j])
    ensures i == j
  {
  }

  /** Every link the bar shows to a signed-in user leads to a page, never to a
      redirect or the not-found page. */
  lemma LinksReachPages(s: Session, i: int)
    requires s.isAuthenticated && 0 <= i < |NavItems(s.user)|
    ensures App.Route(NavItems(s.user)[i].href, s).Show?
    ensures App.Route(NavItems(s.user)[i].href, s).page != App.NotFoundPage
  {
    App.NormalPath(NavItems(s.user)[i].href);
  }
}

=== FILE: routes.dfy ===
/** The HTTP handlers. Each handler is a function from the store and the parts of the
    request it reads (the `Authorization` header, the path id, the JSON body) to the
    reply (status code and JSON body) and, for the writing handlers, the new store.
    A thrown exception becomes the reply of the handler's `catch` block. The
    cryptographic and AI calls enter as parameters: a token verifier, a token
    signer, a password hasher and checker, an address syntax check, and the outcome
    of the model call. */
module Routes {
  import opened Wrappers
  import opened Schema
  import opened Storage
  import Auth
  import AiEvaluator
  import Strings
  import Lists
  import Sorting

  const OkStatus: int := 200
  const BadRequest: int := 400
  const Unauthorized: int := 401
  const Forbidden: int := 403
  const NotFound: int := 404
  const ServerError: int := 500

  /** The user fields the auth replies expose. */
  datatype PublicUser = PublicUser(id: int, username: string, email: string, fullName: string, role: Role)

  /** A user row without its password hash. */
  datatype SafeUser = SafeUser(id: int, username: string, email: string, fullName: string, role: Role, createdAt: int)

  /** The reply of the evaluator route: the clamped evaluation and the canned advice. */
  datatype EnhancedEvaluation = EnhancedEvaluation(
    evaluation: AiEvaluator.Evaluation, persona: string,
    dataSources: seq<string>, recommendedCharts: seq<string>, nextSteps: seq<string>,
    marketResearch: seq<string>, timeline: string, budgetEstimate: string)

  datatype ReplyBody =
    | Message(text: string)
    | AuthBody(token: string, user: PublicUser)
    | MeBody(user: PublicUser)
    | IdeaBody(idea: Idea)
    | IdeaDetail(detail: IdeaWithAuthor, counts: VoteCounts)
    | IdeaList(ideas: seq<Idea>)
    | SummaryList(summaries: seq<IdeaSummary>)
    | StatsBody(stats: Statistics)
    | UserBody(safeUser: SafeUser)
    | UserList(users: seq<SafeUser>)
    | EvaluationBody(evaluation: EnhancedEvaluation)

  datatype Reply = Reply(status: int, body: ReplyBody)

  function Fail(status: int, text: string): Reply
  {
    Reply(status, Message(text))
  }

  function Public(u: User): PublicUser
  {
    PublicUser(u.id, u.username, u.email, u.fullName, u.role)
  }

  function Safe(u: User): SafeUser
  {
    SafeUser(u.id, u.username, u.email, u.fullName, u.role, u.createdAt)
  }

  /** JavaScript truthiness of a body value. */
  predicate Truthy(j: Json)
  {
    match j
    case JNull => false
    case JBool(b) => b
    case JNum(n) => n != 0
    case JStr(t) => t != ""
  }

  // ---------------------------------------------------------------- middleware

  /** `authenticateToken`: a missing, non-bearer or empty token is refused as
      missing; a token the verifier rejects, or whose user id names no user, is
      refused as invalid; otherwise the request runs as that user. */
  function Authenticate(s: Store, header: Option<string>, verify: Auth.Verifier): (r: Result<User, Reply>)
    ensures r.Err? ==> r.error.status == Unauthorized
    ensures r.Err? && r.error.body == Message("Access token required") <==>
      (match Auth.ExtractTokenFromHeader(header) case None => true case Some(t) => t == "")
    ensures r.Ok? <==>
      (match Auth.ExtractTokenFromHeader(header)
       case None => false
       case Some(t) => t != "" && verify(t).Some? && GetUser(s, verify(t).value.userId).Some?)
    ensures r.Ok? ==> r.value in s.users && r.value.id == verify(Auth.ExtractTokenFromHeader(header).value).value.userId
  {
    match Auth.ExtractTokenFromHeader(header)
    case None => Err(Fail(Unauthorized, "Access token required"))
    case Some(token) =>
      if token == "" then Err(Fail(Unauthorized, "Access token required"))
      else match verify(token)
        case None => Err(Fail(Unauthorized, "Invalid token"))
        case Some(payload) =>
          match GetUser(s, payload.userId)
          case None => Err(Fail(Unauthorized, "Invalid token"))
          case Some(u) => Ok(u)
  }

  /** A token signed for a stored user, sent as a bearer header, authenticates as
      exactly that user. */
  lemma AuthenticateSignedToken(s: Store, k: int, token: string, verify: Auth.Verifier)
    requires UniqueUsers(s.users) && 0 <= k < |s.users|
    requires token != "" && Auth.SignedFor(verify, token, s.users[k])
    ensures Authenticate(s, Some(Auth.BearerPrefix + token), verify) == Ok(s.users[k])
  {
    Auth.ExtractRoundTrip(token);
    LookupsFindTheRow(s, k);
  }

  /** `requireAdmin` */
  function RequireAdmin(u: User): (r: Option<Reply>)
    ensures r.None? <==> u.role == AdminRole
    ensures r.Some? ==> r.value == Fail(Forbidden, "Admin access required")
  {
    if u.role != AdminRole then Some(Fail(Forbidden, "Admin access required")) else None
  }

  /** Both middlewares: the signed-in admin, or the reply that stops the request. */
  function AuthenticateAdmin(s: Store, header: Option<string>, verify: Auth.Verifier): (r: Result<User, Reply>)
    ensures r.Ok? <==> Authenticate(s, header, verify).Ok? && Authenticate(s, header, verify).value.role == AdminRole
    ensures r.Ok? ==> r.value == Authenticate(s, header, verify).value
    ensures r.Err? ==> r.error.status == Unauthorized || r.error == Fail(Forbidden, "Admin access required")
  {
    match Authenticate(s, header, verify)
    case Err(e) => Err(e)
    case Ok(u) =>
      match RequireAdmin(u)
      case Some(e) => Err(e)
      case None => Ok(u)
  }

  // ---------------------------------------------------------------- auth routes

  /** `POST /api/auth/signup`. The new account always gets the default role; the
      stored password is the hash of the given one. A taken email is reported as
      such; a taken username fails the insert and is reported as invalid input. */
  function Signup(s: Store, body: Body, hash: string -> string, sign: User -> string, now: int): (r: (Reply, Store))
    ensures r.0.status == OkStatus <==>
      && ParseInsertUser(body).Some?
      && GetUserByEmail(s, body["email"].str).None?
      && GetUserByUsername(s, body["username"].str).None?
    ensures r.0.status == OkStatus ==>
      && |r.1.users| == |s.users| + 1
      && r.1.users[..|s.users|] == s.users
      && r.1.users[|s.users|].role == DefaultRole
      && r.1.users[|s.users|].email == body["email"].str
      && r.1.users[|s.users|].password == hash(body["password"].str)
      && r.0.body == AuthBody(sign(r.1.users[|s.users|]), Public(r.1.users[|s.users|]))
    ensures r.0.status != OkStatus ==> r.0.status == BadRequest && r.1 == s
    ensures ParseInsertUser(body).Some? && GetUserByEmail(s, body["email"].str).Some? ==>
      r.0 == Fail(BadRequest, "User already exists")
    ensures Valid(s) ==> Valid(r.1)
  {
    match ParseInsertUser(body)
    case None => (Fail(BadRequest, "Invalid input data"), s)
    case Some(input) =>
      if GetUserByEmail(s, input.email).Some? then (Fail(BadRequest, "User already exists"), s)
      else match CreateUser(s, input.(password := hash(input.password)), now)
        case None => (Fail(BadRequest, "Invalid input data"), s)
        case Some((u, s')) => (Reply(OkStatus, AuthBody(sign(u), Public(u))), s')
  }

  /** `POST /api/auth/login`: malformed input is a 400; an unknown email and a wrong
      password give the same 401; otherwise a token for the account. */
  function Login(s: Store, body: Body, isEmail: string -> bool, passwordMatches: (string, string) -> bool,
                 sign: User -> string): (r: Reply)
    ensures ParseLogin(body, isEmail).None? ==> r == Fail(BadRequest, "Invalid input data")
    ensures r.status == OkStatus <==>
      (match ParseLogin(body, isEmail)
       case None => false
       case Some(l) =>
         GetUserByEmail(s, l.email).Some? && passwordMatches(l.password, GetUserByEmail(s, l.email).value.password))
    ensures ParseLogin(body, isEmail).Some? && r.status != OkStatus ==> r == Fail(Unauthorized, "Invalid credentials")
    ensures r.status == OkStatus ==> r.body.AuthBody? && r.body.user.email == body["email"].str
    ensures r.status == OkStatus ==>
      var u := GetUserByEmail(s, body["email"].str).value;
      r.body == AuthBody(sign(u), Public(u))
  {
    match ParseLogin(body, isEmail)
    case None => Fail(BadRequest, "Invalid input data")
    case Some(l) =>
      match GetUserByEmail(s, l.email)
      case None => Fail(Unauthorized, "Invalid credentials")
      case Some(u) =>
        if !passwordMatches(l.password, u.password) then Fail(Unauthorized, "Invalid credentials")
        else Reply(OkStatus, AuthBody(sign(u), Public(u)))
  }

  /** The token a successful login returns, sent back as a bearer header under a
      verifier that accepts the signer's tokens, authenticates as the account whose
      email was sent. */
  lemma LoginTokenAuthenticates(s: Store, body: Body, isEmail: string -> bool,
                                passwordMatches: (string, string) -> bool, sign: User -> string,
                                verify: Auth.Verifier)
    requires UniqueUsers(s.users)
    requires ParseLogin(body, isEmail).Some? && GetUserByEmail(s, body["email"].str).Some?
    requires passwordMatches(body["password"].str, GetUserByEmail(s, body["email"].str).value.password)
    requires sign(GetUserByEmail(s, body["email"].str).value) != ""
    requires Auth.SignedFor(verify, sign(GetUserByEmail(s, body["email"].str).value), GetUserByEmail(s, body["email"].str).value)
    ensures Login(s, body, isEmail, passwordMatches, sign).status == OkStatus
    ensures Authenticate(s, Some(Auth.BearerPrefix + Login(s, body, isEmail, passwordMatches, sign).body.token), verify)
      == Ok(GetUserByEmail(s, body["email"].str).value)
  {
    var u := GetUserByEmail(s, body["email"].str).value;
    var k :| 0 <= k < |s.users| && s.users[k] == u;
    AuthenticateSignedToken(s, k, sign(u), verify);
  }

  /** `GET /api/auth/me`: the signed-in user's public fields. */
  function Me(s: Store, header: Option<string>, verify: Auth.Verifier): (r: Reply)
    ensures r.status == OkStatus <==> Authenticate(s, header, verify).Ok?
    ensures r.status == OkStatus ==> r.body == MeBody(Public(Authenticate(s, header, verify).value))
  {
    match Authenticate(s, header, verify)
    case Err(e) => e
    case Ok(u) => Reply(OkStatus, MeBody(Public(u)))
  }

  // ---------------------------------------------------------------- idea routes

  /** `GET /api/ideas`: the approved ideas with their counts; the query is ignored. */
  function ListIdeas(s: Store): (r: Reply)
    ensures r.status == OkStatus && r.body.SummaryList?
    ensures forall x :: x in r.body.summaries <==>
      exists m :: 0 <= m < |s.ideas| && s.ideas[m].status == Approved && x == Summarize(s.votes, s.ideas[m])
    ensures |r.body.summaries| == Lists.Count(s.ideas, IsApproved)
    ensures Sorting.SortedDesc(r.body.summaries, SummaryCreatedAt)
    ensures r.body.summaries == GetApprovedIdeasWithVotes(s)
  {
    Reply(OkStatus, SummaryList(GetApprovedIdeasWithVotes(s)))
  }

  /** `GET /api/ideas/:id`: any idea, whatever its status, with its author's id,
      username, full name and email, and its counts. */
  function GetIdeaRoute(s: Store, id: int): (r: Reply)
    ensures r.status == OkStatus <==> GetIdea(s, id).Some?
    ensures r.status != OkStatus ==> r == Fail(NotFound, "Idea not found")
    ensures r.status == OkStatus ==>
      && r.body.IdeaDetail?
      && ShowsIdea(r.body.detail, GetIdea(s, id).value)
      && (r.body.detail.author.None? <==> GetUser(s, GetIdea(s, id).value.authorId).None?)
      && r.body.counts == GetIdeaVoteCounts(s, id)
    ensures r.status == OkStatus && r.body.detail.author.Some? ==>
      var u := GetUser(s, GetIdea(s, id).value.authorId).value;
      r.body.detail.author.value == Author(u.id, u.username, u.fullName, u.email)
  {
    match GetIdeaWithAuthor(s, id)
    case None => Fail(NotFound, "Idea not found")
    case Some(detail) => Reply(OkStatus, IdeaDetail(detail, GetIdeaVoteCounts(s, id)))
  }

  /** The AI fields `createIdea` receives: `...(aiScore && {aiScore})` keeps only a
      non-zero score, and likewise only a non-empty feedback text. */
  function AiFields(e: AiEvaluator.Evaluation): (r: (Option<int>, Option<string>))
    ensures r.0.Some? <==> e.score != 0
    ensures r.1.Some? <==> e.feedback != ""
    ensures r.0.Some? ==> r.0.value == e.score
    ensures r.1.Some? ==> r.1.value == e.feedback
  {
    (if e.score != 0 then Some(e.score) else None, if e.feedback != "" then Some(e.feedback) else None)
  }

  /** `POST /api/ideas`: the idea is created pending, owned by the signed-in user,
      whatever status or author the body names; an AI evaluation is stored only
      when the body asks for one. */
  function CreateIdeaRoute(s: Store, header: Option<string>, verify: Auth.Verifier, body: Body,
                           reply: AiEvaluator.ModelReply, now: int): (r: (Reply, Store))
    ensures r.0.status == OkStatus <==> Authenticate(s, header, verify).Ok? && ParseInsertIdea(body).Some?
    ensures r.0.status != OkStatus ==> r.1 == s
    ensures r.0.status == OkStatus ==>
      && |r.1.ideas| == |s.ideas| + 1 && r.1.ideas[..|s.ideas|] == s.ideas
      && r.0.body == IdeaBody(r.1.ideas[|s.ideas|])
      && r.1.ideas[|s.ideas|].status == Pending
      && r.1.ideas[|s.ideas|].authorId == Authenticate(s, header, verify).value.id
      && (!("requestAiEvaluation" in body && Truthy(body["requestAiEvaluation"])) ==>
            r.1.ideas[|s.ideas|].aiScore.None? && r.1.ideas[|s.ideas|].aiEvaluation.None?)
      && (forall v :: r.1.ideas[|s.ideas|].aiScore == Some(v) ==> 0 < v <= AiEvaluator.HighestScore)
    ensures Valid(s) ==> Valid(r.1)
  {
    match Authenticate(s, header, verify)
    case Err(e) => (e, s)
    case Ok(u) =>
      match ParseInsertIdea(body)
      case None => (Fail(BadRequest, "Invalid input data"), s)
      case Some(input) =>
        var requested := "requestAiEvaluation" in body && Truthy(body["requestAiEvaluation"]);
        var ai := if requested then AiFields(AiEvaluator.Evaluate(reply)) else (None, None);
        var (idea, s') := CreateIdea(s, input, u.id, ai.0, ai.1, now);
        (Reply(OkStatus, IdeaBody(idea)), s')
  }

  /** The owner, or an admin, may change or delete an idea. */
  predicate MayModify(u: User, idea: Idea)
  {
    idea.authorId == u.id || u.role == AdminRole
  }

  /** `PUT /api/ideas/:id`: not found, then not allowed, then invalid input; an
      allowed edit patches only the fields the body carries and can never change
      the status or the rejection reason. */
  function EditIdea(s: Store, header: Option<string>, verify: Auth.Verifier, id: int, body: Body, now: int)
    : (r: (Reply, Store))
    ensures r.0.status == OkStatus <==>
      && Authenticate(s, header, verify).Ok? && GetIdea(s, id).Some?
      && MayModify(Authenticate(s, header, verify).value, GetIdea(s, id).value)
      && ParseIdeaPatch(body).Some?
    ensures r.0.status != OkStatus ==> r.1 == s
    ensures Authenticate(s, header, verify).Ok? && GetIdea(s, id).None? ==> r.0 == Fail(NotFound, "Idea not found")
    ensures (Authenticate(s, header, verify).Ok? && GetIdea(s, id).Some? &&
             !MayModify(Authenticate(s, header, verify).value, GetIdea(s, id).value)) ==>
      r.0 == Fail(Forbidden, "Not authorized to edit this idea")
    ensures (Authenticate(s, header, verify).Ok? && GetIdea(s, id).Some? &&
             MayModify(Authenticate(s, header, verify).value, GetIdea(s, id).value) &&
             ParseIdeaPatch(body).None?) ==>
      r.0 == Fail(BadRequest, "Invalid input data")
    ensures r.0.status == OkStatus ==>
      && r.0.body.IdeaBody?
      && r.0.body.idea.status == GetIdea(s, id).value.status
      && r.0.body.idea.rejectionReason == GetIdea(s, id).value.rejectionReason
      && r.0.body.idea.authorId == GetIdea(s, id).value.authorId
      && r.1 == UpdateIdea(s, id, ParseIdeaPatch(body).value, now).1
    ensures Valid(s) ==> Valid(r.1)
  {
    match Authenticate(s, header, verify)
    case Err(e) => (e, s)
    case Ok(u) =>
      match GetIdea(s, id)
      case None => (Fail(NotFound, "Idea not found"), s)
      case Some(idea) =>
        if !MayModify(u, idea) then (Fail(Forbidden, "Not authorized to edit this idea"), s)
        else match ParseIdeaPatch(body)
          case None => (Fail(BadRequest, "Invalid input data"), s)
          case Some(patch) =>
            var (updated, s') := UpdateIdea(s, id, patch, now);
            (Reply(OkStatus, IdeaBody(updated.value)), s')
  }

  /** `DELETE /api/ideas/:id`: not found, then not allowed; an idea that still has
      votes cannot be deleted (500). */
  function DeleteIdeaRoute(s: Store, header: Option<string>, verify: Auth.Verifier, id: int): (r: (Reply, Store))
    ensures r.0.status == OkStatus <==>
      && Authenticate(s, header, verify).Ok? && GetIdea(s, id).Some?
      && MayModify(Authenticate(s, header, verify).value, GetIdea(s, id).value)
      && (forall k :: 0 <= k < |s.votes| ==> s.votes[k].ideaId != id)
    ensures r.0.status != OkStatus ==> r.1 == s
    ensures (Authenticate(s, header, verify).Ok? && GetIdea(s, id).Some? &&
             !MayModify(Authenticate(s, header, verify).value, GetIdea(s, id).value)) ==>
      r.0 == Fail(Forbidden, "Not authorized to delete this idea")
    ensures Authenticate(s, header, verify).Ok? && GetIdea(s, id).None? ==> r.0 == Fail(NotFound, "Idea not found")
    ensures (Authenticate(s, header, verify).Ok? && GetIdea(s, id).Some? &&
             MayModify(Authenticate(s, header, verify).value, GetIdea(s, id).value) &&
             r.0.status != OkStatus) ==>
      r.0 == Fail(ServerError, "Internal server error")
    ensures r.0.status == OkStatus ==>
      && r.0 == Reply(OkStatus, Message("Idea deleted successfully")) && GetIdea(r.1, id).None?
      && DeleteIdea(s, id).Some? && r.1 == DeleteIdea(s, id).value
    ensures Valid(s) ==> Valid(r.1)
  {
    match Authenticate(s, header, verify)
    case Err(e) => (e, s)
    case Ok(u) =>
      match GetIdea(s, id)
      case None => (Fail(NotFound, "Idea not found"), s)
      case Some(idea) =>
        if !MayModify(u, idea) then (Fail(Forbidden, "Not authorized to delete this idea"), s)
        else match DeleteIdea(s, id)
          case None => (Fail(ServerError, "Internal server error"), s)
          case Some(s') => (Reply(OkStatus, Message("Idea deleted successfully")), s')
  }

  /** `GET /api/my-ideas?status=`: the signed-in user's ideas, newest first, with
      the status filter when it is given and non-empty; an unknown status is a
      database error (500). */
  function MyIdeasRoute(s: Store, header: Option<string>, verify: Auth.Verifier, status: Option<string>): (r: Reply)
    ensures r.status == OkStatus <==>
      Authenticate(s, header, verify).Ok? && !(TruthyText(status) && status.value !in StatusNames)
    ensures r.status == OkStatus ==>
      r.body.IdeaList? &&
      forall k :: 0 <= k < |r.body.ideas| ==>
        r.body.ideas[k] in s.ideas &&
        (Authenticate(s, header, verify).value.id != 0 ==> r.body.ideas[k].authorId == Authenticate(s, header, verify).value.id)
    ensures r.status == OkStatus ==>
      r.body.ideas == GetIdeas(s, status, None, Some(Authenticate(s, header, verify).value.id)).value
  {
    match Authenticate(s, header, verify)
    case Err(e) => e
    case Ok(u) =>
      match GetIdeas(s, status, None, Some(u.id))
      case None => Fail(ServerError, "Internal server error")
      case Some(ideas) =>
        GetIdeasMatch(s, status, None, Some(u.id));
        Reply(OkStatus, IdeaList(ideas))
  }

  // ---------------------------------------------------------------- votes

  /** The vote state machine of one (idea, user) pair: no vote becomes a vote of the
      sent type; the same type again removes it; another type replaces it. */
  function Toggle(prev: Option<string>, t: string): (next: Option<string>)
    ensures next.None? <==> prev == Some(t)
    ensures next.Some? ==> next.value == t
  {
    match prev
    case None => Some(t)
    case Some(p) => if p == t then None else Some(t)
  }

  /** Sending the same type twice ends with no vote, unless the pair already had
      exactly that vote, which it then has again. */
  lemma ToggleTwice(prev: Option<string>, t: string)
    ensures Toggle(Toggle(prev, t), t) == if prev == Some(t) then prev else None
  {
  }

  /** The message each transition of the state machine answers with. */
  function VoteMessage(prev: Option<string>, t: string): (m: string)
    ensures m == "Vote created" <==> prev.None?
    ensures m == "Vote removed" <==> prev == Some(t)
    ensures m == "Vote updated" <==> prev.Some? && prev.value != t
  {
    match prev
    case None => "Vote created"
    case Some(p) => if p == t then "Vote removed" else "Vote updated"
  }

  /** The body of the vote handler after validation: the idea must exist and be
      approved; then the pair's vote follows `Toggle`, every other pair keeps its
      vote, and one vote per pair is kept. Nothing changes on an error. */
  function ResolveVote(s: Store, ideaId: int, userId: int, t: string, now: int): (r: (Reply, Store))
    ensures GetIdea(s, ideaId).None? ==> r == (Fail(NotFound, "Idea not found"), s)
    ensures GetIdea(s, ideaId).Some? && GetIdea(s, ideaId).value.status != Approved ==>
      r == (Fail(BadRequest, "Can only vote on approved ideas"), s)
    ensures r.0.status == OkStatus <==> GetIdea(s, ideaId).Some? && GetIdea(s, ideaId).value.status == Approved
    ensures r.0.status == OkStatus ==>
      && r.0 == Reply(OkStatus, Message(VoteMessage(VoteOf(s.votes, ideaId, userId), t)))
      && VoteOf(r.1.votes, ideaId, userId) == Toggle(VoteOf(s.votes, ideaId, userId), t)
      && (forall i, u :: (i != ideaId || u != userId) ==> VoteOf(r.1.votes, i, u) == VoteOf(s.votes, i, u))
    ensures r.1.users == s.users && r.1.ideas == s.ideas
    ensures OneVotePerPair(s.votes) ==> OneVotePerPair(r.1.votes)
    ensures Valid(s) ==> Valid(r.1)
  {
    match GetIdea(s, ideaId)
    case None => (Fail(NotFound, "Idea not found"), s)
    case Some(idea) =>
      if idea.status != Approved then (Fail(BadRequest, "Can only vote on approved ideas"), s)
      else
        var prev := VoteOf(s.votes, ideaId, userId);
        match GetVote(s, ideaId, userId)
        case Some(v) =>
          if v.voteType == t then
            var s' := DeleteVote(s, ideaId, userId);
            assert forall i, u :: VoteOf(s'.votes, i, u) == (if i == ideaId && u == userId then None else VoteOf(s.votes, i, u)) by {
              forall i, u
                ensures VoteOf(s'.votes, i, u) == (if i == ideaId && u == userId then None else VoteOf(s.votes, i, u))
              {
                VoteOfRemove(s.votes, ideaId, userId, i, u);
              }
            }
            assert OneVotePerPair(s.votes) ==> OneVotePerPair(s'.votes) by {
              if OneVotePerPair(s.votes) {
                RemoveKeepsOneVote(s.votes, ideaId, userId);
              }
            }
            (Reply(OkStatus, Message("Vote removed")), s')
          else
            var (_, s') := UpdateVote(s, ideaId, userId, t);
            assert forall i, u ::
                VoteOf(s'.votes, i, u) ==
                (if i == ideaId && u == userId && VoteOf(s.votes, i, u).Some? then Some(t) else VoteOf(s.votes, i, u)) by {
              forall i, u
                ensures VoteOf(s'.votes, i, u) ==
                  (if i == ideaId && u == userId && VoteOf(s.votes, i, u).Some? then Some(t) else VoteOf(s.votes, i, u))
              {
                VoteOfRetype(s.votes, ideaId, userId, t, i, u);
              }
            }
            assert OneVotePerPair(s.votes) ==> OneVotePerPair(s'.votes) by {
              if OneVotePerPair(s.votes) {
                RetypeKeepsOneVote(s.votes, ideaId, userId, t);
              }
            }
            (Reply(OkStatus, Message("Vote updated")), s')
        case None =>
          var s' := CreateVote(s, ideaId, userId, t, now);
          var row := Vote(s.nextVoteId, ideaId, userId, t, now);
          assert forall i, u ::
              VoteOf(s'.votes, i, u) ==
              (if VoteOf(s.votes, i, u).Some? then VoteOf(s.votes, i, u)
               else if SamePair(row, i, u) then Some(t) else None) by {
            forall i, u
              ensures VoteOf(s'.votes, i, u) ==
                (if VoteOf(s.votes, i, u).Some? then VoteOf(s.votes, i, u)
                 else if SamePair(row, i, u) then Some(t) else None)
            {
              VoteOfAppend(s.votes, row, i, u);
            }
          }
          assert OneVotePerPair(s.votes) ==> OneVotePerPair(s'.votes) by {
            if OneVotePerPair(s.votes) {
              AppendKeepsOneVote(s.votes, row);
            }
          }
          (Reply(OkStatus, Message("Vote created")), s')
  }

  /** Under one vote per pair, a successful vote moves the counts of its idea exactly
      as the pair's state moved: for every vote type, the count loses one if the old
      state was that type and gains one if the new state is. Other ideas' counts do
      not move. */
  lemma {:induction false} VoteCountsFollowToggle(s: Store, ideaId: int, userId: int, t: string, now: int, x: string, other: int)
    requires OneVotePerPair(s.votes)
    requires GetIdea(s, ideaId).Some? && GetIdea(s, ideaId).value.status == Approved
    requires other != ideaId
    ensures var s' := ResolveVote(s, ideaId, userId, t, now).1;
      var prev := VoteOf(s.votes, ideaId, userId);
      && CountVotes(s'.votes, ideaId, x) + (if prev == Some(x) then 1 else 0)
         == CountVotes(s.votes, ideaId, x) + (if Toggle(prev, t) == Some(x) then 1 else 0)
      && CountVotes(s'.votes, other, x) == CountVotes(s.votes, other, x)
  {
    var prev := VoteOf(s.votes, ideaId, userId);
    match GetVote(s, ideaId, userId)
    case Some(v) =>
      if v.voteType == t {
        CountAfterRemove(s.votes, ideaId, userId, x);
        CountOtherIdeaRemove(s.votes, ideaId, userId, other, x);
      } else {
        CountAfterRetype(s.votes, ideaId, userId, t, x);
        CountOtherIdeaRetype(s.votes, ideaId, userId, t, other, x);
      }
    case None =>
      var row := Vote(s.nextVoteId, ideaId, userId, t, now);
      CountVotesNewRow(s.votes, row, ideaId, x);
      CountVotesNewRow(s.votes, row, other, x);
  }

  /** Voting the same type twice in a row leaves the pair with no vote, unless it
      started with that vote. */
  lemma VoteTwiceSameType(s: Store, ideaId: int, userId: int, t: string, now1: int, now2: int)
    requires GetIdea(s, ideaId).Some? && GetIdea(s, ideaId).value.status == Approved
    ensures var s1 := ResolveVote(s, ideaId, userId, t, now1).1;
      var s2 := ResolveVote(s1, ideaId, userId, t, now2).1;
      VoteOf(s2.votes, ideaId, userId) ==
        if VoteOf(s.votes, ideaId, userId) == Some(t) then Some(t) else None
  {
    var s1 := ResolveVote(s, ideaId, userId, t, now1).1;
    assert s1.ideas == s.ideas;
    ToggleTwice(VoteOf(s.votes, ideaId, userId), t);
  }

  /** Validation of a vote body as the vote handler writes it: the insert schema
      picks `ideaId` and `voteType`, and both are required. */
  function ParseVoteAsWritten(body: Body): (r: Option<string>)
    ensures r.Some? <==> "ideaId" in body && body["ideaId"].JNum? && HasText(body, "voteType")
    ensures r.Some? ==> r.value == body["voteType"].str
  {
    match ParseInsertVote(body)
    case None => None
    case Some(v) => Some(v.voteType)
  }

  /** Validation of a vote body as evidently intended: the idea comes from the path,
      so only `voteType` is required (any other key, `ideaId` included, is ignored). */
  function ParseVoteBody(body: Body): (r: Option<string>)
    ensures r.Some? <==> HasText(body, "voteType")
    ensures r.Some? ==> r.value == body["voteType"].str
  {
    if HasText(body, "voteType") then Some(body["voteType"].str) else None
  }

  /** An `ideaId` in the body, of any kind, does not change the corrected check. */
  lemma VoteBodyIgnoresIdeaId(body: Body, extra: Json)
    ensures ParseVoteBody(body["ideaId" := extra]) == ParseVoteBody(body)
  {
    assert "voteType" in body["ideaId" := extra] <==> "voteType" in body;
  }

  /** `POST /api/ideas/:id/vote` as written: authentication, then the body check
      (which rejects a body without `ideaId`), then the state machine. */
  function VoteRouteAsWritten(s: Store, header: Option<string>, verify: Auth.Verifier, id: int, body: Body, now: int)
    : (r: (Reply, Store))
    ensures Authenticate(s, header, verify).Ok? && ParseVoteAsWritten(body).None? ==>
      r == (Fail(BadRequest, "Invalid input data"), s)
    ensures Authenticate(s, header, verify).Ok? && ParseVoteAsWritten(body).Some? ==>
      r == ResolveVote(s, id, Authenticate(s, header, verify).value.id, ParseVoteAsWritten(body).value, now)
    ensures Authenticate(s, header, verify).Err? ==> r == (Authenticate(s, header, verify).error, s)
  {
    match Authenticate(s, header, verify)
    case Err(e) => (e, s)
    case Ok(u) =>
      match ParseVoteAsWritten(body)
      case None => (Fail(BadRequest, "Invalid input data"), s)
      case Some(t) => ResolveVote(s, id, u.id, t, now)
  }

  /** `POST /api/ideas/:id/vote` with the corrected body check. */
  function VoteRoute(s: Store, header: Option<string>, verify: Auth.Verifier, id: int, body: Body, now: int)
    : (r: (Reply, Store))
    ensures Authenticate(s, header, verify).Ok? && !HasText(body, "voteType") ==>
      r == (Fail(BadRequest, "Invalid input data"), s)
    ensures Authenticate(s, header, verify).Ok? && HasText(body, "voteType") ==>
      r == ResolveVote(s, id, Authenticate(s, header, verify).value.id, body["voteType"].str, now)
    ensures Authenticate(s, header, verify).Err? ==> r == (Authenticate(s, header, verify).error, s)
  {
    match Authenticate(s, header, verify)
    case Err(e) => (e, s)
    case Ok(u) =>
      match ParseVoteBody(body)
      case None => (Fail(BadRequest, "Invalid input data"), s)
      case Some(t) => ResolveVote(s, id, u.id, t, now)
  }

  // ---------------------------------------------------------------- admin routes

  /** `GET /api/admin/ideas`: every idea, newest first, for admins only. */
  function AdminIdeas(s: Store, header: Option<string>, verify: Auth.Verifier): (r: Reply)
    ensures r.status == OkStatus <==> AuthenticateAdmin(s, header, verify).Ok?
    ensures r.status == OkStatus ==> r.body.IdeaList? && multiset(r.body.ideas) == multiset(s.ideas)
    ensures r.status == OkStatus ==> Sorting.SortedDesc(r.body.ideas, CreatedAt)
    ensures r.status == OkStatus ==> r.body.ideas == GetIdeasForAdmin(s)
  {
    match AuthenticateAdmin(s, header, verify)
    case Err(e) => e
    case Ok(_) => Reply(OkStatus, IdeaList(GetIdeasForAdmin(s)))
  }

  /** `PUT /api/admin/ideas/:id/approve`: any existing idea becomes approved, from
      whatever status; the rejection reason is kept. */
  function Approve(s: Store, header: Option<string>, verify: Auth.Verifier, id: int, now: int): (r: (Reply, Store))
    ensures r.0.status == OkStatus <==> AuthenticateAdmin(s, header, verify).Ok? && GetIdea(s, id).Some?
    ensures r.0.status != OkStatus ==> r.1 == s
    ensures r.0.status == OkStatus ==>
      && r.0.body.IdeaBody? && r.0.body.idea.status == Approved
      && r.0.body.idea == GetIdea(s, id).value.(status := Approved, updatedAt := now)
      && r.1 == UpdateIdea(s, id, EmptyPatch.(status := Some(Approved)), now).1
    ensures Valid(s) ==> Valid(r.1)
  {
    match AuthenticateAdmin(s, header, verify)
    case Err(e) => (e, s)
    case Ok(_) =>
      if GetIdea(s, id).None? then (Fail(NotFound, "Idea not found"), s)
      else
        var (updated, s') := UpdateIdea(s, id, EmptyPatch.(status := Some(Approved)), now);
        (Reply(OkStatus, IdeaBody(updated.value)), s')
  }

  /** The rejection reason as the update receives it: an absent `reason` is
      `undefined`, which the update skips; null clears the column; a string is
      stored; a number or boolean is stored as its text. */
  function ReasonUpdate(body: Body): (r: Option<Option<string>>)
    ensures r.None? <==> "reason" !in body
    ensures r == Some(None) <==> "reason" in body && body["reason"].JNull?
    ensures "reason" in body && body["reason"].JStr? ==> r == Some(Some(body["reason"].str))
  {
    if "reason" !in body then None
    else match body["reason"]
      case JNull => Some(None)
      case JStr(t) => Some(Some(t))
      case JNum(n) => Some(Some(Strings.IntToString(n)))
      case JBool(b) => Some(Some(if b then "true" else "false"))
  }

  /** `PUT /api/admin/ideas/:id/reject`: any existing idea becomes rejected; the
      reason is set as `ReasonUpdate` says. */
  function Reject(s: Store, header: Option<string>, verify: Auth.Verifier, id: int, body: Body, now: int)
    : (r: (Reply, Store))
    ensures r.0.status == OkStatus <==> AuthenticateAdmin(s, header, verify).Ok? && GetIdea(s, id).Some?
    ensures r.0.status != OkStatus ==> r.1 == s
    ensures r.0.status == OkStatus ==>
      && r.0.body.IdeaBody? && r.0.body.idea.status == Rejected
      && r.0.body.idea.rejectionReason ==
           (if "reason" in body then ReasonUpdate(body).value else GetIdea(s, id).value.rejectionReason)
      && r.0.body.idea == GetIdea(s, id).value.(status := Rejected, rejectionReason := r.0.body.idea.rejectionReason,
                                                updatedAt := now)
      && r.1 == UpdateIdea(s, id, EmptyPatch.(status := Some(Rejected), rejectionReason := ReasonUpdate(body)), now).1
    ensures Valid(s) ==> Valid(r.1)
  {
    match AuthenticateAdmin(s, header, verify)
    case Err(e) => (e, s)
    case Ok(_) =>
      if GetIdea(s, id).None? then (Fail(NotFound, "Idea not found"), s)
      else
        var (updated, s') := UpdateIdea(s, id, EmptyPatch.(status := Some(Rejected), rejectionReason := ReasonUpdate(body)), now);
        (Reply(OkStatus, IdeaBody(updated.value)), s')
  }

  /** After a rejection the stored idea is the one the reply shows: rejected, with
      the reason the body sent. */
  lemma RejectStored(s: Store, header: Option<string>, verify: Auth.Verifier, id: int, body: Body, now: int)
    requires AuthenticateAdmin(s, header, verify).Ok? && GetIdea(s, id).Some?
    ensures var (reply, s') := Reject(s, header, verify, id, body, now);
      && GetIdea(s', id) == Some(reply.body.idea)
      && GetIdea(s', id).value.status == Rejected
      && ("reason" in body && body["reason"].JStr? ==> GetIdea(s', id).value.rejectionReason == Some(body["reason"].str))
  {
    UpdateIdeaReadBack(s, id, EmptyPatch.(status := Some(Rejected), rejectionReason := ReasonUpdate(body)), now);
  }

  /** `GET /api/admin/statistics` */
  function StatisticsRoute(s: Store, header: Option<string>, verify: Auth.Verifier): (r: Reply)
    ensures r.status == OkStatus <==> AuthenticateAdmin(s, header, verify).Ok?
    ensures r.status == OkStatus ==>
      && r.body.StatsBody? && r.body.stats == GetStatistics(s)
      && r.body.stats.pendingIdeas == |GetIdeas(s, Some("pending"), None, None).value|
      && r.body.stats.approvedIdeas == |GetIdeas(s, Some("approved"), None, None).value|
      && r.body.stats.totalVotes == |s.votes|
  {
    match AuthenticateAdmin(s, header, verify)
    case Err(e) => e
    case Ok(_) => Reply(OkStatus, StatsBody(GetStatistics(s)))
  }

  /** `GET /api/admin/users`: every user, oldest first, without password hashes. */
  function ListUsers(s: Store, header: Option<string>, verify: Auth.Verifier): (r: Reply)
    ensures r.status == OkStatus <==> AuthenticateAdmin(s, header, verify).Ok?
    ensures r.status == OkStatus ==>
      && r.body.UserList?
      && multiset(r.body.users) == multiset(Lists.Map(s.users, Safe))
      && forall i, j :: 0 <= i < j < |r.body.users| ==> r.body.users[i].createdAt <= r.body.users[j].createdAt
  {
    match AuthenticateAdmin(s, header, verify)
    case Err(e) => e
    case Ok(_) => Reply(OkStatus, UserList(SafeUsers(s)))
  }

  /** The user listing without password hashes: the stored users, each as often as
      it is stored, oldest first. */
  function SafeUsers(s: Store): (r: seq<SafeUser>)
    ensures multiset(r) == multiset(Lists.Map(s.users, Safe))
    ensures forall i, j :: 0 <= i < j < |r| ==> r[i].createdAt <= r[j].createdAt
  {
    var all := GetAllUsers(s);
    Lists.MapPermutation(all, s.users, Safe);
    Lists.Map(all, Safe)
  }

  /** With unique user ids, the admin listing shows every stored user exactly once. */
  lemma ListUsersOnce(s: Store, header: Option<string>, verify: Auth.Verifier, m: int)
    requires UniqueUsers(s.users) && 0 <= m < |s.users|
    requires AuthenticateAdmin(s, header, verify).Ok?
    ensures multiset(ListUsers(s, header, verify).body.users)[Safe(s.users[m])] == 1
  {
    var mapped := Lists.Map(s.users, Safe);
    forall k | 0 <= k < |mapped| && mapped[k] == mapped[m]
      ensures k == m
    {
      assert s.users[k].id == s.users[m].id;
    }
    Lists.OccursOnce(mapped, m);
  }

  /** `PUT /api/admin/users/:id/role`: the role must be `user` or `admin` (checked
      before the self check); an admin cannot change their own role; a missing user
      makes the handler throw (500). Nothing else about the user changes. */
  function ChangeRole(s: Store, header: Option<string>, verify: Auth.Verifier, userId: int, body: Body)
    : (r: (Reply, Store))
    ensures AuthenticateAdmin(s, header, verify).Ok? && !(HasText(body, "role") && body["role"].str in RoleNames) ==>
      r == (Fail(BadRequest, "Invalid role"), s)
    ensures (AuthenticateAdmin(s, header, verify).Ok? && HasText(body, "role") && body["role"].str in RoleNames &&
             userId == AuthenticateAdmin(s, header, verify).value.id) ==>
      r == (Fail(BadRequest, "Cannot change your own role"), s)
    ensures r.0.status == OkStatus <==>
      && AuthenticateAdmin(s, header, verify).Ok? && HasText(body, "role") && body["role"].str in RoleNames
      && userId != AuthenticateAdmin(s, header, verify).value.id && GetUser(s, userId).Some?
    ensures r.0.status != OkStatus ==> r.1 == s
    ensures r.0.status == OkStatus ==>
      && r.0.body == UserBody(Safe(GetUser(s, userId).value.(role := ParseRole(body["role"].str).value)))
      && RoleName(r.0.body.safeUser.role) == body["role"].str
      && r.1 == UpdateUserRole(s, userId, ParseRole(body["role"].str).value).1
  {
    match AuthenticateAdmin(s, header, verify)
    case Err(e) => (e, s)
    case Ok(me) =>
      if !HasText(body, "role") then (Fail(BadRequest, "Invalid role"), s)
      else match ParseRole(body["role"].str)
        case None => (Fail(BadRequest, "Invalid role"), s)
        case Some(role) =>
          if userId == me.id then (Fail(BadRequest, "Cannot change your own role"), s)
          else
            var (updated, s') := UpdateUserRole(s, userId, role);
            match updated
            case None => (Fail(ServerError, "Internal server error"), s)
            case Some(u) => (Reply(OkStatus, UserBody(Safe(u))), s')
  }

  /** After a role change the stored user has the new role, and from then on the
      admin check of that user's requests follows the new role. */
  lemma RoleChangeGovernsAdmin(s: Store, header: Option<string>, verify: Auth.Verifier, userId: int, body: Body,
                               userHeader: Option<string>)
    requires AuthenticateAdmin(s, header, verify).Ok? && userId != AuthenticateAdmin(s, header, verify).value.id
    requires HasText(body, "role") && body["role"].str in RoleNames && GetUser(s, userId).Some?
    requires Authenticate(s, userHeader, verify).Ok? && Authenticate(s, userHeader, verify).value.id == userId
    ensures var s' := ChangeRole(s, header, verify, userId, body).1;
      && GetUser(s', userId) == Some(GetUser(s, userId).value.(role := ParseRole(body["role"].str).value))
      && (AuthenticateAdmin(s', userHeader, verify).Ok? <==> body["role"].str == "admin")
  {
    var role := ParseRole(body["role"].str).value;
    UpdateUserRoleReadBack(s, userId, role);
    assert RoleName(role) == body["role"].str;
  }

  // ---------------------------------------------------------------- evaluator route

  /** An authenticated evaluation's timeline advice opens with the timeline the body sent. */
  lemma TimelineEchoed(s: Store, header: Option<string>, verify: Auth.Verifier, body: Body, timeline: string,
                       reply: AiEvaluator.ModelReply)
    requires Authenticate(s, header, verify).Ok?
    requires "timeline" in body && body["timeline"] == JStr(timeline)
    ensures var r := EvaluateRoute(s, header, verify, body, reply);
      && r.status == OkStatus
      && Strings.StartsWith(r.body.evaluation.timeline, "Based on " + timeline + " timeline: ")
  {
    assert FieldText(body, "timeline") == timeline;
    assert Strings.StartsWith(TimelineAdvice(body), "Based on " + timeline + " timeline: ");
  }

  /** A body field interpolated into a template string: a missing field prints as
      `undefined`. */
  function FieldText(body: Body, key: string): string
  {
    if key !in body then "undefined"
    else match body[key]
      case JNull => "null"
      case JBool(b) => if b then "true" else "false"
      case JNum(n) => Strings.IntToString(n)
      case JStr(t) => t
  }

  /** The field is the string `value`. */
  predicate FieldIs(body: Body, key: string, value: string)
  {
    key in body && body[key] == JStr(value)
  }

  /** The entry window for a timeline; anything but the first three names
      (including `long`, a missing field and a non-string) gets the longest. */
  function EntryWindow(body: Body): (w: string)
    ensures w in ["1-3 months", "3-6 months", "6-12 months", "12+ months"]
    ensures w == "12+ months" <==>
      !FieldIs(body, "timeline", "immediate") && !FieldIs(body, "timeline", "short") && !FieldIs(body, "timeline", "medium")
  {
    if FieldIs(body, "timeline", "immediate") then "1-3 months"
    else if FieldIs(body, "timeline", "short") then "3-6 months"
    else if FieldIs(body, "timeline", "medium") then "6-12 months"
    else "12+ months"
  }

  /** The investment band for a category; every category but the first three
      named gets the lowest band. */
  function InvestmentBand(body: Body): (b: string)
    ensures b in ["$50k-200k", "$100k-500k", "$25k-100k", "$10k-75k"]
    ensures b == "$10k-75k" <==>
      !FieldIs(body, "category", "technology") && !FieldIs(body, "category", "healthcare") && !FieldIs(body, "category", "business")
  {
    if FieldIs(body, "category", "technology") then "$50k-200k"
    else if FieldIs(body, "category", "healthcare") then "$100k-500k"
    else if FieldIs(body, "category", "business") then "$25k-100k"
    else "$10k-75k"
  }

  const DataSources: seq<string> := [
    "Google Trends for market interest analysis",
    "Industry reports from IBISWorld or Statista",
    "Competitor analysis using SimilarWeb",
    "Social media sentiment analysis",
    "Government databases for regulatory information",
    "Patent databases for innovation landscape"]

  const RecommendedCharts: seq<string> := [
    "Market Size Analysis (Bar Chart)",
    "Competitive Landscape (Bubble Chart)",
    "Customer Segmentation (Pie Chart)",
    "Revenue Projections (Line Chart)",
    "SWOT Analysis Matrix",
    "Timeline Gantt Chart"]

  const NextSteps: seq<string> := [
    "Conduct primary market research with target audience",
    "Develop minimum viable product (MVP) prototype",
    "Analyze competitive landscape and positioning",
    "Create detailed financial projections",
    "Develop go-to-market strategy",
    "Secure initial funding or investment"]

  const MarketResearch: seq<string> := [
    "Customer pain points and needs analysis",
    "Pricing strategy and willingness to pay",
    "Distribution channels and partnerships",
    "Market entry barriers and regulations",
    "Competitive advantages and differentiation",
    "Scalability and growth potential"]

  /** `POST /api/ai-evaluator/evaluate`: any signed-in user gets the clamped (or
      fallback) evaluation plus advice keyed on the timeline and category fields.
      The body is not validated. */
  function EvaluateRoute(s: Store, header: Option<string>, verify: Auth.Verifier, body: Body,
                         reply: AiEvaluator.ModelReply): (r: Reply)
    ensures r.status == OkStatus <==> Authenticate(s, header, verify).Ok?
    ensures r.status == OkStatus ==>
      && r.body.EvaluationBody?
      && AiEvaluator.InRange(r.body.evaluation.evaluation)
      && r.body.evaluation.evaluation == AiEvaluator.Evaluate(reply)
      && |r.body.evaluation.dataSources| == |r.body.evaluation.recommendedCharts| == 6
      && |r.body.evaluation.nextSteps| == |r.body.evaluation.marketResearch| == 6
      && Strings.StartsWith(r.body.evaluation.timeline, "Based on " + FieldText(body, "timeline") + " timeline: ")
  {
    match Authenticate(s, header, verify)
    case Err(e) => e
    case Ok(_) => Reply(OkStatus, EvaluationBody(Enhance(body, reply)))
  }

  /** The evaluation with the canned advice around it. */
  function Enhance(body: Body, reply: AiEvaluator.ModelReply): (e: EnhancedEvaluation)
    ensures AiEvaluator.InRange(e.evaluation) && e.evaluation == AiEvaluator.Evaluate(reply)
    ensures |e.dataSources| == |e.recommendedCharts| == |e.nextSteps| == |e.marketResearch| == 6
    ensures Strings.StartsWith(e.timeline, "Based on " + FieldText(body, "timeline") + " timeline: ")
  {
    AdviceListSizes();
    EnhancedEvaluation(
      AiEvaluator.Evaluate(reply), Persona(body),
      DataSources, RecommendedCharts, NextSteps, MarketResearch,
      TimelineAdvice(body), BudgetAdvice(body))
  }

  /** Each canned advice list has six entries. */
  lemma AdviceListSizes()
    ensures |DataSources| == 6 && |RecommendedCharts| == 6 && |NextSteps| == 6 && |MarketResearch| == 6
  {
  }

  /** The consultant persona text, interpolating the four fields as JavaScript prints them. */
  function Persona(body: Body): string
  {
    "As your AI business consultant, I see " + FieldText(body, "title") + " as a " + FieldText(body, "category")
      + " solution with " + FieldText(body, "timeline") + " timeline potential. Based on the target audience of "
      + FieldText(body, "targetAudience")
      + ", this idea shows promise but requires strategic positioning and market validation."
  }

  /** The timeline advice: it names the timeline that was sent, then the entry window. */
  function TimelineAdvice(body: Body): (t: string)
    ensures Strings.StartsWith(t, "Based on " + FieldText(body, "timeline") + " timeline: ")
  {
    var prefix := "Based on " + FieldText(body, "timeline") + " timeline: ";
    var t := prefix + (EntryWindow(body) + " for initial market entry");
    assert t[..|prefix|] == prefix;
    t
  }

  /** The budget advice, naming the investment band of the category. */
  function BudgetAdvice(body: Body): string
  {
    "Estimated initial investment: " + InvestmentBand(body) + " depending on scope and complexity"
  }
}

=== FILE: schema.dfy ===
/** The shared schema: the role, status, category and timeline enumerations, the
    user, idea and vote rows, their column defaults, and the request-body
    validators built from the insert schemas (each picks a fixed set of fields and
    drops every other key of the body). */
module Schema {
  import opened Wrappers

  datatype Role = UserRole | AdminRole
  datatype Status = Pending | Approved | Rejected
  datatype Category = Technology | Business | Healthcare | Education | Environment | Other
  datatype Timeline = Immediate | Short | Medium | Long

  /** The database spellings of each enumeration, in declaration order. */
  const RoleNames: seq<string> := ["user", "admin"]
  const StatusNames: seq<string> := ["pending", "approved", "rejected"]
  const CategoryNames: seq<string> :=
    ["technology", "business", "healthcare", "education", "environment", "other"]
  const TimelineNames: seq<string> := ["immediate", "short", "medium", "long"]

  function RoleName(r: Role): (s: string)
    ensures s in RoleNames
  {
    match r
    case UserRole => "user"
    case AdminRole => "admin"
  }

  function StatusName(st: Status): (s: string)
    ensures s in StatusNames
  {
    match st
    case Pending => "pending"
    case Approved => "approved"
    case Rejected => "rejected"
  }

  function CategoryName(c: Category): (s: string)
    ensures s in CategoryNames
  {
    match c
    case Technology => "technology"
    case Business => "business"
    case Healthcare => "healthcare"
    case Education => "education"
    case Environment => "environment"
    case Other => "other"
  }

  function TimelineName(t: Timeline): (s: string)
    ensures s in TimelineNames
  {
    match t
    case Immediate => "immediate"
    case Short => "short"
    case Medium => "medium"
    case Long => "long"
  }

  /** The enumeration check the database applies to a role string. */
  function ParseRole(s: string): (r: Option<Role>)
    ensures r.Some? <==> s in RoleNames
    ensures r.Some? ==> RoleName(r.value) == s
  {
    if s == "user" then Some(UserRole)
    else if s == "admin" then Some(AdminRole)
    else None
  }

  function ParseStatus(s: string): (r: Option<Status>)
    ensures r.Some? <==> s in StatusNames
    ensures r.Some? ==> StatusName(r.value) == s
  {
    if s == "pending" then Some(Pending)
    else if s == "approved" then Some(Approved)
    else if s == "rejected" then Some(Rejected)
    else None
  }

  function ParseCategory(s: string): (r: Option<Category>)
    ensures r.Some? <==> s in CategoryNames
    ensures r.Some? ==> CategoryName(r.value) == s
  {
    if s == "technology" then Some(Technology)
    else if s == "business" then Some(Business)
    else if s == "healthcare" then Some(Healthcare)
    else if s == "education" then Some(Education)
    else if s == "environment" then Some(Environment)
    else if s == "other" then Some(Other)
    else None
  }

  function ParseTimeline(s: string): (r: Option<Timeline>)
    ensures r.Some? <==> s in TimelineNames
    ensures r.Some? ==> TimelineName(r.value) == s
  {
    if s == "immediate" then Some(Immediate)
    else if s == "short" then Some(Short)
    else if s == "medium" then Some(Medium)
    else if s == "long" then Some(Long)
    else None
  }

  /** Every enumeration value is spelled uniquely and parses back to itself. */
  lemma EnumNamesRoundTrip(r: Role, st: Status, c: Category, t: Timeline)
    ensures ParseRole(RoleName(r)) == Some(r)
    ensures ParseStatus(StatusName(st)) == Some(st)
    ensures ParseCategory(CategoryName(c)) == Some(c)
    ensures ParseTimeline(TimelineName(t)) == Some(t)
    ensures |RoleNames| == 2 && |StatusNames| == 3 && |CategoryNames| == 6 && |TimelineNames| == 4
  {
  }

  /** Column defaults: a new user is a plain user, a new idea is pending. */
  const DefaultRole: Role := UserRole
  const DefaultStatus: Status := Pending

  datatype User = User(
    id: int, username: string, email: string, password: string, fullName: string,
    role: Role, createdAt: int)

  datatype Idea = Idea(
    id: int, title: string, description: string, category: Category,
    targetAudience: Option<string>, timeline: Option<Timeline>,
    additionalResources: Option<string>, status: Status,
    aiScore: Option<int>, aiEvaluation: Option<string>, rejectionReason: Option<string>,
    authorId: int, createdAt: int, updatedAt: int)

  /** A vote row. The vote type is free text: the column is not an enumeration. */
  datatype Vote = Vote(id: int, ideaId: int, userId: int, voteType: string, createdAt: int)

  /** Username, email and id are each unique across the user table. */
  ghost predicate UniqueUsers(users: seq<User>)
  {
    forall i, j :: 0 <= i < |users| && 0 <= j < |users| && i != j ==>
      && users[i].id != users[j].id
      && users[i].username != users[j].username
      && users[i].email != users[j].email
  }

  /** A JSON value of a request body (objects and arrays are not needed here). */
  datatype Json = JNull | JBool(b: bool) | JNum(n: int) | JStr(str: string)

  /** A request body: the top-level keys of a JSON object. */
  type Body = map<string, Json>

  /** The validated signup input. There is no role field. */
  datatype InsertUser = InsertUser(username: string, email: string, password: string, fullName: string)

  /** The validated idea input. There is no status, author or AI field. */
  datatype InsertIdea = InsertIdea(
    title: string, description: string, category: Category,
    targetAudience: Option<string>, timeline: Option<Timeline>, additionalResources: Option<string>)

  /** The validated vote input: both picked fields are required. */
  datatype InsertVote = InsertVote(ideaId: int, voteType: string)

  /** A partial update of an idea row: `None` leaves a column as it is, `Some(v)` sets
      it to `v` (for a nullable column, `v` may itself be `None`, that is null). */
  datatype IdeaPatch = IdeaPatch(
    title: Option<string>, description: Option<string>, category: Option<Category>,
    targetAudience: Option<Option<string>>, timeline: Option<Option<Timeline>>,
    additionalResources: Option<Option<string>>,
    status: Option<Status>, rejectionReason: Option<Option<string>>)

  const EmptyPatch: IdeaPatch := IdeaPatch(None, None, None, None, None, None, None, None)

  /** `key` holds a string. */
  predicate HasText(body: Body, key: string)
  {
    key in body && body[key].JStr?
  }

  /** A nullable text column's field: absent or null means null, a string is kept,
      any other JSON value is invalid. */
  function NullableText(body: Body, key: string): (r: Option<Option<string>>)
    ensures r.Some? <==> (key !in body || body[key].JNull? || body[key].JStr?)
    ensures r == Some(None) <==> (key !in body || body[key].JNull?)
  {
    if key !in body || body[key].JNull? then Some(None)
    else if body[key].JStr? then Some(Some(body[key].str))
    else None
  }

  /** The nullable timeline field: absent or null means null, otherwise it must be
      one of the four timeline names. */
  function NullableTimeline(body: Body, key: string): (r: Option<Option<Timeline>>)
    ensures r.Some? <==> (key !in body || body[key].JNull? || (body[key].JStr? && body[key].str in TimelineNames))
    ensures r == Some(None) <==> (key !in body || body[key].JNull?)
  {
    if key !in body || body[key].JNull? then Some(None)
    else if body[key].JStr? then
      match ParseTimeline(body[key].str)
      case Some(t) => Some(Some(t))
      case None => None
    else None
  }

  /** The category field: a string naming one of the six categories. */
  predicate HasCategory(body: Body, key: string)
  {
    HasText(body, key) && body[key].str in CategoryNames
  }

  /** Validation of a signup body: the four text fields are required and every
      other key, a `role` among them, is dropped. */
  function ParseInsertUser(body: Body): (r: Option<InsertUser>)
    ensures r.Some? <==>
      HasText(body, "username") && HasText(body, "email") && HasText(body, "password") && HasText(body, "fullName")
    ensures r.Some? ==> r.value.email == body["email"].str && r.value.username == body["username"].str
  {
    if HasText(body, "username") && HasText(body, "email") && HasText(body, "password") && HasText(body, "fullName")
    then Some(InsertUser(body["username"].str, body["email"].str, body["password"].str, body["fullName"].str))
    else None
  }

  /** Validation of an idea body: title and description are required strings, the
      category must be one of the six names, the three nullable fields may be
      absent or null; every other key is dropped. */
  function ParseInsertIdea(body: Body): (r: Option<InsertIdea>)
    ensures r.Some? <==>
      && HasText(body, "title") && HasText(body, "description") && HasCategory(body, "category")
      && NullableText(body, "targetAudience").Some?
      && NullableTimeline(body, "timeline").Some?
      && NullableText(body, "additionalResources").Some?
    ensures r.Some? ==>
      && r.value.title == body["title"].str
      && r.value.description == body["description"].str
      && CategoryName(r.value.category) == body["category"].str
  {
    if HasText(body, "title") && HasText(body, "description") && HasText(body, "category") then
      match (ParseCategory(body["category"].str), NullableText(body, "targetAudience"),
             NullableTimeline(body, "timeline"), NullableText(body, "additionalResources"))
      case (Some(c), Some(ta), Some(tl), Some(ar)) =>
        Some(InsertIdea(body["title"].str, body["description"].str, c, ta, tl, ar))
      case _ => None
    else None
  }

  /** An optional text field of a partial body: absent is fine, a string is kept. */
  function OptionalText(body: Body, key: string): (r: Option<Option<string>>)
    ensures r.Some? <==> (key !in body || body[key].JStr?)
    ensures r == Some(None) <==> key !in body
  {
    if key !in body then Some(None)
    else if body[key].JStr? then Some(Some(body[key].str))
    else None
  }

  /** A nullable field of a partial body: absent leaves the column alone. */
  function PatchNullableText(body: Body, key: string): (r: Option<Option<Option<string>>>)
    ensures r.Some? <==> (key !in body || body[key].JNull? || body[key].JStr?)
    ensures r == Some(None) <==> key !in body
  {
    if key !in body then Some(None)
    else match NullableText(body, key)
      case Some(v) => Some(Some(v))
      case None => None
  }

  /** Validation of an edit body (every idea field optional). The result never
      touches the status or the rejection reason. */
  function ParseIdeaPatch(body: Body): (r: Option<IdeaPatch>)
    ensures r.Some? <==>
      && ("title" !in body || body["title"].JStr?)
      && ("description" !in body || body["description"].JStr?)
      && ("category" !in body || HasCategory(body, "category"))
      && ("targetAudience" !in body || body["targetAudience"].JNull? || body["targetAudience"].JStr?)
      && ("timeline" !in body || body["timeline"].JNull? ||
          (body["timeline"].JStr? && body["timeline"].str in TimelineNames))
      && ("additionalResources" !in body || body["additionalResources"].JNull? || body["additionalResources"].JStr?)
    ensures r.Some? ==> r.value.status.None? && r.value.rejectionReason.None?
    ensures r.Some? ==> (r.value.title.Some? <==> "title" in body)
    ensures r.Some? && "title" in body ==> body["title"].JStr? && r.value.title == Some(body["title"].str)
    ensures r.Some? ==> (r.value.description.Some? <==> "description" in body)
    ensures r.Some? && "description" in body ==> r.value.description == Some(body["description"].str)
    ensures r.Some? ==> (r.value.category.Some? <==> "category" in body)
    ensures r.Some? && "category" in body ==> CategoryName(r.value.category.value) == body["category"].str
    ensures r.Some? ==> (r.value.targetAudience.Some? <==> "targetAudience" in body)
    ensures r.Some? && "targetAudience" in body ==>
      r.value.targetAudience.value == (if body["targetAudience"].JStr? then Some(body["targetAudience"].str) else None)
    ensures r.Some? ==> (r.value.timeline.Some? <==> "timeline" in body)
    ensures r.Some? && "timeline" in body ==>
      && (r.value.timeline.value.None? <==> body["timeline"].JNull?)
      && (r.value.timeline.value.Some? ==> TimelineName(r.value.timeline.value.value) == body["timeline"].str)
    ensures r.Some? ==> (r.value.additionalResources.Some? <==> "additionalResources" in body)
    ensures r.Some? && "additionalResources" in body ==>
      r.value.additionalResources.value ==
        (if body["additionalResources"].JStr? then Some(body["additionalResources"].str) else None)
  {
    var category :=
      if "category" !in body then Some(None)
      else if HasCategory(body, "category") then Some(ParseCategory(body["category"].str))
      else None;
    var timeline :=
      if "timeline" !in body then Some(None)
      else match NullableTimeline(body, "timeline")
        case Some(v) => Some(Some(v))
        case None => None;
    match (OptionalText(body, "title"), OptionalText(body, "description"), category,
           PatchNullableText(body, "targetAudience"), timeline,
           PatchNullableText(body, "additionalResources"))
    case (Some(t), Some(d), Some(c), Some(ta), Some(tl), Some(ar)) =>
      Some(IdeaPatch(t, d, c, ta, tl, ar, None, None))
    case _ => None
  }

  /** Validation of a vote body, as written: both `ideaId` (a number) and
      `voteType` (any string) are required. */
  function ParseInsertVote(body: Body): (r: Option<InsertVote>)
    ensures r.Some? <==> ("ideaId" in body && body["ideaId"].JNum? && HasText(body, "voteType"))
    ensures r.Some? ==> r.value.voteType == body["voteType"].str
  {
    if "ideaId" in body && body["ideaId"].JNum? && HasText(body, "voteType")
    then Some(InsertVote(body["ideaId"].n, body["voteType"].str))
    else None
  }

  /** The validated login input. */
  datatype LoginInput = LoginInput(email: string, password: string)

  /** Validation of a login body: the email must be a string the address check
      accepts and the password a non-empty string. The address syntax check is a
      parameter. */
  function ParseLogin(body: Body, isEmail: string -> bool): (r: Option<LoginInput>)
    ensures r.Some? <==>
      HasText(body, "email") && isEmail(body["email"].str) && HasText(body, "password") && |body["password"].str| >= 1
    ensures r.Some? ==> r.value == LoginInput(body["email"].str, body["password"].str)
  {
    if HasText(body, "email") && isEmail(body["email"].str) && HasText(body, "password") && |body["password"].str| >= 1
    then Some(LoginInput(body["email"].str, body["password"].str))
    else None
  }

  /** The signup schema drops a `role` key: the body validates as it would without it. */
  lemma SignupIgnoresRole(body: Body, role: Json)
    ensures ParseInsertUser(body["role" := role]) == ParseInsertUser(body)
  {
  }

  /** The fields the idea schemas pick. */
  const IdeaFields: set<string> :=
    {"title", "description", "category", "targetAudience", "timeline", "additionalResources"}

  /** A body that differs from another only in an unpicked key looks the same to the
      idea schemas, field by field. */
  predicate SamePicked(a: Body, b: Body)
  {
    forall k :: k in IdeaFields ==> (k in a <==> k in b) && (k in a ==> a[k] == b[k])
  }

  lemma InsertIdeaPicked(a: Body, b: Body)
    requires SamePicked(a, b)
    ensures ParseInsertIdea(a) == ParseInsertIdea(b)
  {
    assert "title" in IdeaFields && "description" in IdeaFields && "category" in IdeaFields;
    assert "targetAudience" in IdeaFields && "timeline" in IdeaFields && "additionalResources" in IdeaFields;
  }

  lemma IdeaPatchPicked(a: Body, b: Body)
    requires SamePicked(a, b)
    ensures ParseIdeaPatch(a) == ParseIdeaPatch(b)
  {
    assert "title" in IdeaFields && "description" in IdeaFields && "category" in IdeaFields;
    assert "targetAudience" in IdeaFields && "timeline" in IdeaFields && "additionalResources" in IdeaFields;
  }

  /** The idea schemas drop the keys they do not pick: a body that also carries a
      status, an author or an AI score validates to the same input. */
  lemma IdeaIgnoresUnpicked(body: Body, key: string, extra: Json)
    requires key in {"status", "authorId", "aiScore", "aiEvaluation", "rejectionReason"}
    ensures ParseInsertIdea(body[key := extra]) == ParseInsertIdea(body)
    ensures ParseIdeaPatch(body[key := extra]) == ParseIdeaPatch(body)
  {
    assert key !in IdeaFields;
    InsertIdeaPicked(body[key := extra], body);
    IdeaPatchPicked(body[key := extra], body);
  }
}

=== FILE: sorting.dfy ===
/** Ordering of lists by an integer key, largest key first: the database's
    `ORDER BY ... DESC` and the dashboard's comparator sorts. Insertion sort; equal
    keys keep their input order. */
module Sorting {

  /** Keys never increase along `s`. */
  ghost predicate SortedDesc<T>(s: seq<T>, key: T -> int)
  {
    forall i, j :: 0 <= i < j < |s| ==> key(s[i]) >= key(s[j])
  }

  /** Every element of `s` has a key of at most `bound`. */
  ghost predicate AllAtMost<T>(s: seq<T>, key: T -> int, bound: int)
  {
    forall i :: 0 <= i < |s| ==> key(s[i]) <= bound
  }

  /** Elements of a permutation keep their bound. */
  lemma AtMostPermutation<T>(s: seq<T>, t: seq<T>, key: T -> int, bound: int)
    requires multiset(s) == multiset(t) && AllAtMost(t, key, bound)
    ensures AllAtMost(s, key, bound)
  {
    forall i | 0 <= i < |s|
      ensures key(s[i]) <= bound
    {
      assert s[i] in multiset(s);
      assert s[i] in multiset(t);
      var j :| 0 <= j < |t| && t[j] == s[i];
    }
  }

  /** A permutation has the same length and the same members. */
  lemma PermutationMembers<T>(r: seq<T>, s: seq<T>)
    requires multiset(r) == multiset(s)
    ensures |r| == |s|
    ensures forall x :: x in r <==> x in s
  {
    assert |multiset(r)| == |multiset(s)|;
    forall x
      ensures x in r <==> x in s
    {
      assert x in r <==> x in multiset(r);
      assert x in s <==> x in multiset(s);
    }
  }

  /** Places `x` in front of the first element whose key it reaches. */
  function Insert<T>(x: T, s: seq<T>, key: T -> int): (r: seq<T>)
    requires SortedDesc(s, key)
    ensures multiset(r) == multiset(s) + multiset{x}
    ensures SortedDesc(r, key)
    decreases |s|
  {
    if |s| == 0 then [x]
    else if key(x) >= key(s[0]) then [x] + s
    else
      var rest := Insert(x, s[1..], key);
      InsertBehind(x, s, rest, key);
      [s[0]] + rest
  }

  /** Inserting behind a head whose key `x` does not reach keeps the head in front. */
  lemma InsertBehind<T>(x: T, s: seq<T>, rest: seq<T>, key: T -> int)
    requires SortedDesc(s, key) && |s| > 0 && key(x) < key(s[0])
    requires multiset(rest) == multiset(s[1..]) + multiset{x} && SortedDesc(rest, key)
    ensures multiset([s[0]] + rest) == multiset(s) + multiset{x}
    ensures SortedDesc([s[0]] + rest, key)
  {
    assert s == [s[0]] + s[1..];
    assert AllAtMost(s[1..] + [x], key, key(s[0]));
    assert multiset(rest) == multiset(s[1..] + [x]);
    AtMostPermutation(rest, s[1..] + [x], key, key(s[0]));
  }

  /** The elements of `s` whose key is `k`, in their order in `s`. */
  ghost function KeyRun<T>(s: seq<T>, key: T -> int, k: int): seq<T>
    decreases |s|
  {
    if |s| == 0 then []
    else (if key(s[0]) == k then [s[0]] else []) + KeyRun(s[1..], key, k)
  }

  /** The run of a list with a head in front. */
  lemma KeyRunCons<T>(y: T, t: seq<T>, key: T -> int, k: int)
    ensures KeyRun([y] + t, key, k) == (if key(y) == k then [y] else []) + KeyRun(t, key, k)
  {
    assert ([y] + t)[0] == y && ([y] + t)[1..] == t;
  }

  /** Inserting `x` puts it in front of every element with its key. */
  lemma {:induction false} InsertStable<T>(x: T, s: seq<T>, key: T -> int, k: int)
    requires SortedDesc(s, key)
    ensures KeyRun(Insert(x, s, key), key, k) == (if key(x) == k then [x] else []) + KeyRun(s, key, k)
    decreases |s|
  {
    var own := if key(x) == k then [x] else [];
    if |s| == 0 {
      KeyRunCons(x, s, key, k);
      assert [x] + s == [x];
    } else if key(x) >= key(s[0]) {
      KeyRunCons(x, s, key, k);
    } else {
      var rest := Insert(x, s[1..], key);
      var head := if key(s[0]) == k then [s[0]] else [];
      assert Insert(x, s, key) == [s[0]] + rest;
      InsertStable(x, s[1..], key, k);
      KeyRunCons(s[0], rest, key, k);
      assert KeyRun(s, key, k) == head + KeyRun(s[1..], key, k);
      assert head == [] || own == [];
      assert head + (own + KeyRun(s[1..], key, k)) == own + (head + KeyRun(s[1..], key, k));
    }
  }

  /** The sort is stable: for every key, the elements with that key keep their input order. */
  lemma {:induction false} SortStable<T>(s: seq<T>, key: T -> int, k: int)
    ensures KeyRun(SortDesc(s, key), key, k) == KeyRun(s, key, k)
    decreases |s|
  {
    if |s| > 0 {
      SortStable(s[1..], key, k);
      InsertStable(s[0], SortDesc(s[1..], key), key, k);
    }
  }

  /** The elements of `s`, ordered by non-increasing key. */
  function SortDesc<T>(s: seq<T>, key: T -> int): (r: seq<T>)
    ensures multiset(r) == multiset(s)
    ensures SortedDesc(r, key)
    decreases |s|
  {
    if |s| == 0 then []
    else
      assert s == [s[0]] + s[1..];
      Insert(s[0], SortDesc(s[1..], key), key)
  }
}

=== FILE: storage.dfy ===
/** The store behind the routes, as plain values: three tables kept as sequences of
    rows in insertion order, plus the next serial id of each table. Every storage
    operation is a function from the store (and its arguments) to its answer and
    the new store. The vote table is a sequence of rows, not a map: the schema puts
    no uniqueness constraint on (ideaId, userId), so "one vote per pair" is a
    property the vote handler has to keep, stated here as `OneVotePerPair`. */
module Storage {
  import opened Wrappers
  import opened Schema
  import Lists
  import Sorting

  datatype Store = Store(
    users: seq<User>, ideas: seq<Idea>, votes: seq<Vote>,
    nextUserId: int, nextIdeaId: int, nextVoteId: int)

  /** Row ids are below the next serial value, and the user table satisfies its
      unique constraints. */
  ghost predicate Valid(s: Store)
  {
    && UniqueUsers(s.users)
    && (forall i :: 0 <= i < |s.users| ==> s.users[i].id < s.nextUserId)
    && (forall i :: 0 <= i < |s.ideas| ==> s.ideas[i].id < s.nextIdeaId)
    && (forall i :: 0 <= i < |s.votes| ==> s.votes[i].id < s.nextVoteId)
  }

  // ---------------------------------------------------------------- users

  predicate HasId(u: User, id: int) { u.id == id }

  /** `getUser(id)` */
  function GetUser(s: Store, id: int): Option<User>
  {
    Lists.First(s.users, (u: User) => u.id == id)
  }

  /** `getUserByEmail(email)` */
  function GetUserByEmail(s: Store, email: string): Option<User>
  {
    Lists.First(s.users, (u: User) => u.email == email)
  }

  /** `getUserByUsername(username)` */
  function GetUserByUsername(s: Store, username: string): Option<User>
  {
    Lists.First(s.users, (u: User) => u.username == username)
  }

  /** With unique usernames and emails, a lookup by either finds the one row that has it. */
  lemma LookupsFindTheRow(s: Store, k: int)
    requires UniqueUsers(s.users) && 0 <= k < |s.users|
    ensures GetUser(s, s.users[k].id) == Some(s.users[k])
    ensures GetUserByEmail(s, s.users[k].email) == Some(s.users[k])
    ensures GetUserByUsername(s, s.users[k].username) == Some(s.users[k])
  {
  }

  function UserCreatedAt(u: User): int { u.createdAt }
  function NegatedUserCreatedAt(u: User): int { -u.createdAt }

  /** `getAllUsers()`: every user, oldest first (ascending creation time is
      descending negated creation time). */
  function GetAllUsers(s: Store): (r: seq<User>)
    ensures multiset(r) == multiset(s.users)
    ensures forall i, j :: 0 <= i < j < |r| ==> r[i].createdAt <= r[j].createdAt
  {
    var r := Sorting.SortDesc(s.users, NegatedUserCreatedAt);
    assert forall i, j :: 0 <= i < j < |r| ==> NegatedUserCreatedAt(r[i]) >= NegatedUserCreatedAt(r[j]);
    r
  }

  /** `createUser(input)`: the insert fails (`None`) when the username or the email is
      taken, since both columns are unique; otherwise the new row gets the next id,
      the default role and the given time. */
  function CreateUser(s: Store, input: InsertUser, now: int): (r: Option<(User, Store)>)
    ensures r.None? <==> (exists i :: 0 <= i < |s.users| &&
                            (s.users[i].username == input.username || s.users[i].email == input.email))
    ensures r.Some? ==>
      && r.value.0.role == DefaultRole
      && r.value.0.username == input.username && r.value.0.email == input.email
      && r.value.0.fullName == input.fullName && r.value.0.password == input.password
      && r.value.1.users == s.users + [r.value.0]
      && r.value.1.ideas == s.ideas && r.value.1.votes == s.votes
    ensures r.Some? && Valid(s) ==> Valid(r.value.1)
  {
    var clash := Lists.First(s.users, (u: User) => u.username == input.username || u.email == input.email);
    if clash.Some? then None
    else
      var user := User(s.nextUserId, input.username, input.email, input.password,
                       input.fullName, DefaultRole, now);
      Some((user, s.(users := s.users + [user], nextUserId := s.nextUserId + 1)))
  }

  /** `updateUserRole(id, role)`: sets the role of the row with that id and returns
      it; `None` when there is no such row. */
  function UpdateUserRole(s: Store, id: int, role: Role): (r: (Option<User>, Store))
    ensures r.0 == (match GetUser(s, id) case Some(u) => Some(u.(role := role)) case None => None)
    ensures |r.1.users| == |s.users|
    ensures forall i :: 0 <= i < |s.users| && s.users[i].id != id ==> r.1.users[i] == s.users[i]
    ensures forall i :: 0 <= i < |s.users| && s.users[i].id == id ==> r.1.users[i] == s.users[i].(role := role)
    ensures r.1.ideas == s.ideas && r.1.votes == s.votes
  {
    var users := seq(|s.users|, i requires 0 <= i < |s.users| =>
      if s.users[i].id == id then s.users[i].(role := role) else s.users[i]);
    (match GetUser(s, id) case Some(u) => Some(u.(role := role)) case None => None,
     s.(users := users))
  }

  /** Reading the user back after the role update gives the row the update returned. */
  lemma UpdateUserRoleReadBack(s: Store, id: int, role: Role)
    requires GetUser(s, id).Some?
    ensures GetUser(UpdateUserRole(s, id, role).1, id) == UpdateUserRole(s, id, role).0
  {
    var t := UpdateUserRole(s, id, role).1;
    var k :| 0 <= k < |s.users| && s.users[k] == GetUser(s, id).value && forall j :: 0 <= j < k ==> s.users[j].id != id;
    assert t.users[k].id == id;
    assert forall j :: 0 <= j < k ==> t.users[j].id != id;
    FirstAt(t.users, k, (u: User) => u.id == id);
  }

  /** The first match is the element at the first index that matches. */
  lemma FirstAt<T>(xs: seq<T>, k: int, p: T -> bool)
    requires 0 <= k < |xs| && p(xs[k]) && forall j :: 0 <= j < k ==> !p(xs[j])
    ensures Lists.First(xs, p) == Some(xs[k])
  {
    var r := Lists.First(xs, p);
    assert r.Some?;
    var i :| 0 <= i < |xs| && xs[i] == r.value && forall j :: 0 <= j < i ==> !p(xs[j]);
    assert p(r.value);
    if i < k {
      assert !p(xs[i]);
    }
  }

  // ---------------------------------------------------------------- ideas

  /** `getIdea(id)` */
  function GetIdea(s: Store, id: int): Option<Idea>
  {
    Lists.First(s.ideas, (i: Idea) => i.id == id)
  }

  /** The author columns `getIdeaWithAuthor` selects: no password hash, role or
      creation time. */
  datatype Author = Author(id: int, username: string, fullName: string, email: string)

  /** The row `getIdeaWithAuthor` selects: every column of the idea but `authorId`,
      and the author object, which is null when the left join finds no user. */
  datatype IdeaWithAuthor = IdeaWithAuthor(
    id: int, title: string, description: string, category: Category,
    targetAudience: Option<string>, timeline: Option<Timeline>,
    additionalResources: Option<string>, status: Status,
    aiScore: Option<int>, aiEvaluation: Option<string>, rejectionReason: Option<string>,
    createdAt: int, updatedAt: int, author: Option<Author>)

  /** The selected columns carry the idea's values. */
  predicate ShowsIdea(v: IdeaWithAuthor, i: Idea)
  {
    && v.id == i.id && v.title == i.title && v.description == i.description && v.category == i.category
    && v.targetAudience == i.targetAudience && v.timeline == i.timeline
    && v.additionalResources == i.additionalResources && v.status == i.status
    && v.aiScore == i.aiScore && v.aiEvaluation == i.aiEvaluation && v.rejectionReason == i.rejectionReason
    && v.createdAt == i.createdAt && v.updatedAt == i.updatedAt
  }

  /** `getIdeaWithAuthor(id)`: the idea's columns with its author's public columns,
      left-joined on `authorId`. */
  function GetIdeaWithAuthor(s: Store, id: int): (r: Option<IdeaWithAuthor>)
    ensures r.None? <==> GetIdea(s, id).None?
    ensures r.Some? ==> ShowsIdea(r.value, GetIdea(s, id).value)
    ensures r.Some? ==> (r.value.author.None? <==> GetUser(s, GetIdea(s, id).value.authorId).None?)
    ensures r.Some? && r.value.author.Some? ==>
      var u := GetUser(s, GetIdea(s, id).value.authorId).value;
      r.value.author.value == Author(u.id, u.username, u.fullName, u.email)
  {
    match GetIdea(s, id)
    case None => None
    case Some(i) =>
      var author := match GetUser(s, i.authorId)
        case None => None
        case Some(u) => Some(Author(u.id, u.username, u.fullName, u.email));
      Some(IdeaWithAuthor(i.id, i.title, i.description, i.category, i.targetAudience, i.timeline,
                          i.additionalResources, i.status, i.aiScore, i.aiEvaluation, i.rejectionReason,
                          i.createdAt, i.updatedAt, author))
  }

  /** With unique user ids, the author shown is the stored user whose id the idea
      names, reduced to id, username, full name and email. */
  lemma DetailAuthor(s: Store, id: int, k: int)
    requires UniqueUsers(s.users) && 0 <= k < |s.users|
    requires GetIdea(s, id).Some? && GetIdea(s, id).value.authorId == s.users[k].id
    ensures GetIdeaWithAuthor(s, id).value.author ==
      Some(Author(s.users[k].id, s.users[k].username, s.users[k].fullName, s.users[k].email))
  {
    LookupsFindTheRow(s, k);
  }

  function CreatedAt(i: Idea): int { i.createdAt }

  /** A filter argument of `getIdeas` is applied only when it is truthy: a status or
      category that is present and not empty, an author id that is present and not 0. */
  predicate TruthyText(f: Option<string>) { f.Some? && f.value != "" }
  predicate TruthyId(f: Option<int>) { f.Some? && f.value != 0 }

  /** The conjunction of the applied filters. */
  predicate MatchesFilters(i: Idea, status: Option<string>, category: Option<string>, authorId: Option<int>)
  {
    && (TruthyText(status) ==> StatusName(i.status) == status.value)
    && (TruthyText(category) ==> CategoryName(i.category) == category.value)
    && (TruthyId(authorId) ==> i.authorId == authorId.value)
  }

  /** `getIdeas(status?, category?, authorId?)`: the ideas matching every applied
      filter, newest first. Comparing an enumeration column with a string that is not
      one of its values is a database error, modelled as `None`. */
  function GetIdeas(s: Store, status: Option<string>, category: Option<string>, authorId: Option<int>)
    : (r: Option<seq<Idea>>)
    ensures r.None? <==>
      (TruthyText(status) && status.value !in StatusNames) ||
      (TruthyText(category) && category.value !in CategoryNames)
    ensures r.Some? ==>
      && multiset(r.value) == multiset(Lists.Filter(s.ideas, (i: Idea) => MatchesFilters(i, status, category, authorId)))
      && Sorting.SortedDesc(r.value, CreatedAt)
  {
    if (TruthyText(status) && ParseStatus(status.value).None?) ||
       (TruthyText(category) && ParseCategory(category.value).None?)
    then None
    else
      Some(Sorting.SortDesc(
        Lists.Filter(s.ideas, (i: Idea) => MatchesFilters(i, status, category, authorId)), CreatedAt))
  }

  /** Every idea listed is a stored idea that passes the filters. */
  lemma GetIdeasMatch(s: Store, status: Option<string>, category: Option<string>, authorId: Option<int>)
    requires GetIdeas(s, status, category, authorId).Some?
    ensures var ideas := GetIdeas(s, status, category, authorId).value;
      forall k :: 0 <= k < |ideas| ==> ideas[k] in s.ideas && MatchesFilters(ideas[k], status, category, authorId)
  {
    var ideas := GetIdeas(s, status, category, authorId).value;
    var matches := (i: Idea) => MatchesFilters(i, status, category, authorId);
    var filtered := Lists.Filter(s.ideas, matches);
    forall k | 0 <= k < |ideas|
      ensures ideas[k] in s.ideas && MatchesFilters(ideas[k], status, category, authorId)
    {
      assert ideas[k] in multiset(filtered);
      var j :| 0 <= j < |filtered| && filtered[j] == ideas[k];
      assert matches(filtered[j]);
    }
  }

  /** `createIdea(input)`: the new row gets the next id, the default status, the
      author, and the AI fields only when given; both timestamps are `now`. */
  function CreateIdea(s: Store, input: InsertIdea, authorId: int, aiScore: Option<int>,
                      aiEvaluation: Option<string>, now: int): (r: (Idea, Store))
    ensures r.0.status == DefaultStatus && r.0.rejectionReason.None?
    ensures r.0.authorId == authorId && r.0.aiScore == aiScore && r.0.aiEvaluation == aiEvaluation
    ensures r.0.title == input.title && r.0.description == input.description && r.0.category == input.category
    ensures r.1.ideas == s.ideas + [r.0] && r.1.users == s.users && r.1.votes == s.votes
    ensures Valid(s) ==> Valid(r.1) && GetIdea(s, r.0.id).None?
  {
    var idea := Idea(s.nextIdeaId, input.title, input.description, input.category,
                     input.targetAudience, input.timeline, input.additionalResources,
                     DefaultStatus, aiScore, aiEvaluation, None, authorId, now, now);
    (idea, s.(ideas := s.ideas + [idea], nextIdeaId := s.nextIdeaId + 1))
  }

  /** One row under `updateIdea`: every column the patch names takes the patch's
      value, every other column keeps its value, and `updatedAt` becomes `now`. */
  function ApplyPatch(i: Idea, p: IdeaPatch, now: int): (r: Idea)
    ensures r.title == (if p.title.Some? then p.title.value else i.title)
    ensures r.description == (if p.description.Some? then p.description.value else i.description)
    ensures r.category == (if p.category.Some? then p.category.value else i.category)
    ensures r.targetAudience == (if p.targetAudience.Some? then p.targetAudience.value else i.targetAudience)
    ensures r.timeline == (if p.timeline.Some? then p.timeline.value else i.timeline)
    ensures r.additionalResources == (if p.additionalResources.Some? then p.additionalResources.value else i.additionalResources)
    ensures r.status == (if p.status.Some? then p.status.value else i.status)
    ensures r.rejectionReason == (if p.rejectionReason.Some? then p.rejectionReason.value else i.rejectionReason)
    ensures r.id == i.id && r.authorId == i.authorId && r.createdAt == i.createdAt
    ensures r.aiScore == i.aiScore && r.aiEvaluation == i.aiEvaluation
    ensures r.updatedAt == now
  {
    Idea(i.id, GetOr(p.title, i.title), GetOr(p.description, i.description), GetOr(p.category, i.category),
         GetOr(p.targetAudience, i.targetAudience), GetOr(p.timeline, i.timeline),
         GetOr(p.additionalResources, i.additionalResources), GetOr(p.status, i.status),
         i.aiScore, i.aiEvaluation, GetOr(p.rejectionReason, i.rejectionReason),
         i.authorId, i.createdAt, now)
  }

  /** An empty patch still refreshes `updatedAt` and changes nothing else. */
  lemma EmptyPatchOnlyTouches(i: Idea, now: int)
    ensures ApplyPatch(i, EmptyPatch, now) == i.(updatedAt := now)
  {
  }

  /** `updateIdea(id, patch)`: patches the row with that id and returns it; every
      other row and table is untouched. */
  function UpdateIdea(s: Store, id: int, p: IdeaPatch, now: int): (r: (Option<Idea>, Store))
    ensures r.0 == (match GetIdea(s, id) case Some(i) => Some(ApplyPatch(i, p, now)) case None => None)
    ensures |r.1.ideas| == |s.ideas|
    ensures forall k :: 0 <= k < |s.ideas| && s.ideas[k].id != id ==> r.1.ideas[k] == s.ideas[k]
    ensures forall k :: 0 <= k < |s.ideas| && s.ideas[k].id == id ==> r.1.ideas[k] == ApplyPatch(s.ideas[k], p, now)
    ensures r.1.users == s.users && r.1.votes == s.votes
    ensures Valid(s) ==> Valid(r.1)
  {
    var ideas := seq(|s.ideas|, k requires 0 <= k < |s.ideas| =>
      if s.ideas[k].id == id then ApplyPatch(s.ideas[k], p, now) else s.ideas[k]);
    (match GetIdea(s, id) case Some(i) => Some(ApplyPatch(i, p, now)) case None => None,
     s.(ideas := ideas))
  }

  /** Reading the idea back after the update gives the row the update returned. */
  lemma UpdateIdeaReadBack(s: Store, id: int, p: IdeaPatch, now: int)
    requires GetIdea(s, id).Some?
    ensures GetIdea(UpdateIdea(s, id, p, now).1, id) == UpdateIdea(s, id, p, now).0
  {
    var u := UpdateIdea(s, id, p, now);
    var k :| 0 <= k < |s.ideas| && s.ideas[k] == GetIdea(s, id).value && forall j :: 0 <= j < k ==> s.ideas[j].id != id;
    var patched := ApplyPatch(s.ideas[k], p, now);
    assert u.0 == Some(patched);
    assert u.1.ideas[k] == patched && patched.id == id;
    assert forall j :: 0 <= j < k ==> u.1.ideas[j].id != id;
    FirstAt(u.1.ideas, k, (i: Idea) => i.id == id);
  }

  /** `deleteIdea(id)`: removes the row. The vote table references ideas without a
      cascading delete, so removing an idea that still has votes violates the
      foreign key and fails (`None`). */
  function DeleteIdea(s: Store, id: int): (r: Option<Store>)
    ensures r.None? <==> exists k :: 0 <= k < |s.votes| && s.votes[k].ideaId == id
    ensures r.Some? ==>
      && (forall k :: 0 <= k < |r.value.ideas| ==> r.value.ideas[k].id != id && r.value.ideas[k] in s.ideas)
      && (forall k :: 0 <= k < |s.ideas| && s.ideas[k].id != id ==> s.ideas[k] in r.value.ideas)
      && r.value.users == s.users && r.value.votes == s.votes
    ensures r.Some? ==> r.value.(ideas := s.ideas) == s
    ensures r.Some? ==>
      multiset(r.value.ideas) == multiset(s.ideas) - multiset(Lists.Filter(s.ideas, (i: Idea) => i.id == id))
    ensures r.Some? && Valid(s) ==> Valid(r.value)
  {
    if Lists.First(s.votes, (v: Vote) => v.ideaId == id).Some? then None
    else
      var s' := s.(ideas := Lists.Filter(s.ideas, (i: Idea) => i.id != id));
      RemainingIdeas(s.ideas, id);
      Some(s')
  }

  /** The ideas kept by a delete are all the ideas less those with the id. */
  lemma RemainingIdeas(ideas: seq<Idea>, id: int)
    ensures multiset(Lists.Filter(ideas, (i: Idea) => i.id != id)) ==
      multiset(ideas) - multiset(Lists.Filter(ideas, (i: Idea) => i.id == id))
  {
    Lists.FilterSplit(ideas, (i: Idea) => i.id == id, (i: Idea) => i.id != id);
  }

  // ---------------------------------------------------------------- votes

  /** The row belongs to the (idea, user) pair. */
  predicate SamePair(v: Vote, ideaId: int, userId: int)
  {
    v.ideaId == ideaId && v.userId == userId
  }

  /** At most one row per (idea, user) pair. */
  ghost predicate OneVotePerPair(votes: seq<Vote>)
  {
    forall i, j ::
      (0 <= i < |votes| && 0 <= j < |votes| &&
       votes[i].ideaId == votes[j].ideaId && votes[i].userId == votes[j].userId) ==> i == j
  }

  /** `getVote(ideaId, userId)`: the first row of the pair. */
  function FindVote(votes: seq<Vote>, ideaId: int, userId: int): (r: Option<Vote>)
    ensures r.Some? ==> r.value in votes && SamePair(r.value, ideaId, userId)
    ensures r.None? <==> forall k :: 0 <= k < |votes| ==> !SamePair(votes[k], ideaId, userId)
    decreases |votes|
  {
    if |votes| == 0 then None
    else if SamePair(votes[0], ideaId, userId) then Some(votes[0])
    else
      var r := FindVote(votes[1..], ideaId, userId);
      assert forall k :: 1 <= k < |votes| ==> votes[k] == votes[1..][k - 1];
      r
  }

  /** The pair's vote type as `getVote` sees it: the abstract per-pair state
      (no vote, or a vote of some type). */
  function VoteOf(votes: seq<Vote>, ideaId: int, userId: int): Option<string>
  {
    match FindVote(votes, ideaId, userId)
    case Some(v) => Some(v.voteType)
    case None => None
  }

  /** The row set of `updateVote`: the pair's rows take the new type, every other
      column and every other row is unchanged. */
  function RetypeVotes(votes: seq<Vote>, ideaId: int, userId: int, voteType: string): (r: seq<Vote>)
    ensures |r| == |votes|
    ensures forall k :: 0 <= k < |votes| ==>
      && r[k].id == votes[k].id && r[k].ideaId == votes[k].ideaId
      && r[k].userId == votes[k].userId && r[k].createdAt == votes[k].createdAt
    ensures forall k :: 0 <= k < |votes| && !SamePair(votes[k], ideaId, userId) ==> r[k] == votes[k]
    ensures forall k :: 0 <= k < |votes| && SamePair(votes[k], ideaId, userId) ==> r[k].voteType == voteType
    decreases |votes|
  {
    if |votes| == 0 then []
    else
      var head := if SamePair(votes[0], ideaId, userId) then votes[0].(voteType := voteType) else votes[0];
      var rest := RetypeVotes(votes[1..], ideaId, userId, voteType);
      assert forall k :: 1 <= k < |votes| ==> votes[k] == votes[1..][k - 1];
      [head] + rest
  }

  /** The row set of `deleteVote`: exactly the rows of other pairs, in order. */
  function RemoveVotes(votes: seq<Vote>, ideaId: int, userId: int): (r: seq<Vote>)
    ensures |r| <= |votes|
    ensures forall k :: 0 <= k < |r| ==> r[k] in votes && !SamePair(r[k], ideaId, userId)
    ensures forall k :: 0 <= k < |votes| && !SamePair(votes[k], ideaId, userId) ==> votes[k] in r
    decreases |votes|
  {
    if |votes| == 0 then []
    else
      var rest := RemoveVotes(votes[1..], ideaId, userId);
      assert forall k :: 1 <= k < |votes| ==> votes[k] == votes[1..][k - 1];
      if SamePair(votes[0], ideaId, userId) then rest else [votes[0]] + rest
  }

  /** `getVote` on the store. */
  function GetVote(s: Store, ideaId: int, userId: int): Option<Vote>
  {
    FindVote(s.votes, ideaId, userId)
  }

  /** `createVote`: appends a row with the next id; there is no uniqueness check. */
  function CreateVote(s: Store, ideaId: int, userId: int, voteType: string, now: int): (r: Store)
    ensures r.votes == s.votes + [Vote(s.nextVoteId, ideaId, userId, voteType, now)]
    ensures r.users == s.users && r.ideas == s.ideas
    ensures Valid(s) ==> Valid(r)
  {
    s.(votes := s.votes + [Vote(s.nextVoteId, ideaId, userId, voteType, now)], nextVoteId := s.nextVoteId + 1)
  }

  /** `updateVote`: retypes the pair's rows and returns the first of them. */
  function UpdateVote(s: Store, ideaId: int, userId: int, voteType: string): (r: (Option<Vote>, Store))
    ensures r.0 == (match GetVote(s, ideaId, userId) case Some(v) => Some(v.(voteType := voteType)) case None => None)
    ensures r.1.votes == RetypeVotes(s.votes, ideaId, userId, voteType)
    ensures r.1.users == s.users && r.1.ideas == s.ideas
    ensures Valid(s) ==> Valid(r.1)
  {
    (match GetVote(s, ideaId, userId) case Some(v) => Some(v.(voteType := voteType)) case None => None,
     s.(votes := RetypeVotes(s.votes, ideaId, userId, voteType)))
  }

  /** `deleteVote`: removes the pair's rows. */
  function DeleteVote(s: Store, ideaId: int, userId: int): (r: Store)
    ensures r.votes == RemoveVotes(s.votes, ideaId, userId)
    ensures r.users == s.users && r.ideas == s.ideas
    ensures Valid(s) ==> Valid(r)
  {
    s.(votes := RemoveVotes(s.votes, ideaId, userId))
  }

  /** Number of rows of the idea whose vote type is exactly `voteType`. */
  function CountVotes(votes: seq<Vote>, ideaId: int, voteType: string): nat
    decreases |votes|
  {
    if |votes| == 0 then 0
    else (if votes[0].ideaId == ideaId && votes[0].voteType == voteType then 1 else 0)
         + CountVotes(votes[1..], ideaId, voteType)
  }

  datatype VoteCounts = VoteCounts(upvotes: nat, downvotes: nat)

  /** `getIdeaVoteCounts(ideaId)`: the idea's `upvote` rows and `downvote` rows. */
  function GetIdeaVoteCounts(s: Store, ideaId: int): VoteCounts
  {
    VoteCounts(CountVotes(s.votes, ideaId, "upvote"), CountVotes(s.votes, ideaId, "downvote"))
  }

  /** Counting distributes over concatenation: every row is counted on its own. */
  lemma {:induction false} CountVotesAppend(a: seq<Vote>, b: seq<Vote>, ideaId: int, voteType: string)
    ensures CountVotes(a + b, ideaId, voteType) == CountVotes(a, ideaId, voteType) + CountVotes(b, ideaId, voteType)
    decreases |a|
  {
    if |a| == 0 {
      assert a + b == b;
    } else {
      assert (a + b)[1..] == a[1..] + b;
      CountVotesAppend(a[1..], b, ideaId, voteType);
    }
  }

  /** A row counts towards exactly its own idea and its own type: a row of another
      idea, or of a type other than the one counted, changes no count. */
  lemma CountVotesNewRow(votes: seq<Vote>, v: Vote, ideaId: int, voteType: string)
    ensures CountVotes(votes + [v], ideaId, voteType) ==
      CountVotes(votes, ideaId, voteType) + (if v.ideaId == ideaId && v.voteType == voteType then 1 else 0)
  {
    CountVotesAppend(votes, [v], ideaId, voteType);
  }

  /** A vote type other than `upvote` and `downvote` is counted in neither. */
  lemma OtherTypesUncounted(s: Store, v: Vote)
    requires v.voteType != "upvote" && v.voteType != "downvote"
    ensures GetIdeaVoteCounts(s.(votes := s.votes + [v]), v.ideaId) == GetIdeaVoteCounts(s, v.ideaId)
  {
    CountVotesNewRow(s.votes, v, v.ideaId, "upvote");
    CountVotesNewRow(s.votes, v, v.ideaId, "downvote");
  }

  /** An idea without rows has zero counts. */
  lemma {:induction false} NoRowsZeroCount(votes: seq<Vote>, ideaId: int, voteType: string)
    requires forall k :: 0 <= k < |votes| ==> votes[k].ideaId != ideaId
    ensures CountVotes(votes, ideaId, voteType) == 0
    decreases |votes|
  {
    if |votes| > 0 {
      NoRowsZeroCount(votes[1..], ideaId, voteType);
    }
  }

  /** The counts of an idea without votes default to zero. */
  lemma CountsDefaultZero(s: Store, ideaId: int)
    requires forall k :: 0 <= k < |s.votes| ==> s.votes[k].ideaId != ideaId
    ensures GetIdeaVoteCounts(s, ideaId) == VoteCounts(0, 0)
  {
    NoRowsZeroCount(s.votes, ideaId, "upvote");
    NoRowsZeroCount(s.votes, ideaId, "downvote");
  }

  // ------------------------------------------- vote operations on the abstract state

  /** The tail of a one-vote-per-pair table is one too, and holds no row of the head's pair. */
  lemma OneVoteTail(votes: seq<Vote>)
    requires |votes| > 0 && OneVotePerPair(votes)
    ensures OneVotePerPair(votes[1..])
    ensures FindVote(votes[1..], votes[0].ideaId, votes[0].userId).None?
  {
    var t := votes[1..];
    forall k | 0 <= k < |t|
      ensures !SamePair(t[k], votes[0].ideaId, votes[0].userId)
    {
      assert t[k] == votes[k + 1];
    }
    forall i, j | 0 <= i < |t| && 0 <= j < |t| && t[i].ideaId == t[j].ideaId && t[i].userId == t[j].userId
      ensures i == j
    {
      assert t[i] == votes[i + 1] && t[j] == votes[j + 1];
    }
  }

  /** Appending a row: the pair it belongs to goes from no vote to its type, when it
      had none; every other pair keeps its state. */
  lemma {:induction false} VoteOfAppend(votes: seq<Vote>, v: Vote, ideaId: int, userId: int)
    ensures VoteOf(votes + [v], ideaId, userId) ==
      if VoteOf(votes, ideaId, userId).Some? then VoteOf(votes, ideaId, userId)
      else if SamePair(v, ideaId, userId) then Some(v.voteType) else None
    decreases |votes|
  {
    if |votes| > 0 {
      assert (votes + [v])[1..] == votes[1..] + [v];
      VoteOfAppend(votes[1..], v, ideaId, userId);
    }
  }

  /** Appending a row of a pair that has none keeps one vote per pair. */
  lemma AppendKeepsOneVote(votes: seq<Vote>, v: Vote)
    requires OneVotePerPair(votes)
    requires FindVote(votes, v.ideaId, v.userId).None?
    ensures OneVotePerPair(votes + [v])
  {
    var r := votes + [v];
    forall i, j | 0 <= i < |r| && 0 <= j < |r| && r[i].ideaId == r[j].ideaId && r[i].userId == r[j].userId
      ensures i == j
    {
      if i < |votes| && j == |votes| {
        assert SamePair(votes[i], v.ideaId, v.userId);
      } else if j < |votes| && i == |votes| {
        assert SamePair(votes[j], v.ideaId, v.userId);
      }
    }
  }

  /** Retyping a pair's rows: that pair, if it had a vote, now has the new type;
      every other pair keeps its state. */
  lemma {:induction false} VoteOfRetype(votes: seq<Vote>, ideaId: int, userId: int, t: string, i: int, u: int)
    ensures VoteOf(RetypeVotes(votes, ideaId, userId, t), i, u) ==
      if i == ideaId && u == userId && VoteOf(votes, i, u).Some? then Some(t) else VoteOf(votes, i, u)
    decreases |votes|
  {
    if |votes| > 0 {
      var r := RetypeVotes(votes, ideaId, userId, t);
      assert r[1..] == RetypeVotes(votes[1..], ideaId, userId, t);
      VoteOfRetype(votes[1..], ideaId, userId, t, i, u);
    }
  }

  /** Retyping leaves every row's pair alone, so one vote per pair is kept. */
  lemma RetypeKeepsOneVote(votes: seq<Vote>, ideaId: int, userId: int, t: string)
    requires OneVotePerPair(votes)
    ensures OneVotePerPair(RetypeVotes(votes, ideaId, userId, t))
  {
  }

  /** Removing a pair's rows: that pair has no vote, every other pair keeps its state. */
  lemma {:induction false} VoteOfRemove(votes: seq<Vote>, ideaId: int, userId: int, i: int, u: int)
    ensures VoteOf(RemoveVotes(votes, ideaId, userId), i, u) ==
      if i == ideaId && u == userId then None else VoteOf(votes, i, u)
    decreases |votes|
  {
    if |votes| > 0 {
      VoteOfRemove(votes[1..], ideaId, userId, i, u);
      var rest := RemoveVotes(votes[1..], ideaId, userId);
      if !SamePair(votes[0], ideaId, userId) {
        assert RemoveVotes(votes, ideaId, userId) == [votes[0]] + rest;
        assert ([votes[0]] + rest)[1..] == rest;
      }
    }
  }

  /** Removing rows keeps one vote per pair. */
  lemma {:induction false} RemoveKeepsOneVote(votes: seq<Vote>, ideaId: int, userId: int)
    requires OneVotePerPair(votes)
    ensures OneVotePerPair(RemoveVotes(votes, ideaId, userId))
    decreases |votes|
  {
    if |votes| > 0 {
      OneVoteTail(votes);
      RemoveKeepsOneVote(votes[1..], ideaId, userId);
      var rest := RemoveVotes(votes[1..], ideaId, userId);
      if !SamePair(votes[0], ideaId, userId) {
        assert RemoveVotes(votes, ideaId, userId) == [votes[0]] + rest;
        forall k | 0 <= k < |rest|
          ensures !SamePair(rest[k], votes[0].ideaId, votes[0].userId)
        {
          assert rest[k] in votes[1..];
        }
        ConsOneVote(votes[0], rest);
      }
    }
  }

  /** A row whose pair has no row in `rest` keeps one vote per pair in front of it. */
  lemma ConsOneVote(v: Vote, rest: seq<Vote>)
    requires OneVotePerPair(rest)
    requires forall k :: 0 <= k < |rest| ==> !SamePair(rest[k], v.ideaId, v.userId)
    ensures OneVotePerPair([v] + rest)
  {
    var r := [v] + rest;
    assert forall k :: 1 <= k < |r| ==> r[k] == rest[k - 1];
  }

  /** With one vote per pair, removing the pair's rows lowers the count of its idea
      and type by one exactly when the pair had a vote of that type. */
  lemma {:induction false} CountAfterRemove(votes: seq<Vote>, ideaId: int, userId: int, t: string)
    requires OneVotePerPair(votes)
    ensures CountVotes(RemoveVotes(votes, ideaId, userId), ideaId, t) + (if VoteOf(votes, ideaId, userId) == Some(t) then 1 else 0)
      == CountVotes(votes, ideaId, t)
    decreases |votes|
  {
    if |votes| > 0 {
      OneVoteTail(votes);
      CountAfterRemove(votes[1..], ideaId, userId, t);
      var rest := RemoveVotes(votes[1..], ideaId, userId);
      if SamePair(votes[0], ideaId, userId) {
        assert FindVote(votes[1..], ideaId, userId).None?;
        NoPairSameRemove(votes[1..], ideaId, userId, t);
      } else {
        assert RemoveVotes(votes, ideaId, userId) == [votes[0]] + rest;
        assert ([votes[0]] + rest)[1..] == rest;
      }
    }
  }

  /** Removing a pair that has no rows changes no count. */
  lemma {:induction false} NoPairSameRemove(votes: seq<Vote>, ideaId: int, userId: int, t: string)
    requires FindVote(votes, ideaId, userId).None?
    ensures CountVotes(RemoveVotes(votes, ideaId, userId), ideaId, t) == CountVotes(votes, ideaId, t)
    decreases |votes|
  {
    if |votes| > 0 {
      assert !SamePair(votes[0], ideaId, userId);
      NoPairSameRemove(votes[1..], ideaId, userId, t);
      var rest := RemoveVotes(votes[1..], ideaId, userId);
      assert RemoveVotes(votes, ideaId, userId) == [votes[0]] + rest;
      assert ([votes[0]] + rest)[1..] == rest;
    }
  }

  /** With one vote per pair, retyping the pair's vote moves one count of its idea
      from the old type to the new one. */
  lemma {:induction false} CountAfterRetype(votes: seq<Vote>, ideaId: int, userId: int, t0: string, t: string)
    requires OneVotePerPair(votes)
    ensures CountVotes(RetypeVotes(votes, ideaId, userId, t0), ideaId, t)
      + (if VoteOf(votes, ideaId, userId) == Some(t) then 1 else 0)
      == CountVotes(votes, ideaId, t)
      + (if VoteOf(votes, ideaId, userId).Some? && t0 == t then 1 else 0)
    decreases |votes|
  {
    if |votes| > 0 {
      OneVoteTail(votes);
      CountAfterRetype(votes[1..], ideaId, userId, t0, t);
      var r := RetypeVotes(votes, ideaId, userId, t0);
      assert r[1..] == RetypeVotes(votes[1..], ideaId, userId, t0);
      assert CountVotes(r, ideaId, t) == (if r[0].ideaId == ideaId && r[0].voteType == t then 1 else 0)
        + CountVotes(r[1..], ideaId, t);
      if SamePair(votes[0], ideaId, userId) {
        NoPairSameRetype(votes[1..], ideaId, userId, t0, t);
        assert VoteOf(votes, ideaId, userId) == Some(votes[0].voteType);
      } else {
        assert VoteOf(votes, ideaId, userId) == VoteOf(votes[1..], ideaId, userId);
        assert r[0] == votes[0];
      }
    }
  }

  /** Retyping a pair that has no rows changes no count. */
  lemma {:induction false} NoPairSameRetype(votes: seq<Vote>, ideaId: int, userId: int, t0: string, t: string)
    requires FindVote(votes, ideaId, userId).None?
    ensures CountVotes(RetypeVotes(votes, ideaId, userId, t0), ideaId, t) == CountVotes(votes, ideaId, t)
    decreases |votes|
  {
    if |votes| > 0 {
      assert !SamePair(votes[0], ideaId, userId);
      NoPairSameRetype(votes[1..], ideaId, userId, t0, t);
      var r := RetypeVotes(votes, ideaId, userId, t0);
      assert r[1..] == RetypeVotes(votes[1..], ideaId, userId, t0);
    }
  }

  /** Rows of other ideas are not counted, whatever happens to them. */
  lemma {:induction false} CountOtherIdeaRetype(votes: seq<Vote>, ideaId: int, userId: int, t0: string, other: int, t: string)
    requires other != ideaId
    ensures CountVotes(RetypeVotes(votes, ideaId, userId, t0), other, t) == CountVotes(votes, other, t)
    decreases |votes|
  {
    if |votes| > 0 {
      CountOtherIdeaRetype(votes[1..], ideaId, userId, t0, other, t);
      var r := RetypeVotes(votes, ideaId, userId, t0);
      assert r[1..] == RetypeVotes(votes[1..], ideaId, userId, t0);
    }
  }

  /** Removing rows of another idea changes no count of this one. */
  lemma {:induction false} CountOtherIdeaRemove(votes: seq<Vote>, ideaId: int, userId: int, other: int, t: string)
    requires other != ideaId
    ensures CountVotes(RemoveVotes(votes, ideaId, userId), other, t) == CountVotes(votes, other, t)
    decreases |votes|
  {
    if |votes| > 0 {
      CountOtherIdeaRemove(votes[1..], ideaId, userId, other, t);
      var rest := RemoveVotes(votes[1..], ideaId, userId);
      if !SamePair(votes[0], ideaId, userId) {
        assert RemoveVotes(votes, ideaId, userId) == [votes[0]] + rest;
        assert ([votes[0]] + rest)[1..] == rest;
      }
    }
  }

  // ---------------------------------------------------------------- listings

  /** One entry of the public listing: the idea's columns with its vote counts. */
  datatype IdeaSummary = IdeaSummary(
    id: int, title: string, description: string, category: Category,
    aiScore: Option<int>, createdAt: int, authorId: int, upvotes: nat, downvotes: nat)

  function Summarize(votes: seq<Vote>, i: Idea): IdeaSummary
  {
    IdeaSummary(i.id, i.title, i.description, i.category, i.aiScore, i.createdAt, i.authorId,
                CountVotes(votes, i.id, "upvote"), CountVotes(votes, i.id, "downvote"))
  }

  function SummaryCreatedAt(x: IdeaSummary): int { x.createdAt }

  predicate IsApproved(i: Idea) { i.status == Approved }

  /** Each idea of `ideas` summarized, in order. */
  function SummarizeAll(votes: seq<Vote>, ideas: seq<Idea>): (r: seq<IdeaSummary>)
    ensures |r| == |ideas|
    ensures forall k :: 0 <= k < |r| ==> r[k] == Summarize(votes, ideas[k])
  {
    seq(|ideas|, k requires 0 <= k < |ideas| => Summarize(votes, ideas[k]))
  }

  /** The summaries of the approved ideas are exactly the summaries of the ideas
      whose status is approved. */
  lemma ApprovedSummaries(s: Store, x: IdeaSummary)
    ensures x in SummarizeAll(s.votes, Lists.Filter(s.ideas, IsApproved)) <==>
      exists m :: 0 <= m < |s.ideas| && s.ideas[m].status == Approved && x == Summarize(s.votes, s.ideas[m])
  {
    if x in SummarizeAll(s.votes, Lists.Filter(s.ideas, IsApproved)) {
      SummaryOfApproved(s, x);
    }
    if exists m :: 0 <= m < |s.ideas| && s.ideas[m].status == Approved && x == Summarize(s.votes, s.ideas[m]) {
      var m :| 0 <= m < |s.ideas| && s.ideas[m].status == Approved && x == Summarize(s.votes, s.ideas[m]);
      ApprovedSummarized(s, m);
    }
  }

  lemma SummaryOfApproved(s: Store, x: IdeaSummary)
    requires x in SummarizeAll(s.votes, Lists.Filter(s.ideas, IsApproved))
    ensures exists m :: 0 <= m < |s.ideas| && s.ideas[m].status == Approved && x == Summarize(s.votes, s.ideas[m])
  {
    var approved := Lists.Filter(s.ideas, IsApproved);
    var summaries := SummarizeAll(s.votes, approved);
    var j :| 0 <= j < |summaries| && summaries[j] == x;
    assert approved[j] in s.ideas && IsApproved(approved[j]);
    var m :| 0 <= m < |s.ideas| && s.ideas[m] == approved[j];
    assert s.ideas[m].status == Approved && x == Summarize(s.votes, s.ideas[m]);
  }

  lemma ApprovedSummarized(s: Store, m: int)
    requires 0 <= m < |s.ideas| && s.ideas[m].status == Approved
    ensures Summarize(s.votes, s.ideas[m]) in SummarizeAll(s.votes, Lists.Filter(s.ideas, IsApproved))
  {
    var approved := Lists.Filter(s.ideas, IsApproved);
    assert IsApproved(s.ideas[m]);
    assert s.ideas[m] in approved;
    var k :| 0 <= k < |approved| && approved[k] == s.ideas[m];
    assert SummarizeAll(s.votes, approved)[k] == Summarize(s.votes, s.ideas[m]);
  }

  /** `getApprovedIdeasWithVotes()`: exactly the approved ideas, each with its up and
      down counts, newest first. */
  function GetApprovedIdeasWithVotes(s: Store): (r: seq<IdeaSummary>)
    ensures |r| == Lists.Count(s.ideas, IsApproved)
    ensures forall x :: x in r <==>
      exists m :: 0 <= m < |s.ideas| && s.ideas[m].status == Approved && x == Summarize(s.votes, s.ideas[m])
    ensures Sorting.SortedDesc(r, SummaryCreatedAt)
  {
    var summaries := SummarizeAll(s.votes, Lists.Filter(s.ideas, IsApproved));
    var r := Sorting.SortDesc(summaries, SummaryCreatedAt);
    Sorting.PermutationMembers(r, summaries);
    forall x
      ensures x in r <==>
        exists m :: 0 <= m < |s.ideas| && s.ideas[m].status == Approved && x == Summarize(s.votes, s.ideas[m])
    {
      ApprovedSummaries(s, x);
    }
    r
  }

  /** `getIdeasForAdmin()`: every idea, newest first. */
  function GetIdeasForAdmin(s: Store): (r: seq<Idea>)
    ensures multiset(r) == multiset(s.ideas)
    ensures Sorting.SortedDesc(r, CreatedAt)
  {
    Sorting.SortDesc(s.ideas, CreatedAt)
  }

  datatype Statistics = Statistics(pendingIdeas: nat, approvedIdeas: nat, totalVotes: nat, activeUsers: nat)

  function CountStatus(ideas: seq<Idea>, st: Status): nat
  {
    Lists.Count(ideas, (i: Idea) => i.status == st)
  }

  /** Every idea has exactly one of the three statuses. */
  lemma {:induction false} StatusPartition(ideas: seq<Idea>)
    ensures CountStatus(ideas, Pending) + CountStatus(ideas, Approved) + CountStatus(ideas, Rejected) == |ideas|
    decreases |ideas|
  {
    if |ideas| > 0 {
      StatusPartition(ideas[1..]);
    }
  }

  /** Filtering on a status name keeps exactly the ideas with that status. */
  lemma StatusFilterMatches(i: Idea, st: Status)
    ensures MatchesFilters(i, Some(StatusName(st)), None, None) <==> i.status == st
  {
    assert StatusName(i.status) == StatusName(st) <==> i.status == st;
  }

  /** The ideas of one status, counted, are the ideas `getIdeas` lists under that
      status filter. */
  lemma StatusListingCount(s: Store, st: Status)
    ensures GetIdeas(s, Some(StatusName(st)), None, None).Some?
    ensures |GetIdeas(s, Some(StatusName(st)), None, None).value| == CountStatus(s.ideas, st)
  {
    var name := StatusName(st);
    var listed := GetIdeas(s, Some(name), None, None).value;
    var matches := (i: Idea) => MatchesFilters(i, Some(name), None, None);
    var hasStatus := (i: Idea) => i.status == st;
    assert CountStatus(s.ideas, st) == |Lists.Filter(s.ideas, hasStatus)|;
    forall k | 0 <= k < |s.ideas|
      ensures matches(s.ideas[k]) == hasStatus(s.ideas[k])
    {
      StatusFilterMatches(s.ideas[k], st);
    }
    Lists.FilterAgree(s.ideas, matches, hasStatus);
    assert |listed| == |multiset(listed)| == |multiset(Lists.Filter(s.ideas, matches))|;
  }

  /** `getStatistics()`: the pending and the approved ideas, each as many as the
      status-filtered listing shows (rejected ideas are in neither), all vote rows,
      and the distinct user ids. */
  function GetStatistics(s: Store): (r: Statistics)
    ensures GetIdeas(s, Some("pending"), None, None).Some? && GetIdeas(s, Some("approved"), None, None).Some?
    ensures r.pendingIdeas == |GetIdeas(s, Some("pending"), None, None).value|
    ensures r.approvedIdeas == |GetIdeas(s, Some("approved"), None, None).value|
    ensures r.pendingIdeas + r.approvedIdeas + CountStatus(s.ideas, Rejected) == |s.ideas|
    ensures r.totalVotes == |s.votes|
    ensures r.activeUsers == |set k | 0 <= k < |s.users| :: s.users[k].id|
  {
    StatusPartition(s.ideas);
    StatusListingCount(s, Pending);
    StatusListingCount(s, Approved);
    Statistics(CountStatus(s.ideas, Pending), CountStatus(s.ideas, Approved), |s.votes|,
               |set k | 0 <= k < |s.users| :: s.users[k].id|)
  }
}

=== FILE: strings.dfy ===
/** The JavaScript string operations the system relies on, on `seq<char>`:
    `indexOf`/`includes`, `split`/`join` with a non-empty separator, `startsWith`,
    `trim` (with the full JavaScript whitespace set), ASCII `toLowerCase`, and the
    decimal rendering of integers used in template literals. */
module Strings {
  import opened Wrappers

  /** `d` occurs in `s` starting at index `k`. */
  predicate OccursAt(s: string, k: int, d: string)
  {
    0 <= k && k + |d| <= |s| && s[k..k + |d|] == d
  }

  /** `s.startsWith(p)` */
  predicate StartsWith(s: string, p: string)
  {
    |p| <= |s| && s[..|p|] == p
  }

  /** Occurrences in `s[1..]` are the occurrences in `s` shifted by one. */
  lemma OccursShift(s: string, d: string)
    requires |s| > 0
    ensures forall j :: 0 <= j ==> (OccursAt(s[1..], j, d) <==> OccursAt(s, j + 1, d))
    ensures forall j :: 1 <= j ==> (OccursAt(s, j, d) <==> OccursAt(s[1..], j - 1, d))
  {
    forall j | 0 <= j
      ensures OccursAt(s[1..], j, d) <==> OccursAt(s, j + 1, d)
    {
      if 0 <= j && j + 1 + |d| <= |s| {
        assert s[1..][j..j + |d|] == s[j + 1..j + 1 + |d|];
      }
    }
    forall j | 1 <= j
      ensures OccursAt(s, j, d) <==> OccursAt(s[1..], j - 1, d)
    {
      assert OccursAt(s[1..], j - 1, d) <==> OccursAt(s, (j - 1) + 1, d);
    }
  }

  /** `s.indexOf(d)`: the leftmost index at which `d` occurs in `s`, if any. */
  function Find(s: string, d: string): (r: Option<nat>)
    ensures r.Some? ==> OccursAt(s, r.value, d)
    ensures r.Some? ==> forall j :: 0 <= j < r.value ==> !OccursAt(s, j, d)
    ensures r.None? <==> forall j :: !OccursAt(s, j, d)
    decreases |s|
  {
    if |s| < |d| then None
    else if s[..|d|] == d then Some(0)
    else
      OccursShift(s, d);
      match Find(s[1..], d)
      case None => None
      case Some(k) => Some(k + 1)
  }

  /** `s.includes(d)` */
  predicate Contains(s: string, d: string)
  {
    Find(s, d).Some?
  }

  /** Every string includes the empty string. */
  lemma ContainsEmpty(s: string)
    ensures Contains(s, "")
  {
    assert OccursAt(s, 0, "");
  }

  /** A prefix that ends before the first occurrence of `d` does not contain `d`. */
  lemma NoOccurrenceBefore(s: string, k: nat, d: string)
    requires |d| > 0 && k <= |s|
    requires forall j :: 0 <= j < k ==> !OccursAt(s, j, d)
    ensures !Contains(s[..k], d)
  {
    forall j
      ensures !OccursAt(s[..k], j, d)
    {
      if 0 <= j && j + |d| <= k {
        assert s[..k][j..j + |d|] == s[j..j + |d|];
        assert OccursAt(s[..k], j, d) ==> OccursAt(s, j, d);
        assert !OccursAt(s, j, d);
      }
    }
  }

  /** `s.split(d)` for a non-empty separator: the pieces between successive
      leftmost non-overlapping occurrences of `d`. */
  function Split(s: string, d: string): (parts: seq<string>)
    requires |d| > 0
    ensures |parts| >= 1
    ensures forall i :: 0 <= i < |parts| ==> !Contains(parts[i], d)
    decreases |s|
  {
    match Find(s, d)
    case None => [s]
    case Some(k) =>
      NoOccurrenceBefore(s, k, d);
      [s[..k]] + Split(s[k + |d|..], d)
  }

  /** Number of leftmost non-overlapping occurrences of `d` in `s`. */
  function Occurrences(s: string, d: string): nat
    requires |d| > 0
    decreases |s|
  {
    match Find(s, d)
    case None => 0
    case Some(k) => 1 + Occurrences(s[k + |d|..], d)
  }

  /** `split` yields one piece more than there are separators. */
  lemma {:induction false} SplitCount(s: string, d: string)
    requires |d| > 0
    ensures |Split(s, d)| == Occurrences(s, d) + 1
    decreases |s|
  {
    match Find(s, d)
    case None =>
    case Some(k) =>
      SplitCount(s[k + |d|..], d);
  }

  /** `parts.join(d)` */
  function Join(parts: seq<string>, d: string): string
  {
    if |parts| == 0 then ""
    else if |parts| == 1 then parts[0]
    else parts[0] + d + Join(parts[1..], d)
  }

  /** Joining the pieces of a split with the same separator restores the string. */
  lemma {:induction false} JoinSplit(s: string, d: string)
    requires |d| > 0
    ensures Join(Split(s, d), d) == s
    decreases |s|
  {
    var f := Find(s, d);
    if f.Some? {
      var k := f.value;
      var rest := s[k + |d|..];
      JoinSplit(rest, d);
      var tail := Split(rest, d);
      assert Split(s, d) == [s[..k]] + tail;
      JoinCons(s[..k], tail, d);
      Rejoin(s, k, d);
    }
  }

  /** Cutting `s` around an occurrence of `d` and gluing it back gives `s`. */
  lemma Rejoin(s: string, k: nat, d: string)
    requires OccursAt(s, k, d)
    ensures s[..k] + d + s[k + |d|..] == s
  {
    assert s == s[..k] + s[k..k + |d|] + s[k + |d|..];
  }

  /** Joining a part in front of a non-empty list puts one separator after it. */
  lemma JoinCons(x: string, tail: seq<string>, d: string)
    requires |tail| >= 1
    ensures Join([x] + tail, d) == x + d + Join(tail, d)
  {
    assert ([x] + tail)[1..] == tail;
  }

  /** No occurrence of `d` starts inside `x`, not even one that runs on into a
      copy of `d` placed right after `x`. */
  predicate SepFree(x: string, d: string)
  {
    forall k :: 0 <= k < |x| ==> !OccursAt(x + d, k, d)
  }

  /** Splitting a join gives back the parts, provided no separator is formed inside
      a part or across a part and the separator that follows it. */
  lemma {:induction false} SplitJoin(parts: seq<string>, d: string)
    requires |d| > 0 && |parts| >= 1
    requires forall i :: 0 <= i < |parts| ==> SepFree(parts[i], d)
    ensures Split(Join(parts, d), d) == parts
    decreases |parts|
  {
    var p := parts[0];
    assert SepFree(p, d);
    if |parts| == 1 {
      forall j
        ensures !OccursAt(p, j, d)
      {
        if 0 <= j && j + |d| <= |p| {
          assert (p + d)[j..j + |d|] == p[j..j + |d|];
          assert OccursAt(p, j, d) ==> OccursAt(p + d, j, d);
          assert !OccursAt(p + d, j, d);
        }
      }
    } else {
      var rest := Join(parts[1..], d);
      var s := p + d + rest;
      assert Join(parts, d) == s;
      assert s[|p|..|p| + |d|] == d;
      assert OccursAt(s, |p|, d);
      forall j | 0 <= j < |p|
        ensures !OccursAt(s, j, d)
      {
        assert s[j..j + |d|] == (p + d)[j..j + |d|];
        assert OccursAt(s, j, d) ==> OccursAt(p + d, j, d);
        assert !OccursAt(p + d, j, d);
      }
      assert Find(s, d) == Some(|p|);
      assert s[..|p|] == p;
      assert s[|p| + |d|..] == rest;
      SplitJoin(parts[1..], d);
      assert parts == [p] + parts[1..];
    }
  }

  /** Splitting a separator-free first piece, a separator and a rest gives the piece
      followed by the split of the rest. */
  lemma SplitFront(x: string, y: string, d: string)
    requires |d| > 0 && SepFree(x, d)
    ensures Split(x + d + y, d) == [x] + Split(y, d)
  {
    var s := x + d + y;
    assert s[|x|..|x| + |d|] == d;
    assert OccursAt(s, |x|, d);
    forall j | 0 <= j < |x|
      ensures !OccursAt(s, j, d)
    {
      assert s[j..j + |d|] == (x + d)[j..j + |d|];
      assert OccursAt(s, j, d) ==> OccursAt(x + d, j, d);
    }
    assert Find(s, d) == Some(|x|);
    assert s[..|x|] == x;
    assert s[|x| + |d|..] == y;
  }

  /** A string without the separator's first character is separator-free. */
  lemma SepFreeWithoutFirst(x: string, d: string)
    requires |d| > 0 && forall i :: 0 <= i < |x| ==> x[i] != d[0]
    ensures SepFree(x, d)
  {
    forall k | 0 <= k < |x|
      ensures !OccursAt(x + d, k, d)
    {
      if k + |d| <= |x + d| {
        assert (x + d)[k..k + |d|][0] == x[k];
      }
    }
  }

  /** A join of separator-free parts holds exactly one separator between each two parts. */
  lemma JoinOccurrences(parts: seq<string>, d: string)
    requires |d| > 0 && |parts| >= 1
    requires forall i :: 0 <= i < |parts| ==> SepFree(parts[i], d)
    ensures Occurrences(Join(parts, d), d) == |parts| - 1
  {
    SplitJoin(parts, d);
    SplitCount(Join(parts, d), d);
  }

  /** The characters JavaScript's `trim` and the regular-expression class `\s` treat
      as white space (WhiteSpace and LineTerminator of ECMA-262). */
  predicate IsWhitespace(c: char)
  {
    || c == ' ' || c == '\t' || c == '\n' || c == '\r'
    || c == '\U{000B}' || c == '\U{000C}' || c == '\U{00A0}' || c == '\U{1680}'
    || ('\U{2000}' <= c <= '\U{200A}')
    || c == '\U{2028}' || c == '\U{2029}' || c == '\U{202F}' || c == '\U{205F}'
    || c == '\U{3000}' || c == '\U{FEFF}'
  }

  /** `s.trimStart()`: drops the leading white space and nothing else. */
  function TrimStart(s: string): (r: string)
    ensures |r| <= |s| && r == s[|s| - |r|..]
    ensures |r| > 0 ==> !IsWhitespace(r[0])
    ensures forall i :: 0 <= i < |s| - |r| ==> IsWhitespace(s[i])
    decreases |s|
  {
    if |s| > 0 && IsWhitespace(s[0]) then TrimStart(s[1..]) else s
  }

  /** `s.trimEnd()`: drops the trailing white space and nothing else. */
  function TrimEnd(s: string): (r: string)
    ensures |r| <= |s| && r == s[..|r|]
    ensures |r| > 0 ==> !IsWhitespace(r[|r| - 1])
    ensures forall i :: |r| <= i < |s| ==> IsWhitespace(s[i])
    decreases |s|
  {
    if |s| > 0 && IsWhitespace(s[|s| - 1]) then TrimEnd(s[..|s| - 1]) else s
  }

  /** `s.trim()` */
  function Trim(s: string): string
  {
    TrimEnd(TrimStart(s))
  }

  /** Every character of `s` is white space. */
  predicate IsBlank(s: string)
  {
    forall i :: 0 <= i < |s| ==> IsWhitespace(s[i])
  }

  /** `trim()` leaves the empty string exactly when the string is blank. */
  lemma TrimEmptyIffBlank(s: string)
    ensures Trim(s) == "" <==> IsBlank(s)
  {
    var t := TrimStart(s);
    if |t| > 0 {
      assert t[0] == s[|s| - |t|];
      assert TrimEnd(t)[..1] == t[..1];
    }
  }

  /** A string without white space at either end is unchanged by `trim()`. */
  lemma TrimUnchanged(s: string)
    requires |s| > 0 && !IsWhitespace(s[0]) && !IsWhitespace(s[|s| - 1])
    ensures Trim(s) == s
  {
  }

  /** ASCII lower-casing of one character. */
  function LowerChar(c: char): char
  {
    if 'A' <= c <= 'Z' then (c as int + 32) as char else c
  }

  /** `s.toLowerCase()`, restricted to the ASCII letters. */
  function ToLower(s: string): (r: string)
    ensures |r| == |s|
  {
    seq(|s|, i requires 0 <= i < |s| => LowerChar(s[i]))
  }

  /** Lower-casing works character by character, so it distributes over concatenation. */
  lemma ToLowerConcat(a: string, b: string)
    ensures ToLower(a + b) == ToLower(a) + ToLower(b)
  {
  }

  /** `s.endsWith(p)` */
  predicate EndsWith(s: string, p: string)
  {
    |p| <= |s| && s[|s| - |p|..] == p
  }

  /** A suffix no longer than the last piece is decided by that piece alone. */
  lemma EndsWithConcat(a: string, b: string, p: string)
    requires |p| <= |b|
    ensures EndsWith(a + b, p) <==> EndsWith(b, p)
  {
    assert (a + b)[|a + b| - |p|..] == b[|b| - |p|..];
  }

  /** Lower-casing twice is lower-casing once. */
  lemma ToLowerIdempotent(s: string)
    ensures ToLower(ToLower(s)) == ToLower(s)
  {
  }

  /** ASCII upper-casing of one character. */
  function UpperChar(c: char): char
  {
    if 'a' <= c <= 'z' then (c as int - 32) as char else c
  }

  /** `s.charAt(0).toUpperCase() + s.slice(1)`: the first character upper-cased,
      the rest as it was. */
  function Capitalize(s: string): (r: string)
    ensures |r| == |s|
    ensures |s| > 0 ==> r[0] == UpperChar(s[0]) && r[1..] == s[1..]
  {
    if |s| == 0 then "" else [UpperChar(s[0])] + s[1..]
  }

  /** Lower-casing a capitalized word without capitals gives the word back. */
  lemma CapitalizeLowerRoundTrip(s: string)
    requires forall i :: 0 <= i < |s| ==> !('A' <= s[i] <= 'Z')
    ensures ToLower(Capitalize(s)) == s
  {
    var r := ToLower(Capitalize(s));
    forall i | 0 <= i < |s|
      ensures r[i] == s[i]
    {
      if i > 0 {
        assert Capitalize(s)[i] == s[1..][i - 1];
      }
    }
  }

  /** The character of a decimal digit. */
  function DigitChar(n: nat): char
    requires n < 10
  {
    ('0' as int + n) as char
  }

  /** The value of a decimal digit character. */
  function DigitValue(c: char): nat
    requires '0' <= c <= '9'
  {
    c as int - '0' as int
  }

  /** Decimal rendering of a natural number, as `${n}` prints it. */
  function NatToString(n: nat): (r: string)
    ensures |r| >= 1
    ensures forall i :: 0 <= i < |r| ==> '0' <= r[i] <= '9'
    ensures n > 0 ==> r[0] != '0'
    decreases n
  {
    if n < 10 then [DigitChar(n)] else NatToString(n / 10) + [DigitChar(n % 10)]
  }

  /** The value of a string of decimal digits. */
  function ParseDecimal(s: string): nat
    requires forall i :: 0 <= i < |s| ==> '0' <= s[i] <= '9'
    decreases |s|
  {
    if |s| == 0 then 0 else 10 * ParseDecimal(s[..|s| - 1]) + DigitValue(s[|s| - 1])
  }

  /** Reading back the decimal rendering of a number gives the number. */
  lemma {:induction false} ParseNatToString(n: nat)
    ensures ParseDecimal(NatToString(n)) == n
    decreases n
  {
    if n >= 10 {
      ParseNatToString(n / 10);
      var r := NatToString(n);
      assert r[..|r| - 1] == NatToString(n / 10);
    }
  }

  /** Decimal rendering of an integer, with a leading minus sign when negative. */
  function IntToString(i: int): string
  {
    if i < 0 then "-" + NatToString(-i) else NatToString(i)
  }
}

=== FILE: submit_idea.dfy ===
/** The idea submission form: five fixed questions whose answers are folded into
    one Markdown description, and the request the form sends. */
module SubmitIdea {
  import opened Wrappers
  import opened Schema
  import Strings

  /** The five questions, in order (long ones written in pieces). */
  const Questions: seq<string> := [
    "What is your idea?",
    "Why is this idea important now, " + "and how will it work?",
    "Which strengths and capabilities " + "make your team best-placed " + "to execute this idea?",
    "What will the impact be?",
    "Is the idea practical and " + "ready to move forward?"
  ]

  /** The question headings: the one-based number, a dot and a space, the question. */
  const Labels: seq<string> :=
    ["1. " + Questions[0], "2. " + Questions[1], "3. " + Questions[2], "4. " + Questions[3], "5. " + Questions[4]]

  const QuestionCount: nat := 5

  /** The separator between two sections of a description. */
  const SectionSeparator: string := "\n\n---\n\n"

  /** The separator between a heading and its answer. */
  const LineBreak: string := "\n\n"

  /** The answers before anything is typed. */
  const InitialAnswers: seq<string> := ["", "", "", "", ""]

  /** `handleAnswerChange(index, value)`: the answer at `index` is replaced and the
      others are kept. */
  function HandleAnswerChange(answers: seq<string>, index: nat, value: string): (r: seq<string>)
    requires index < |answers|
    ensures |r| == |answers| && r[index] == value
    ensures forall k :: 0 <= k < |r| && k != index ==> r[k] == answers[k]
  {
    answers[index := value]
  }

  /** One section: the heading as a level-three title, a blank line, the answer. */
  function Section(heading: string, answer: string): string
  {
    "### " + heading + LineBreak + answer
  }

  /** The sections of a set of answers, one per question. */
  function Sections(answers: seq<string>): (r: seq<string>)
    requires |answers| == QuestionCount
    ensures |r| == QuestionCount
    ensures forall i :: 0 <= i < QuestionCount ==> r[i] == Section(Labels[i], answers[i])
  {
    seq(QuestionCount, i requires 0 <= i < QuestionCount => Section(Labels[i], answers[i]))
  }

  /** The description: the sections joined by horizontal rules. */
  function BuildDescription(answers: seq<string>): string
    requires |answers| == QuestionCount
  {
    Strings.Join(Sections(answers), SectionSeparator)
  }

  /** A description holds one rule between each two sections, so four, provided no
      section forms a rule of its own. */
  lemma FourRules(answers: seq<string>)
    requires |answers| == QuestionCount
    requires forall i :: 0 <= i < QuestionCount ==> Strings.SepFree(Section(Labels[i], answers[i]), SectionSeparator)
    ensures Strings.Occurrences(BuildDescription(answers), SectionSeparator) == QuestionCount - 1
  {
    Strings.JoinOccurrences(Sections(answers), SectionSeparator);
  }

  /** A single-line answer cannot form a rule, unless it is exactly `---`: that
      answer and the blank line before it read as a rule once the next separator
      follows. */
  lemma SingleLineSectionSepFree(heading: string, answer: string)
    requires forall j :: 0 <= j < |heading| ==> heading[j] != '\n'
    requires forall j :: 0 <= j < |answer| ==> answer[j] != '\n'
    requires answer != "---"
    ensures Strings.SepFree(Section(heading, answer), SectionSeparator)
  {
    var h := "### " + heading;
    var x := Section(heading, answer);
    var t := x + SectionSeparator;
    assert x == h + LineBreak + answer;
    assert forall p :: 0 <= p < |h| ==> t[p] == h[p] && h[p] != '\n';
    assert t[|h|] == '\n' && t[|h| + 1] == '\n';
    assert forall p :: |h| + 2 <= p < |x| ==> t[p] == answer[p - |h| - 2];
    assert forall p :: |x| <= p < |t| ==> t[p] == SectionSeparator[p - |x|];
    forall k | 0 <= k < |x|
      ensures !Strings.OccursAt(t, k, SectionSeparator)
    {
      var w := t[k..k + 7];
      assert forall i :: 0 <= i < 7 ==> w[i] == t[k + i];
      var sep := SectionSeparator;
      if k < |h| {
        assert w[0] != sep[0];
      } else if k >= |h| + 2 {
        assert w[0] == answer[k - |h| - 2];
        assert w[0] != sep[0];
      } else if k == |h| + 1 {
        if |answer| > 0 {
          assert w[1] != sep[1];
        } else {
          assert w[2] != sep[2];
        }
      } else if |answer| > 3 {
        assert w[5] == answer[3];
        assert w[5] != sep[5];
      } else if |answer| == 3 {
        assert w[2..5] == answer;
      } else if |answer| == 2 {
        assert w[6] != sep[6];
      } else if |answer| == 1 {
        assert w[5] != sep[5];
      } else {
        assert w[2] != sep[2];
      }
    }
  }

  /** The one single-line answer that breaks a description: `---`. */
  lemma RuleAnswerNotSepFree(heading: string)
    ensures !Strings.SepFree(Section(heading, "---"), SectionSeparator)
  {
    var h := "### " + heading;
    var t := Section(heading, "---") + SectionSeparator;
    assert t == h + SectionSeparator + SectionSeparator[2..];
    assert t[|h|..|h| + 7] == SectionSeparator;
    assert Strings.OccursAt(t, |h|, SectionSeparator);
  }

  /** What the submit handler does. */
  datatype Submission =
    | Blocked              // the browser refuses the form: an empty required field
    | CategoryRequired     // the handler's own check: no category picked
    | Send(body: Body)     // `POST /api/ideas` with this body

  /** The browser's check of the `required` inputs: the title and every answer. */
  predicate FormComplete(title: string, answers: seq<string>)
  {
    title != "" && forall k :: 0 <= k < |answers| ==> answers[k] != ""
  }

  /** `handleSubmit`: the form cannot be sent with an empty title or answer; with no
      category it warns; otherwise it sends the title, the category and the built
      description, and nothing else. */
  function HandleSubmit(title: string, category: string, answers: seq<string>): (r: Submission)
    requires |answers| == QuestionCount
    ensures r == Blocked <==> !FormComplete(title, answers)
    ensures r == CategoryRequired <==> FormComplete(title, answers) && category == ""
    ensures r.Send? ==>
      && r.body.Keys == {"title", "category", "description"}
      && r.body["title"] == JStr(title)
      && r.body["category"] == JStr(category)
      && r.body["description"] == JStr(BuildDescription(answers))
  {
    if !FormComplete(title, answers) then Blocked
    else if category == "" then CategoryRequired
    else Send(map["title" := JStr(title), "category" := JStr(category), "description" := JStr(BuildDescription(answers))])
  }

  /** The categories the form offers are exactly the six the server accepts. */
  const CategoryOptions: seq<string> := ["technology", "business", "healthcare", "education", "environment", "other"]

  lemma CategoryOptionsMatchSchema()
    ensures CategoryOptions == CategoryNames
  {
  }

  /** Any category the form offers makes a request the server's idea check accepts. */
  lemma SubmissionAccepted(title: string, category: string, answers: seq<string>)
    requires |answers| == QuestionCount && category in CategoryOptions
    requires FormComplete(title, answers)
    ensures HandleSubmit(title, category, answers).Send?
    ensures ParseInsertIdea(HandleSubmit(title, category, answers).body).Some?
    ensures ParseInsertIdea(HandleSubmit(title, category, answers).body).value.description == BuildDescription(answers)
  {
    var body := HandleSubmit(title, category, answers).body;
    assert "targetAudience" !in body && "timeline" !in body && "additionalResources" !in body;
  }
}

=== FILE: use_auth.dfy ===
/** The client's session store: the token kept under `auth_token` in local storage,
    and the persisted pair of the signed-in user and the `isAuthenticated` flag.
    The API calls are outside the model: each enters as its outcome, either the
    server's answer or a failure (a thrown error). */
module UseAuth {
  import opened Wrappers

  /** The user as the client sees it: the role is a plain string. */
  datatype ClientUser = ClientUser(id: int, username: string, email: string, fullName: string, role: string)

  /** The answer of the login and signup endpoints. */
  datatype AuthResponse = AuthResponse(token: string, user: ClientUser)

  /** The outcome of an API call: the parsed answer, or a thrown error. */
  datatype Outcome<+T> = Answered(value: T) | Failed

  /** The stored token and the store's state. */
  datatype Session = Session(storedToken: Option<string>, user: Option<ClientUser>, isAuthenticated: bool)

  /** What the persistence layer writes out: the user and the flag, never the token
      (which lives under its own key). */
  datatype Persisted = Persisted(user: Option<ClientUser>, isAuthenticated: bool)

  /** The state before anything was persisted: no user, not authenticated, and
      whatever token local storage already holds. */
  function Initial(storedToken: Option<string>): (s: Session)
    ensures Consistent(s) && s.storedToken == storedToken
  {
    Session(storedToken, None, false)
  }

  /** The flag is set exactly when a user is held. */
  predicate Consistent(s: Session)
  {
    s.isAuthenticated <==> s.user.Some?
  }

  /** `if (token)`: a stored token counts only when it is a non-empty string. */
  predicate HasToken(s: Session)
  {
    s.storedToken.Some? && s.storedToken.value != ""
  }

  /** The common tail of `login` and `signup`: on an answer the token is stored and
      the user signed in; a failure is rethrown (the boolean) and changes nothing. */
  function SignIn(s: Session, outcome: Outcome<AuthResponse>): (r: (Session, bool))
    ensures r.1 <==> outcome.Failed?
    ensures outcome.Failed? ==> r.0 == s
    ensures outcome.Answered? ==>
      && r.0.storedToken == Some(outcome.value.token)
      && r.0.user == Some(outcome.value.user)
      && r.0.isAuthenticated
    ensures Consistent(r.0) || r.0 == s
  {
    match outcome
    case Failed => (s, true)
    case Answered(resp) => (Session(Some(resp.token), Some(resp.user), true), false)
  }

  /** `login(email, password)` */
  function Login(s: Session, outcome: Outcome<AuthResponse>): (r: (Session, bool))
    ensures r.1 <==> outcome.Failed?
    ensures outcome.Failed? ==> r.0 == s
    ensures outcome.Answered? ==> r.0.user == Some(outcome.value.user) && r.0.isAuthenticated
    ensures Consistent(s) ==> Consistent(r.0)
  {
    SignIn(s, outcome)
  }

  /** `signup(userData)` */
  function Signup(s: Session, outcome: Outcome<AuthResponse>): (r: (Session, bool))
    ensures r.1 <==> outcome.Failed?
    ensures outcome.Failed? ==> r.0 == s
    ensures outcome.Answered? ==> r.0.user == Some(outcome.value.user) && r.0.isAuthenticated
    ensures Consistent(s) ==> Consistent(r.0)
  {
    SignIn(s, outcome)
  }

  /** `logout()`: the token is removed and the user signed out, from any state. */
  function Logout(s: Session): (r: Session)
    ensures r.storedToken.None? && r.user.None? && !r.isAuthenticated
    ensures Consistent(r) && !HasToken(r)
  {
    Session(None, None, false)
  }

  /** `initialize()`: without a usable stored token nothing happens; otherwise the
      `/api/auth/me` answer signs the user in, and a failure drops the token and
      signs out. */
  function Initialize(s: Session, me: Outcome<ClientUser>): (r: Session)
    ensures !HasToken(s) ==> r == s
    ensures HasToken(s) && me.Answered? ==>
      r.user == Some(me.value) && r.isAuthenticated && r.storedToken == s.storedToken
    ensures HasToken(s) && me.Failed? ==> r == Logout(s)
    ensures Consistent(s) ==> Consistent(r)
  {
    if !HasToken(s) then s
    else match me
      case Answered(u) => s.(user := Some(u), isAuthenticated := true)
      case Failed => Session(None, None, false)
  }

  /** `partialize`: the part of the state written to local storage. */
  function Persist(s: Session): (p: Persisted)
    ensures p.user == s.user && p.isAuthenticated == s.isAuthenticated
  {
    Persisted(s.user, s.isAuthenticated)
  }

  /** Restoring a persisted state next to the token local storage holds. */
  function Restore(p: Persisted, storedToken: Option<string>): (s: Session)
    ensures Persist(s) == p && s.storedToken == storedToken
  {
    Session(storedToken, p.user, p.isAuthenticated)
  }

  /** Persisting and restoring keeps the whole session: the token is never lost,
      because it is stored apart. */
  lemma PersistRestore(s: Session)
    ensures Restore(Persist(s), s.storedToken) == s
  {
  }

  /** After a logout, start-up stays signed out whatever the server would answer. */
  lemma LogoutSticks(s: Session, me: Outcome<ClientUser>)
    ensures Initialize(Logout(s), me) == Logout(s)
    ensures !Initialize(Logout(s), me).isAuthenticated
  {
  }

  /** An answered sign-in followed by a start-up with a failing token check ends
      signed out with no token: a stale persisted flag never outlives its token. */
  lemma StaleTokenSignsOut(s: Session, resp: AuthResponse)
    requires resp.token != ""
    ensures Initialize(SignIn(s, Answered(resp)).0, Failed) == Session(None, None, false)
  {
  }
}

=== FILE: user_management.dfy ===
/** The user management page: the role picker per user, the request a change sends,
    and the role badge. The page remembers each pick in an override map keyed by
    user id and shows the pick in place of the stored role. */
module UserManagement {
  import opened Wrappers
  import opened Schema
  import Strings
  import Storage
  import Routes
  import Auth
  import App

  /** `selectedRole`: the role picked for each user id on this page. */
  type Overrides = map<int, string>

  /** The options of the role picker. */
  const RoleOptions: seq<string> := ["user", "admin"]

  lemma RoleOptionsMatchSchema()
    ensures RoleOptions == RoleNames
    ensures forall i :: 0 <= i < |RoleOptions| ==> ParseRole(RoleOptions[i]).Some?
  {
  }

  /** The role change mutation: `PUT /api/admin/users/<id>/role` with the role alone
      in the body. */
  function RoleRequest(userId: int, role: string): (r: App.Request)
    ensures r.verb == "PUT"
    ensures Strings.StartsWith(r.path, "/api/admin/users/")
    ensures r.body.Keys == {"role"} && r.body["role"] == JStr(role)
  {
    var path := "/api/admin/users/" + Strings.IntToString(userId) + "/role";
    assert path[..17] == "/api/admin/users/";
    App.Request("PUT", path, map["role" := JStr(role)])
  }

  /** `handleRoleChange(userId, newRole)`: record the pick for that user and send one
      request for it. No other user's pick changes. */
  function HandleRoleChange(picks: Overrides, userId: int, newRole: string): (r: (Overrides, App.Request))
    ensures userId in r.0 && r.0[userId] == newRole
    ensures r.0.Keys == picks.Keys + {userId}
    ensures forall id :: id in picks && id != userId ==> r.0[id] == picks[id]
    ensures r.1 == RoleRequest(userId, newRole)
  {
    (picks[userId := newRole], RoleRequest(userId, newRole))
  }

  /** `selectedRole[user.id] || user.role`: a non-empty pick wins over the stored role. */
  function DisplayedRole(picks: Overrides, u: Routes.SafeUser): (r: string)
    ensures u.id in picks && picks[u.id] != "" ==> r == picks[u.id]
    ensures !(u.id in picks && picks[u.id] != "") ==> r == RoleName(u.role)
  {
    if u.id in picks && picks[u.id] != "" then picks[u.id] else RoleName(u.role)
  }

  /** After a pick the picker shows it for that user, and every other user's picker
      shows what it showed before. */
  lemma PickShown(picks: Overrides, u: Routes.SafeUser, other: Routes.SafeUser, newRole: string)
    requires newRole != "" && other.id != u.id
    ensures DisplayedRole(HandleRoleChange(picks, u.id, newRole).0, u) == newRole
    ensures DisplayedRole(HandleRoleChange(picks, u.id, newRole).0, other) == DisplayedRole(picks, other)
  {
  }

  /** A failed change is not rolled back: an admin picking a different role for their
      own account gets 400 from the server and the store keeps the old role, yet the
      picker shows the new one. */
  lemma OwnRoleRefusedButShown(s: Storage.Store, header: Option<string>, verify: Auth.Verifier,
                               picks: Overrides, newRole: string)
    requires Routes.AuthenticateAdmin(s, header, verify).Ok?
    requires newRole in RoleNames && newRole != RoleName(AdminRole)
    ensures var me := Routes.AuthenticateAdmin(s, header, verify).value;
      var (picks', req) := HandleRoleChange(picks, me.id, newRole);
      && Routes.ChangeRole(s, header, verify, me.id, req.body) == (Routes.Fail(Routes.BadRequest, "Cannot change your own role"), s)
      && DisplayedRole(picks', Routes.Safe(me)) == newRole != RoleName(me.role)
  {
  }

  /** When the server accepts a change, the role it reports, and the role the store
      then holds for that user, is the role the picker shows. */
  lemma AcceptedChangeAgrees(s: Storage.Store, header: Option<string>, verify: Auth.Verifier,
                             picks: Overrides, userId: int, newRole: string)
    requires Routes.AuthenticateAdmin(s, header, verify).Ok? && userId != Routes.AuthenticateAdmin(s, header, verify).value.id
    requires newRole in RoleNames && Storage.GetUser(s, userId).Some?
    ensures var (reply, s') := Routes.ChangeRole(s, header, verify, userId, HandleRoleChange(picks, userId, newRole).1.body);
      && reply.body.UserBody? && reply.body.safeUser.id == userId
      && DisplayedRole(HandleRoleChange(picks, userId, newRole).0, reply.body.safeUser) == RoleName(reply.body.safeUser.role)
      && Storage.GetUser(s', userId).Some?
      && RoleName(Storage.GetUser(s', userId).value.role) == DisplayedRole(HandleRoleChange(picks, userId, newRole).0, reply.body.safeUser)
  {
    Storage.UpdateUserRoleReadBack(s, userId, ParseRole(newRole).value);
  }

  datatype RoleBadge = RedBadge | BlueBadge | GrayBadge

  /** `getRoleColor(role)`: admin red, user blue, anything else gray. */
  function RoleColor(role: string): (b: RoleBadge)
    ensures b == RedBadge <==> role == "admin"
    ensures b == BlueBadge <==> role == "user"
  {
    match role
    case "admin" => RedBadge
    case "user" => BlueBadge
    case _ => GrayBadge
  }

  /** Every stored user shows a red or blue badge, never the gray one, and the badge
      tells the two roles apart. */
  lemma StoredRolesColoured(r: Role)
    ensures RoleColor(RoleName(r)) != GrayBadge
    ensures RoleColor(RoleName(r)) == RedBadge <==> r == AdminRole
  {
  }
}

=== FILE: wrappers.dfy ===
/** Option and Result: the model's stand-ins for `undefined`/`null` returns and thrown errors. */
module Wrappers {

  /** A value that may be absent (`undefined` or `null` in the system). */
  datatype Option<+T> = None | Some(value: T)

  /** The outcome of a step that may fail with an error value. */
  datatype Result<+T, +E> = Ok(value: T) | Err(error: E)

  /** The value if present, `default` otherwise. */
  function GetOr<T>(o: Option<T>, default: T): T
  {
    if o.Some? then o.value else default
  }
}
